=== FILE: README.md ===
# Mentoroid backend, modelled in Dafny

Mentoroid is a Flask e-learning backend. Teachers publish courses and
quizzes; students enrol, take quizzes and see a leaderboard; both receive
notifications. This project models the business logic of its request
handlers. Each handler is a pure transition on one immutable `Store`, the
eight tables of `BACKEND/models.py`, and returns the new store and a
`Response`: a value, or an HTTP status with the `error` string.

The project also models the Python string operations the handlers rely on:
- `in`, `split`, `strip` and `int()`;
- the two `re.match` validators of sign-up;
- the id extraction from YouTube URLs.

It then proves properties of the model:
- error precedence and "nothing changes on error";
- exact contents of the rows added, and the schema's key and uniqueness
  constraints kept by every transition;
- the leaderboard and inbox orderings;
- round trips for `int(str(n))` and for the URL id extraction.

Modules, one per area of the program:

| module | file | models |
|---|---|---|
| Basics | basics.dfy | `Option`, `Filter`, `Map`, `FindIndex`, counting, an insertion sort |
| Strings | strings.dfy | `pat in s`, `s.split(sep)`, `s.strip()`, `int(s)` |
| Models | models.dfy | the tables, the store invariant, notification fan-out, the quiz delete cascade |
| Auth | auth.dfy | `is_valid_email`, `is_strong_password`, `signup`, `login` |
| Courses | courses.dfy | `create_course`, `enroll_in_course`, `update_course` |
| Quizzes | quizzes.dfy | `create_quiz`, `get_quizzes_for_student` |
| Grading | grading.dfy | `submit_quiz`, `update_quiz_score` |
| Ranking | ranking.dfy | both leaderboard handlers, the submission-detail not-found branch |
| Dashboard | dashboard.dfy | the student and teacher dashboards |
| Notifications | notifications.dfy | `get_notifications`, `mark_read` |
| YouTube | youtube.dfy | `fetch_playlist`, `fetch_video_details` |
| CourseVideos | course_videos.dfy | `get_youtube_videos` |

Modelling choices:
- **Ids and timestamps.** Every inserted row takes the store's counter `next` as its id. Where the row records a time, the counter is also its timestamp. Ids and timestamps are only ever compared.
- **Request fields.** A request field is an `Option`, where `None` is a missing key. Python truthiness is `Truthy` (present and non-empty) or `TruthyInt` (present and non-zero).
- **Database.** The connection string comes from the environment; the model takes the database to be PostgreSQL.
  - Text bound to an integer column is read as an integer, here as `int()` reads it. Text that is not an integer is a database error, reported as a 500.
  - Foreign keys are enforced. A row whose user, course or quiz id names no row is rejected when it is flushed, and the handler reports a 500 with nothing stored.
  - Null scores sort above every number, so `ORDER BY score DESC` lists them first.
  - A query without `ORDER BY` is modelled as returning its rows in table order. The database promises no order there, so a client can rely only on the contents of such lists.
- **`int()`.** `Strings.ParseInt` follows CPython's default `sys.int_max_str_digits`: text of more than 4300 digits is a `ValueError`, like any other text that is not an integer. So a teacher id of 5000 digits is a 400 "Invalid teacher ID" in `update_course`.
- **JSON values.** A JSON body value is taken to have its column's type: `student_id`, `teacher_id`, `course_id`, `question_id` and `time_taken` are integers.
- **Uncaught exceptions.** An exception outside a handler's `try` is Flask's 500 `Internal Server Error`.
- **Foreign calls** are parameters:
  - the SHA-256 hash is an uninterpreted `hash` function;
  - a Cloudinary upload through `cloudinary.uploader` is the URL it returned;
  - the YouTube API reply is a function from the request to the videos it returns.

## Model

| member | source | states |
|---|---|---|
| Models.Notify | BACKEND/routes/courses.py:53-59 | appends one unread notification per recipient, in recipient order, each with a fresh id and stamp; only the notification table and the counter change |
| Models.NotifyAddresses | BACKEND/routes/quiz.py:70-76 | the notifications added are addressed to exactly the recipients, in order, unread, with the given message |
| Models.NotifyPreservesValid | BACKEND/models.py:40-45 | notification fan-out keeps every key and uniqueness constraint and keeps stamps increasing along the table |
| Models.DeleteQuiz | BACKEND/models.py:58-59 | deleting a quiz removes its questions and submissions, and by the further cascades their answers; every other quiz, question, submission and answer stays, no row is added, and the other tables are unchanged |
| Models.DeleteQuizPreservesValid | BACKEND/models.py:58-94 | the cascade delete keeps all of the schema's constraints |
| Auth.DropFinalNewline | BACKEND/routes/auth.py:22 | `$` matches at the end or before one final newline: the core is the email or the email less that newline |
| Auth.IsValidEmailMatchesPattern | BACKEND/routes/auth.py:21-22 | the email check accepts exactly the strings that are a non-empty newline-free prefix (which may contain `@`), then `@gmail.com`, `@yahoo.com` or `@outlook.com`, then at most one newline |
| Auth.IsStrongPasswordMatchesPattern | BACKEND/routes/auth.py:24-25 | the password check accepts exactly the strings with an ASCII upper-case letter, an ASCII lower-case letter, a Unicode decimal digit (what `\d` matches in a `str` pattern) and one of `@$!%*?&`, and at least 8 newline-free characters before an optional final newline |
| Auth.DecimalDigitAccepted | BACKEND/routes/auth.py:25 | `\d` is not only ASCII: `Abcdefg@٣`, whose one digit is ARABIC-INDIC DIGIT THREE, is a strong password |
| Auth.Signup | BACKEND/routes/auth.py:42-72 | as intended, with the image uploaded through `cloudinary.uploader`: errors in the order missing field, invalid email, weak password, taken email, none of which changes the store; success exactly when none applies, and it adds exactly one user holding the hash of the password |
| Auth.SignupAsWritten | BACKEND/routes/auth.py:15-19 | as written, a sign-up with an image is the 500 of the `except` with nothing stored exactly where the intended sign-up succeeds, and otherwise answers as the intended one |
| Auth.AsWrittenImageSignupExample | BACKEND/routes/auth.py:55-58 | a complete, valid sign-up with an image: intended, it succeeds; as written, it is the 500 |
| Auth.SignupPreservesValid | BACKEND/routes/auth.py:48-70 | sign-up keeps emails unique and ids fresh |
| Auth.Login | BACKEND/routes/auth.py:81-95 | a 500 exactly when the `email` or `password` key is missing; otherwise succeeds exactly when some user has the email and the hash of the password, and returns that user's fields, and is a 401 when none has |
| Courses.StudentIdsExact | BACKEND/routes/courses.py:52 | the students notified are every user whose role is `student`, each once |
| Courses.CreateCourse | BACKEND/routes/courses.py:21-62 | 400 when title, description or teacher id is missing or empty; a 500 for a missing link, or a teacher id that is not an integer or names no user; success exactly when none applies, and it appends the course with a zero counter and notifies exactly the students; users, enrollments and quiz tables are unchanged |
| Courses.CreateCourseNotifiesStudents | BACKEND/routes/courses.py:52-59 | a user is notified of a new course exactly when the user's role is `student`, and no one twice |
| Courses.CreateCoursePreservesValid | BACKEND/routes/courses.py:42-61 | course creation keeps the store's constraints |
| Courses.Enroll | BACKEND/routes/courses.py:72-101 | 400 for a missing student id or an existing enrollment, and a 500 for an unknown course or student, none of which changes the store; success exactly when none applies, and it adds one enrollment row, raises the course counter by one (a null counter becomes 1) and notifies the course's teacher, and changes nothing else |
| Courses.EnrollPreservesValid | BACKEND/models.py:37 | enrolling keeps the (student, course) pair unique |
| Courses.EnrollTwiceRefused | BACKEND/routes/courses.py:79-80 | enrolling the same student in the same course again is refused with no change |
| Courses.UpdateCourse | BACKEND/routes/courses.py:142-174 | 400 for a missing or non-integer teacher id and 403 for a course the teacher does not own, none of which changes the store; success exactly when none applies, and then only that course is patched |
| Courses.UpdateCourseIdempotent | BACKEND/routes/courses.py:163-171 | applying the same edit twice leaves the store as applying it once |
| Courses.UpdateCoursePreservesValid | BACKEND/routes/courses.py:153-173 | a course update keeps the store's constraints |
| Quizzes.KeptQuestionsExact | BACKEND/routes/quiz.py:55-66 | every entry with non-empty text and type is stored, and every stored question comes from such an entry |
| Quizzes.CreateQuiz | BACKEND/routes/quiz.py:30-85 | rejects in the order missing instructions, teacher, course, questions, then a 500 for a teacher or course that does not exist, with no change; success adds the quiz, its kept questions and one unread notification per enrollment row of the course |
| Quizzes.CreateQuizNotifiesEnrolled | BACKEND/routes/quiz.py:69-76 | the students notified of a new quiz are exactly those enrolled in its course, each once |
| Quizzes.CreateQuizPreservesValid | BACKEND/routes/quiz.py:46-78 | quiz creation keeps the store's constraints |
| Quizzes.EnrolledStudentsExact | BACKEND/routes/quiz.py:69 | the enrolled students of a course are listed exactly, without repeats |
| Quizzes.GroupByCourseKeys | BACKEND/routes/quiz.py:100-109 | the grouped map has a key for exactly the courses some quiz belongs to |
| Quizzes.GroupByCourseValues | BACKEND/routes/quiz.py:100-109 | each group lists that course's quizzes in table order |
| Quizzes.StudentQuizGroups | BACKEND/routes/quiz.py:95-98 | the student's map has a key for exactly the enrolled courses that have a quiz |
| Quizzes.StudentQuizGroupContents | BACKEND/routes/quiz.py:98-109 | each group holds all the quizzes of that course |
| Quizzes.QuizzesForStudent | BACKEND/routes/quiz.py:90-112 | 400 without a student id, a 500 for a non-integer id; otherwise success, with the grouping of the student's quizzes |
| Grading.Lookup | BACKEND/routes/quiz.py:180-183 | the question found has the requested id, and belongs to the quiz when the lookup is scoped; none is found exactly when no question qualifies |
| Grading.AnswerRowsRecordReplies | BACKEND/routes/quiz.py:176-204 | the answer rows record exactly the replies whose question is found, in order; the others are skipped |
| Grading.MissingKey | BACKEND/routes/quiz.py:176-178 | an entry-level key error happens exactly when some entry lacks `question_id` or `answer`, and it names the first such entry's missing key, `question_id` before `answer` |
| Grading.ScoreBounds | BACKEND/routes/quiz.py:206-210 | with no more correct answers than questions, the score is between 0 and 100, and 100 exactly when all are correct |
| Grading.Submit | BACKEND/routes/quiz.py:145-226 | errors for missing keys (in body order), a repeated submission, a quiz or student that does not exist, an answer entry's missing key (a 500 naming it) and answer rows the database rejects (a 500), none of which changes the store; success stores one submission and its answer rows, and reports correct answers over the quiz's questions as a percentage |
| Grading.SubmitTwiceRefused | BACKEND/routes/quiz.py:152-159 | a second submission by the same student to the same quiz is refused with no change |
| Grading.SubmitPreservesValid | BACKEND/models.py:85 | submitting keeps the (quiz, student) and (submission, question) pairs unique |
| Grading.SubmitQuizAsWritten | BACKEND/routes/quiz.py:181 | with the unscoped lookup, the correct count is bounded only by the stored correct answer rows |
| Grading.AsWrittenScoreExceeds100 | BACKEND/routes/quiz.py:181-208 | with the unscoped lookup, a one-question quiz answered with a second quiz's question as well scores 200 |
| Grading.SubmitQuiz | BACKEND/routes/quiz.py:206-212 | with the lookup scoped to the quiz, correct answers never outnumber the questions and the score is a percentage |
| Grading.CorrectBounded | BACKEND/routes/quiz.py:162-164 | answer rows to distinct questions of the quiz hold no more correct answers than the quiz has questions |
| Grading.ScopedScoreOnSameInput | BACKEND/routes/quiz.py:181-208 | on the same input, the scoped lookup scores 100 with one correct answer out of one question |
| Grading.UpdateQuizScore | BACKEND/routes/quiz.py:370-384 | 404 with no change when the student has no submission; otherwise success: that submission's score is overwritten, unchecked, and one notification with the score and feedback is sent to the student |
| Grading.UpdateQuizScoreSets | BACKEND/routes/quiz.py:374 | only the (quiz, student) submission changes, and only its score |
| Grading.UpdateQuizScorePreservesValid | BACKEND/routes/quiz.py:370-384 | the override keeps the store's constraints |
| Grading.OnlySubmission | BACKEND/models.py:85 | a student has at most one submission per quiz |
| Ranking.EntriesSound | BACKEND/leaderboard.py:31-32 | every leaderboard entry joins a submission of the quiz with the user whose id is its student id |
| Ranking.EntriesComplete | BACKEND/leaderboard.py:31-32 | every submission of the quiz whose student is a user has an entry |
| Ranking.PrecedesOrder | BACKEND/leaderboard.py:33-36 | score descending with nulls first, then time taken ascending, is a total preorder |
| Ranking.Leaderboard | BACKEND/routes/quiz.py:233-251 | 404 exactly for an unknown quiz; otherwise a permutation of the joined entries in which null scores come first, then higher scores before lower and, among equal scores, the faster |
| Ranking.LeaderboardExact | BACKEND/leaderboard.py:24-45 | the leaderboard lists exactly the joined submissions of the quiz, each entry's fields from one submission and its user |
| Ranking.SubmissionDetails | BACKEND/leaderboard.py:65-110 | 404 exactly when the student has no submission for the quiz; otherwise the 500 the missing import causes |
| Dashboard.StudentDashboard | BACKEND/routes/dashboard.py:8-32 | 400 without an id, a 500 for a non-integer id; otherwise success, with one course id per enrollment row of the student, naming exactly the enrolled courses; the cards of exactly the catalogue courses the student is enrolled in, in catalogue order; and a card for every course |
| Dashboard.CoursesOfExact | BACKEND/routes/dashboard.py:12 | a course id is listed as enrolled exactly when the student has an enrollment row for it |
| Dashboard.MyEnrolledInOrder | BACKEND/routes/dashboard.py:12-16 | picking catalogue courses by the enrolled ids gives the catalogue courses the student is enrolled in, in catalogue order, and only those |
| Dashboard.MyEnrolledExact | BACKEND/routes/dashboard.py:16-25 | a catalogue course's card is among the student's courses exactly when the student is enrolled in it |
| Dashboard.TeacherDashboard | BACKEND/routes/dashboard.py:38-53 | 400 without an id, a 500 for a non-integer id; otherwise success, with one entry for each of the teacher's courses and no other |
| Dashboard.TeacherCoursesExact | BACKEND/routes/dashboard.py:42-53 | every entry summarises a course of the teacher, and every course of the teacher is summarised |
| Dashboard.StudentCountIsHeadcount | BACKEND/routes/dashboard.py:46 | a course's student count is its number of enrollment rows, which is the number of distinct students enrolled, not the stored counter |
| Notifications.NewestFirst | BACKEND/routes/notifications.py:9 | a permutation of the user's notifications with no notification listed before a newer one |
| Notifications.Inbox | BACKEND/routes/notifications.py:9 | min(20, the user's count) of the user's notifications and only theirs, none listed more often than it is stored, newest first, and none left out that is newer than one listed |
| Notifications.InboxKeepsNewest | BACKEND/routes/notifications.py:9 | with stamps that follow insertion, a listed notification implies every later one of the user is listed |
| Notifications.NotifyHeadsInbox | BACKEND/routes/notifications.py:9 | with stamps that follow insertion, a notification just sent heads its recipient's inbox |
| Notifications.NotifyAsWritten | BACKEND/models.py:45 | as written, every notification carries the one stamp taken when the module was loaded |
| Notifications.AsWrittenEitherOrder | BACKEND/models.py:45 | as written, two notifications to a user share a stamp, so both of their orders are newest first |
| Notifications.AsWrittenNewestNotFirst | BACKEND/models.py:45 | as written, of two notifications to a user the newer does not head the inbox when ties keep table order |
| Notifications.MarkRead | BACKEND/routes/notifications.py:21-23 | every notification of the user becomes read; the others, all ids, messages and stamps, and all other tables are unchanged |
| Notifications.MarkReadClearsInbox | BACKEND/routes/notifications.py:21 | after marking, the user's inbox holds only read notifications |
| Notifications.MarkReadIdempotent | BACKEND/routes/notifications.py:21 | marking twice is marking once |
| Notifications.MarkReadPreservesValid | BACKEND/routes/notifications.py:21 | marking keeps the store's constraints |
| Strings.SplitJoin | BACKEND/routes/youtube.py:19 | the pieces of a split contain no separator and join back to the text |
| Strings.PieceAfter | BACKEND/routes/youtube.py:19 | `split(marker)[1].split(stop)[0]` is the text after the first marker, up to a stop, the next marker or the end, and contains neither |
| Strings.PieceAfterRoundTrip | BACKEND/routes/youtube.py:19 | a piece placed after the first marker, followed by a stop or nothing, is extracted unchanged |
| Strings.AfterLast | BACKEND/course.py:36 | `split(marker)[-1]` is the text after the last occurrence of the marker |
| Strings.PieceAfterLast | BACKEND/course.py:36 | `split(marker)[-1].split(stop)[0]` is the text after the last marker up to the next stop or the end |
| Strings.PieceAfterLastRoundTrip | BACKEND/course.py:36 | a piece placed after the last marker is extracted unchanged, whatever precedes it |
| Strings.Strip | BACKEND/course.py:20 | the result is the text less whitespace on both sides, and neither starts nor ends with whitespace |
| Strings.StripIdempotent | BACKEND/course.py:20 | stripping twice is stripping once |
| Strings.ParseIntRoundTrip | BACKEND/routes/courses.py:147-150 | `int()` reads back every integer of at most 4300 digits as Python prints it, and refuses the digits of every longer one |
| YouTube.PlaylistId | BACKEND/routes/youtube.py:19 | the playlist id is the text after the first `list=`, up to the next `&`, the next `list=` or the end, and contains neither |
| YouTube.FetchPlaylist | BACKEND/routes/youtube.py:13-21 | 400 `Missing URL` exactly without a URL, 400 `Invalid playlist URL` exactly for a URL without `list=`, otherwise the playlist id |
| YouTube.FetchPlaylistRoundTrip | BACKEND/routes/youtube.py:18-19 | a URL built around a playlist id yields that id |
| YouTube.FetchVideoDetails | BACKEND/routes/youtube.py:47-49 | 400 `Missing video ID` exactly without an id; otherwise the id is passed on unchanged |
| CourseVideos.WatchId | BACKEND/course.py:36 | the video id is the text after the last `v=` up to the next `&` or the end |
| CourseVideos.ShortId | BACKEND/course.py:48 | the video id is the text after the first `youtu.be/` up to the next `?`, the next `youtu.be/` or the end |
| CourseVideos.UrlTarget | BACKEND/course.py:24-48 | a playlist exactly when the link has `list=`; otherwise a video when it has `v=` or `youtu.be/`, with `v=` first; otherwise nothing |
| CourseVideos.TargetIgnoresSpace | BACKEND/course.py:20 | whitespace around a link does not change where it leads |
| CourseVideos.PlaylistLinkTarget | BACKEND/course.py:24-25 | a playlist link built around an id leads to that playlist |
| CourseVideos.WatchLinkTarget | BACKEND/course.py:35-36 | a watch link built around an id leads to that video |
| CourseVideos.ShortLinkTarget | BACKEND/course.py:47-48 | a short link built around an id leads to that video |
| CourseVideos.CourseTarget | BACKEND/course.py:16-20 | no request for a missing course or an empty link; otherwise the request the course's link leads to |
| CourseVideos.CourseTargetOf | BACKEND/course.py:16-18 | the course found is the one with the requested id |
| CourseVideos.Videos | BACKEND/course.py:23-59 | as intended: a playlist yields the reply's videos, a video at most the first item under the link's id, and no request yields nothing |
| CourseVideos.VideosAsWritten | BACKEND/course.py:26-63 | as written, the list is always empty |
| CourseVideos.AsWrittenListsNothing | BACKEND/course.py:26-63 | a course with a playlist link lists nothing as written, and the playlist's video as intended |

## Left out

- Flask routing, CORS headers, `OPTIONS` preflight replies, JSON (de)serialisation and `strftime` formatting are plumbing. Responses are a datatype.
- Sessions and commits: each handler is one atomic transition, though `update_quiz_score` commits twice. Races between a duplicate pre-check and the insert are not modelled.
- The generic `except` branches that turn any other exception into a 500 are not modelled, beyond the errors named in the contracts. The exception's text is not reproduced.
- Scores are exact `real`s, not floats. `datetime` values are the store's counter.
- SHA-256 and the Cloudinary uploads are foreign calls: an uninterpreted function and the URL the upload returned. Auth.SignupAsWritten assumes the library's configuration object answers `None` for an attribute it does not have, and takes the 500's text to be the resulting `AttributeError`.
- The YouTube HTTP requests and the playlist paging loop are network I/O. YouTube.FetchPlaylist and YouTube.FetchVideoDetails return the id they would send to the API, not the API's reply.
- `fetch_video_details` API error and not-found branches are network replies and are not modelled.
- `BACKEND/course.py` cannot load: it imports `YOUTUBE_API_KEY`, which `routes/youtube.py` does not define, and `app.py` never registers it. CourseVideos models its string logic as if it loaded.
- Notification text: the f-string messages are a structured `Message` datatype.
- `int()` on non-ASCII Unicode digits is not modelled; only ASCII digits are accepted.
- The digits `\d` matches are those of Unicode 15.0, as in Python 3.12. Other Python versions use other Unicode versions.
- JSON keys present with a null value are not distinguished from missing keys.
- Foreign keys of rows built from stored rows are not re-checked: notification recipients, the course's teacher, the answer rows' questions. An enforced schema keeps them pointing at existing rows, and the store invariant does not carry that.
- The model does not follow SQLite. There, text in an integer column is stored as text, and foreign keys are not enforced unless switched on. Under SQLite:
  - `create_course` stores a non-integer teacher id and succeeds, where Courses.CreateCourse returns a 500;
  - the two dashboards and the student's quiz list return empty results for a non-integer id, where the model returns a 500;
  - a request naming a user, course or quiz that does not exist succeeds, where Courses.Enroll, Courses.CreateCourse, Quizzes.CreateQuiz and Grading.Submit return a 500;
  - null scores sort last on the leaderboard.
- PostgreSQL's integer columns are 32-bit and its integer input differs from `int()` in corner cases (underscores, non-ASCII digits). The model reads ids as unbounded integers with `int()`'s syntax.
- A JSON value of another type than its column (a string `"5"` for `student_id`, a float) is not modelled.
- Column length limits (`String(n)`) are not modelled.
- The unused `Enrollment.students` column is not modelled.
- A request body that is not JSON is not modelled. Flask answers it with an error before the handler's logic runs.
- When a key error and a database error could both occur, the key error is reported.
- The leaderboard join takes the first user with the student's id. User ids are a primary key, so there is only one.
- The read-only projections (`get_quiz`, `/quizzes`, the submission lists, the course detail endpoints) are not modelled.
- The teacher dashboard's constant `actions` list is not modelled.
- `routes/contact.py`, `app.py` and the frontend store are not part of this model.
- The timestamp default of `Quiz.created_at` (`BACKEND/models.py:55`) and of `QuizSubmission.submitted_at` (`BACKEND/models.py:79`) is evaluated once, as for notifications. No handler orders by them, so the model gives them the counter.

## Findings

| source | as written | input that shows it | evidently intended | confidence | as-written member | corrected member |
|---|---|---|---|---|---|---|
| BACKEND/models.py:45 | `default=datetime.now()` is evaluated once, when the module loads, so every notification has the same timestamp and `ORDER BY timestamp DESC LIMIT 20` cannot tell old from new | two notifications sent to user 1, one after the other: they share a stamp, so both orders are newest first (Notifications.AsWrittenEitherOrder), and under the model's tie-break by table order the older one is listed first | a stamp taken at each insert (`default=datetime.now`), so the newest notification heads the inbox | not executed; high | Notifications.AsWrittenNewestNotFirst | Notifications.NotifyHeadsInbox |
| BACKEND/routes/quiz.py:181 | `Question.query.get(question_id)` looks the question up among all quizzes, so an answer to another quiz's question is graded and counted against this quiz | a quiz with one MCQ question, answered with it and with a correct answer to a question of another quiz: score 200 | the lookup restricted to the quiz's questions, giving a score of at most 100 | not executed; high | Grading.AsWrittenScoreExceeds100 | Grading.SubmitQuiz |
| BACKEND/course.py:26 | the assignment `api_url = f"{api_url}/..."` makes `api_url` local to the handler, so reading it raises `UnboundLocalError`; the `except` returns an empty list | a course whose link is `list=PL`, for a playlist with one video: the list is empty | the module-level `api_url` read from the environment, with the playlist's videos returned | not executed; high | CourseVideos.AsWrittenListsNothing | CourseVideos.Videos |
| BACKEND/routes/auth.py:15 | `cloud = cloudinary.config(...)` binds the library's configuration object, not the `cloudinary.uploader` module, so `cloud.uploader.upload(image_file)` at line 57 raises and the `except` answers a 500 | a sign-up with email `ana@gmail.com`, password `Abcdefg@1`, role `student` and an image: 500, no user stored | the upload through `cloudinary.uploader`, as `create_course` does at `BACKEND/routes/courses.py:39`, storing the returned URL | not executed; medium | Auth.AsWrittenImageSignupExample | Auth.Signup |

=== FILE: auth.dfy ===
/** Sign-up validation and login (BACKEND/routes/auth.py): the two regular
    expressions as string predicates, each checked against a reference
    reading of its pattern, and the sign-up and login handlers as store
    transitions. SHA-256 is a parameter `hash`, about which nothing is
    assumed. */
module Auth {
  import opened Basics
  import opened Models

  predicate NoNewline(s: string)
  {
    forall i :: 0 <= i < |s| ==> s[i] != '\n'
  }

  /** The three accepted mail domains. */
  const Domains: set<string> := {"@gmail.com", "@yahoo.com", "@outlook.com"}

  /** A domain, optionally followed by the one final newline before which
      Python's `$` also matches. */
  predicate IsEmailTail(t: string)
  {
    t in Domains || (|t| > 0 && t[|t| - 1] == '\n' && t[..|t| - 1] in Domains)
  }

  /** The strings `re.match(r".+@(gmail|yahoo|outlook)\.com$", email)`
      accepts, read off the pattern: one or more characters other than a
      newline (`.+`, which may itself contain `@`), then a domain, then the
      end of the string or a final newline. */
  ghost predicate EmailPattern(email: string)
  {
    exists k :: 1 <= k <= |email| && NoNewline(email[..k]) && IsEmailTail(email[k..])
  }

  /** `core` is a non-empty newline-free prefix followed by domain `d`. */
  predicate EndsWithDomain(core: string, d: string)
  {
    |core| > |d| && core[|core| - |d|..] == d && NoNewline(core[..|core| - |d|])
  }

  /** `is_valid_email`: drop one final newline, then look for a domain at
      the end of what remains, after a newline-free non-empty prefix. */
  function IsValidEmail(email: string): bool
  {
    var core := DropFinalNewline(email);
    EndsWithDomain(core, "@gmail.com") || EndsWithDomain(core, "@yahoo.com")
    || EndsWithDomain(core, "@outlook.com")
  }

  /** `email` without one final newline. */
  function DropFinalNewline(email: string): (core: string)
    ensures core == email || (core + "\n" == email)
  {
    if |email| > 0 && email[|email| - 1] == '\n' then email[..|email| - 1] else email
  }

  lemma ValidEmailHasPattern(email: string, d: string)
    requires d in Domains
    requires EndsWithDomain(DropFinalNewline(email), d)
    ensures EmailPattern(email)
  {
    var core := DropFinalNewline(email);
    var k := |core| - |d|;
    assert core == email[..|core|];
    assert email[..k] == core[..k];
    if core != email {
      assert email[k..][..|email[k..]| - 1] == d;
    } else {
      assert email[k..] == d;
    }
  }

  lemma PatternIsValidEmail(email: string)
    requires EmailPattern(email)
    ensures EndsWithDomain(DropFinalNewline(email), "@gmail.com")
         || EndsWithDomain(DropFinalNewline(email), "@yahoo.com")
         || EndsWithDomain(DropFinalNewline(email), "@outlook.com")
  {
    var k :| 1 <= k <= |email| && NoNewline(email[..k]) && IsEmailTail(email[k..]);
    var t := email[k..];
    if t in Domains {
      PrefixThenDomain(email, k, t);
    } else {
      var d := t[..|t| - 1];
      assert t == d + "\n";
      PrefixThenDomain(email, k, d);
    }
  }

  /** A newline-free prefix, a domain and at most one newline: dropping the
      newline leaves the prefix followed by the domain. */
  lemma PrefixThenDomain(email: string, k: nat, d: string)
    requires d in Domains && 1 <= k <= |email| && NoNewline(email[..k])
    requires email[k..] == d || email[k..] == d + "\n"
    ensures EndsWithDomain(DropFinalNewline(email), "@gmail.com")
         || EndsWithDomain(DropFinalNewline(email), "@yahoo.com")
         || EndsWithDomain(DropFinalNewline(email), "@outlook.com")
  {
    assert d == "@gmail.com" || d == "@yahoo.com" || d == "@outlook.com";
    PrefixThenOneDomain(email, k, d);
  }

  lemma PrefixThenOneDomain(email: string, k: nat, d: string)
    requires d in Domains && 1 <= k <= |email| && NoNewline(email[..k])
    requires email[k..] == d || email[k..] == d + "\n"
    ensures EndsWithDomain(DropFinalNewline(email), d)
  {
    assert d[|d| - 1] == 'm' by {
      assert d == "@gmail.com" || d == "@yahoo.com" || d == "@outlook.com";
    }
    var core := email[..k] + d;
    if email[k..] == d {
      assert email == core;
    } else {
      assert email == core + "\n";
      assert DropFinalNewline(email) == core;
    }
    assert core[|core| - |d|..] == d;
    assert core[..|core| - |d|] == email[..k];
  }

  /** `is_valid_email` accepts exactly what its regular expression
      accepts. */
  lemma IsValidEmailMatchesPattern(email: string)
    ensures IsValidEmail(email) <==> EmailPattern(email)
  {
    var core := DropFinalNewline(email);
    if EndsWithDomain(core, "@gmail.com") {
      ValidEmailHasPattern(email, "@gmail.com");
    } else if EndsWithDomain(core, "@yahoo.com") {
      ValidEmailHasPattern(email, "@yahoo.com");
    } else if EndsWithDomain(core, "@outlook.com") {
      ValidEmailHasPattern(email, "@outlook.com");
    }
    if EmailPattern(email) {
      PatternIsValidEmail(email);
    }
  }

  predicate IsUpper(c: char) { 'A' <= c <= 'Z' }
  predicate IsLower(c: char) { 'a' <= c <= 'z' }

  /** The code points of the zeros of the Unicode decimal digits
      (category Nd) of Unicode 15.0, the database of Python 3.12: each is
      followed by the digits one to nine. */
  const DecimalZeros: set<int> := {
      0x0030, 0x0660, 0x06F0, 0x07C0, 0x0966, 0x09E6, 0x0A66, 0x0AE6,
      0x0B66, 0x0BE6, 0x0C66, 0x0CE6, 0x0D66, 0x0DE6, 0x0E50, 0x0ED0,
      0x0F20, 0x1040, 0x1090, 0x17E0, 0x1810, 0x1946, 0x19D0, 0x1A80,
      0x1A90, 0x1B50, 0x1BB0, 0x1C40, 0x1C50, 0xA620, 0xA8D0, 0xA900,
      0xA9D0, 0xA9F0, 0xAA50, 0xABF0, 0xFF10, 0x104A0, 0x10D30, 0x11066,
      0x110F0, 0x11136, 0x111D0, 0x112F0, 0x11450, 0x114D0, 0x11650, 0x116C0,
      0x11730, 0x118E0, 0x11950, 0x11C50, 0x11D50, 0x11DA0, 0x11F50, 0x16A60,
      0x16AC0, 0x16B50, 0x1D7CE, 0x1D7D8, 0x1D7E2, 0x1D7EC, 0x1D7F6, 0x1E140,
      0x1E2F0, 0x1E4F0, 0x1E950, 0x1FBF0
    }

  /** Python's `\d` in a `str` pattern: a Unicode decimal digit, ASCII
      `0`-`9` among them. */
  predicate IsDecimal(c: char)
  {
    exists z :: z in DecimalZeros && z <= c as int < z + 10
  }

  predicate IsSpecial(c: char) { c in "@$!%*?&" }

  /** Some character of `s` satisfies `p`. */
  predicate AnyChar(s: string, p: char -> bool)
  {
    exists i :: 0 <= i < |s| && p(s[i])
  }

  /** The first `n` characters of `pw` are a body `.{8,}` can match, with
      the four lookaheads satisfied inside it, and after it comes the end
      or one final newline. */
  predicate PasswordBody(pw: string, n: nat)
    requires n <= |pw|
  {
    var body := pw[..n];
    && 8 <= n && NoNewline(body)
    && (n == |pw| || (n + 1 == |pw| && pw[n] == '\n'))
    && AnyChar(body, IsUpper) && AnyChar(body, IsLower)
    && AnyChar(body, IsDecimal) && AnyChar(body, IsSpecial)
  }

  /** The strings
      `re.match(r'^(?=.*[A-Z])(?=.*[a-z])(?=.*\d)(?=.*[@$!%*?&]).{8,}$', pw)`
      accepts: the lookaheads scan with `.*`, which cannot pass a newline,
      so they see exactly the body that `.{8,}$` consumes. */
  ghost predicate PasswordPattern(pw: string)
  {
    exists n :: 0 <= n <= |pw| && PasswordBody(pw, n)
  }

  /** `is_strong_password`: the body is the password without one final
      newline. */
  function IsStrongPassword(pw: string): bool
  {
    var body := if |pw| > 0 && pw[|pw| - 1] == '\n' then pw[..|pw| - 1] else pw;
    && |body| >= 8 && NoNewline(body)
    && AnyChar(body, IsUpper) && AnyChar(body, IsLower)
    && AnyChar(body, IsDecimal) && AnyChar(body, IsSpecial)
  }

  /** `is_strong_password` accepts exactly what its regular expression
      accepts. */
  lemma IsStrongPasswordMatchesPattern(pw: string)
    ensures IsStrongPassword(pw) <==> PasswordPattern(pw)
  {
    var n := if |pw| > 0 && pw[|pw| - 1] == '\n' then |pw| - 1 else |pw|;
    assert pw[..n] == (if |pw| > 0 && pw[|pw| - 1] == '\n' then pw[..|pw| - 1] else pw);
    if IsStrongPassword(pw) {
      assert PasswordBody(pw, n);
    }
    if PasswordPattern(pw) {
      var m :| 0 <= m <= |pw| && PasswordBody(pw, m);
      if m == |pw| {
        assert pw[..m] == pw;
        assert pw[|pw| - 1] != '\n';
      }
      assert m == n;
    }
  }
  /** `\d` is not only ASCII: a password whose one digit is ARABIC-INDIC
      DIGIT THREE (U+0663) is strong. */
  lemma DecimalDigitAccepted()
    ensures IsStrongPassword("Abcdefg@\U{0663}")
    ensures PasswordPattern("Abcdefg@\U{0663}")
  {
    var pw := "Abcdefg@\U{0663}";
    assert IsUpper(pw[0]) && IsLower(pw[1]) && IsSpecial(pw[7]);
    assert pw[8] as int == 0x0663 && 0x0660 in DecimalZeros;
    assert IsDecimal(pw[8]);
    IsStrongPasswordMatchesPattern(pw);
  }


  datatype SignupForm = SignupForm(email: Option<string>, password: Option<string>,
                                   role: Option<string>, name: Option<string>)

  /** Some user already has this email. */
  predicate EmailTaken(users: seq<User>, email: string)
  {
    exists i :: 0 <= i < |users| && users[i].email == email
  }

  /** `signup` as intended, with the image uploaded through the
      `cloudinary.uploader` module as `create_course` does. `imageUrl` is
      what the upload returned, if an image was sent. Errors come in a fixed order: a missing field, an invalid
      email, a weak password, a taken email; a successful sign-up adds one
      user holding the hash of the password, never the password. */
  function Signup(s: Store, form: SignupForm, hash: string -> string, imageUrl: Option<string>)
    : (r: Outcome<string>)
    ensures r.response.Err? ==> r.store == s
    ensures r.response == Err(400, "Missing required fields")
      <==> !Truthy(form.email) || !Truthy(form.password) || !Truthy(form.role)
    ensures r.response == Err(400, "Invalid email")
      <==> && Truthy(form.email) && Truthy(form.password) && Truthy(form.role)
           && !EmailPattern(form.email.value)
    ensures r.response == Err(400, "Weak password")
      <==> && Truthy(form.email) && Truthy(form.password) && Truthy(form.role)
           && EmailPattern(form.email.value) && !PasswordPattern(form.password.value)
    ensures r.response == Err(400, "Email already exists")
      <==> && Truthy(form.email) && Truthy(form.password) && Truthy(form.role)
           && EmailPattern(form.email.value) && PasswordPattern(form.password.value)
           && EmailTaken(s.users, form.email.value)
    ensures r.response.Ok?
      <==> && Truthy(form.email) && Truthy(form.password) && Truthy(form.role)
           && EmailPattern(form.email.value) && PasswordPattern(form.password.value)
           && !EmailTaken(s.users, form.email.value)
    ensures r.response.Ok? ==>
      && r.store == s.(users := r.store.users, next := s.next + 1)
      && r.store.users == s.users + [User(s.next, form.name, form.email.value,
                                          hash(form.password.value), form.role.value, imageUrl)]
  {
    if !Truthy(form.email) || !Truthy(form.password) || !Truthy(form.role) then
      Outcome(s, Err(400, "Missing required fields"))
    else
      var email, password := form.email.value, form.password.value;
      IsValidEmailMatchesPattern(email);
      IsStrongPasswordMatchesPattern(password);
      if !IsValidEmail(email) then Outcome(s, Err(400, "Invalid email"))
      else if !IsStrongPassword(password) then Outcome(s, Err(400, "Weak password"))
      else if EmailTaken(s.users, email) then Outcome(s, Err(400, "Email already exists"))
      else
        var u := User(s.next, form.name, email, hash(password), form.role.value, imageUrl);
        Outcome(s.(users := s.users + [u], next := s.next + 1), Ok("Signup successful"))
  }

  /** The 500 `signup` answers when the upload raises: the `except`
      reports `str(e)` of the `AttributeError`. */
  const UploadFailed: string :=
    "Internal server error: 'NoneType' object has no attribute 'upload'"

  /** `signup` as written. `cloud` is bound to what `cloudinary.config(...)`
      returns, the library's configuration object, whose unknown
      attributes read as `None`; so `cloud.uploader.upload(image_file)`
      raises, and a sign-up with an image ends in the `except`, a 500 with
      nothing stored. Without an image it is the intended sign-up. */
  function SignupAsWritten(s: Store, form: SignupForm, hash: string -> string, hasImage: bool)
    : (r: Outcome<string>)
    ensures !hasImage ==> r == Signup(s, form, hash, None)
    ensures hasImage ==> r.store == s && r.response.Err?
    ensures hasImage ==>
      (r.response == Err(500, UploadFailed) <==> Signup(s, form, hash, None).response.Ok?)
    ensures hasImage && Signup(s, form, hash, None).response.Err?
            ==> r.response == Signup(s, form, hash, None).response
  {
    var intended := Signup(s, form, hash, None);
    if !hasImage || intended.response.Err? then intended
    else Outcome(s, Err(500, UploadFailed))
  }

  /** As written, a sign-up with an image fails exactly where the intended
      one succeeds, whatever URL the upload would have returned. */
  lemma AsWrittenImageSignupFails(s: Store, form: SignupForm, hash: string -> string, url: string)
    ensures Signup(s, form, hash, Some(url)).response.Ok?
            <==> SignupAsWritten(s, form, hash, true) == Outcome(s, Err(500, UploadFailed))
  {
  }

  /** A concrete sign-up with an image: intended, it stores the user; as
      written, it is the 500. */
  lemma AsWrittenImageSignupExample(hash: string -> string)
    ensures var form := SignupForm(Some("ana@gmail.com"), Some("Abcdefg@1"), Some("student"), None);
      && Signup(EmptyStore, form, hash, Some("https://img")).response.Ok?
      && SignupAsWritten(EmptyStore, form, hash, true).response == Err(500, UploadFailed)
  {
    var form := SignupForm(Some("ana@gmail.com"), Some("Abcdefg@1"), Some("student"), None);
    ExampleCredentials();
    assert Truthy(form.email) && Truthy(form.password) && Truthy(form.role);
    assert !EmailTaken(EmptyStore.users, form.email.value);
    AsWrittenImageSignupFails(EmptyStore, form, hash, "https://img");
  }

  /** The example's email and password pass both regular expressions. */
  lemma ExampleCredentials()
    ensures EmailPattern("ana@gmail.com") && PasswordPattern("Abcdefg@1")
  {
    ExampleEmail();
    ExamplePassword();
  }

  lemma ExampleEmail()
    ensures EmailPattern("ana@gmail.com")
  {
    var email := "ana@gmail.com";
    assert email[3..] == "@gmail.com" && NoNewline(email[..3]);
    assert IsEmailTail(email[3..]);
  }

  lemma ExamplePassword()
    ensures PasswordPattern("Abcdefg@1")
  {
    var pw := "Abcdefg@1";
    assert pw[..9] == pw;
    assert IsUpper(pw[0]) && IsLower(pw[1]) && IsSpecial(pw[7]);
    assert pw[8] as int == 0x0031 && 0x0030 in DecimalZeros;
    assert IsDecimal(pw[8]);
    assert PasswordBody(pw, 9);
  }

  /** Sign-up keeps the store's invariant; in particular emails stay
      unique. */
  lemma SignupPreservesValid(s: Store, form: SignupForm, hash: string -> string,
                             imageUrl: Option<string>)
    requires Valid(s)
    ensures Valid(Signup(s, form, hash, imageUrl).store)
  {
    var r := Signup(s, form, hash, imageUrl);
    if r.response.Ok? {
      var u := r.store.users[|s.users|];
      assert r.store == s.(users := s.users + [u], next := s.next + 1);
      NewUserValid(s, u);
    }
  }

  /** Adding a user with id `next` and an email no user has keeps the
      invariant. */
  lemma NewUserValid(s: Store, u: User)
    requires Valid(s) && u.id == s.next && !EmailTaken(s.users, u.email)
    ensures Valid(s.(users := s.users + [u], next := s.next + 1))
  {
    GrowPreservesValid(s, s.next + 1);
    KeysBelowAppend(s.users, UserId, s.next, u, s.next + 1);
    var us := s.users + [u];
    forall i, j | 0 <= i < j < |us| ensures UserEmail(us[i]) != UserEmail(us[j]) {
      if j == |s.users| {
        assert us[i] == s.users[i];
      }
    }
  }

  /** The user fields `login` returns. */
  datatype UserInfo = UserInfo(name: Option<string>, id: nat, role: string, email: string,
                               image: Option<string>)

  /** `login`: a missing `email` or `password` key is an unhandled
      `KeyError` (and a null password fails in `encode`), which Flask turns
      into a 500. Otherwise it succeeds exactly when some user has this
      email and the hash of this password, and then describes such a
      user. */
  function Login(s: Store, email: Option<string>, password: Option<string>, hash: string -> string)
    : (r: Response<UserInfo>)
    ensures r == Err(500, InternalServerError) <==> email.None? || password.None?
    ensures r.Ok? <==> && email.Some? && password.Some?
                       && exists i | 0 <= i < |s.users| ::
                            s.users[i].email == email.value
                            && s.users[i].password == hash(password.value)
    ensures r.Ok? ==> exists i | 0 <= i < |s.users| ::
                        && s.users[i].email == email.value
                        && s.users[i].password == hash(password.value)
                        && r.value == UserInfo(s.users[i].name, s.users[i].id, s.users[i].role,
                                               s.users[i].email, s.users[i].image)
    ensures r.Err? && email.Some? && password.Some? ==> r == Err(401, "Invalid credentials")
  {
    if email.None? || password.None? then Err(500, InternalServerError)
    else
      var h := hash(password.value);
      match FindIndex(s.users, (u: User) => u.email == email.value && u.password == h)
      case None => Err(401, "Invalid credentials")
      case Some(i) =>
        var u := s.users[i];
        Ok(UserInfo(u.name, u.id, u.role, u.email, u.image))
  }
}

=== FILE: basics.dfy ===
/** Generic building blocks shared by the model: an optional value, the
    filtering and searching that the handlers do with list comprehensions
    and SQL `WHERE` clauses, and a counting argument about distinct values. */
module Basics {

  datatype Option<+T> = None | Some(value: T)

  /** The elements of `xs` that satisfy `p`, in their original order. */
  function Filter<T(==)>(xs: seq<T>, p: T -> bool): (r: seq<T>)
    ensures |r| <= |xs|
    ensures forall i :: 0 <= i < |r| ==> r[i] in xs && p(r[i])
  {
    if xs == [] then []
    else
      assert xs == [xs[0]] + xs[1..];
      if p(xs[0]) then [xs[0]] + Filter(xs[1..], p) else Filter(xs[1..], p)
  }

  /** Filtering distributes over concatenation, so filtering a table with a
      row appended is filtering the old table, then the row. */
  lemma {:induction false} FilterAppend<T>(xs: seq<T>, ys: seq<T>, p: T -> bool)
    ensures Filter(xs + ys, p) == Filter(xs, p) + Filter(ys, p)
  {
    if xs == [] {
      assert xs + ys == ys;
    } else {
      var t := xs + ys;
      assert t[0] == xs[0] && t[1..] == xs[1..] + ys;
      FilterAppend(xs[1..], ys, p);
      if p(xs[0]) {
        assert Filter(t, p) == [xs[0]] + (Filter(xs[1..], p) + Filter(ys, p));
        assert Filter(xs, p) == [xs[0]] + Filter(xs[1..], p);
      }
    }
  }

  /** Every earlier element of `xs` stands in relation `before` to every
      later one. */
  ghost predicate Ordered<T>(xs: seq<T>, before: (T, T) -> bool)
  {
    forall i, j :: 0 <= i < j < |xs| ==> before(xs[i], xs[j])
  }

  /** A filter keeps the relative order of what it keeps. */
  lemma {:induction false} FilterKeepsOrder<T>(xs: seq<T>, p: T -> bool, before: (T, T) -> bool)
    requires Ordered(xs, before)
    ensures Ordered(Filter(xs, p), before)
  {
    if xs != [] {
      var tail := xs[1..];
      assert Ordered(tail, before) by {
        forall i, j | 0 <= i < j < |tail| ensures before(tail[i], tail[j]) {
          assert tail[i] == xs[i + 1] && tail[j] == xs[j + 1];
        }
      }
      FilterKeepsOrder(tail, p, before);
      var r := Filter(xs, p);
      var rt := Filter(tail, p);
      if p(xs[0]) {
        assert r == [xs[0]] + rt;
        forall i, j | 0 <= i < j < |r| ensures before(r[i], r[j]) {
          if i == 0 {
            assert r[j] == rt[j - 1];
            assert r[j] in tail;
            var k :| 0 <= k < |tail| && tail[k] == r[j];
            assert xs[k + 1] == r[j];
          } else {
            assert r[i] == rt[i - 1] && r[j] == rt[j - 1];
          }
        }
      } else {
        assert r == rt;
      }
    }
  }

  /** A filter keeps every element that satisfies the predicate. */
  lemma {:induction false} FilterKeeps<T>(xs: seq<T>, p: T -> bool, i: nat)
    requires i < |xs| && p(xs[i])
    ensures xs[i] in Filter(xs, p)
  {
    if i > 0 {
      FilterKeeps(xs[1..], p, i - 1);
    }
  }

  /** Filters by two predicates that agree on every element of `xs` keep
      the same elements. */
  lemma {:induction false} FilterAgree<T>(xs: seq<T>, p: T -> bool, q: T -> bool)
    requires forall i :: 0 <= i < |xs| ==> p(xs[i]) == q(xs[i])
    ensures Filter(xs, p) == Filter(xs, q)
  {
    if xs != [] {
      FilterAgree(xs[1..], p, q);
    }
  }

  /** A filter that no element passes keeps nothing. */
  lemma {:induction false} FilterNone<T>(xs: seq<T>, p: T -> bool)
    requires forall i :: 0 <= i < |xs| ==> !p(xs[i])
    ensures Filter(xs, p) == []
  {
    if xs != [] {
      FilterNone(xs[1..], p);
    }
  }

  /** Filtering by `p` first changes nothing for a filter by `q` whose
      elements all satisfy `p`. */
  lemma {:induction false} FilterOfFilter<T>(xs: seq<T>, p: T -> bool, q: T -> bool)
    requires forall i :: 0 <= i < |xs| && q(xs[i]) ==> p(xs[i])
    ensures Filter(Filter(xs, p), q) == Filter(xs, q)
  {
    if xs != [] {
      FilterOfFilter(xs[1..], p, q);
    }
  }

  /** A filter takes each element at most as often as it occurs. */
  lemma {:induction false} FilterSubMultiset<T>(xs: seq<T>, p: T -> bool)
    ensures multiset(Filter(xs, p)) <= multiset(xs)
  {
    if xs != [] {
      FilterSubMultiset(xs[1..], p);
      assert xs == [xs[0]] + xs[1..];
    }
  }

  /** A prefix takes each element at most as often as the whole. */
  lemma PrefixSubMultiset<T>(xs: seq<T>, n: nat)
    requires n <= |xs|
    ensures multiset(xs[..n]) <= multiset(xs)
  {
    assert xs == xs[..n] + xs[n..];
  }

  /** `f` applied to every element of `xs`, in order. */
  function Map<T, U>(xs: seq<T>, f: T -> U): (r: seq<U>)
    ensures |r| == |xs|
    ensures forall i :: 0 <= i < |xs| ==> r[i] == f(xs[i])
  {
    seq(|xs|, i requires 0 <= i < |xs| => f(xs[i]))
  }

  lemma MapAppend<T, U>(xs: seq<T>, ys: seq<T>, f: T -> U)
    ensures Map(xs + ys, f) == Map(xs, f) + Map(ys, f)
  {
    assert forall i | 0 <= i < |xs + ys| :: (xs + ys)[i] == if i < |xs| then xs[i] else ys[i - |xs|];
  }

  /** How many elements of `xs` satisfy `p`. */
  function Count<T(==)>(xs: seq<T>, p: T -> bool): nat
  {
    |Filter(xs, p)|
  }

  /** The position of the first element of `xs` that satisfies `p`: what a
      query's `.first()` or a linear `next(...)` search returns. */
  function FindIndex<T>(xs: seq<T>, p: T -> bool): (r: Option<nat>)
    ensures r.Some? ==> r.value < |xs| && p(xs[r.value])
    ensures r.Some? ==> forall j :: 0 <= j < r.value ==> !p(xs[j])
    ensures r.None? ==> forall j :: 0 <= j < |xs| ==> !p(xs[j])
  {
    if xs == [] then None
    else if p(xs[0]) then Some(0)
    else match FindIndex(xs[1..], p)
      case None => None
      case Some(k) => Some(k + 1)
  }

  /** No value occurs twice in `xs`. */
  predicate Distinct<T(==)>(xs: seq<T>)
  {
    forall i, j :: 0 <= i < j < |xs| ==> xs[i] != xs[j]
  }

  /** The set of values in a duplicate-free sequence is as large as it. */
  lemma {:induction false} DistinctSetSize<T>(xs: seq<T>)
    requires Distinct(xs)
    ensures |set x | x in xs| == |xs|
  {
    if xs != [] {
      var tail := xs[1..];
      assert Distinct(tail) by {
        forall i, j | 0 <= i < j < |tail| ensures tail[i] != tail[j] {
          assert tail[i] == xs[i + 1] && tail[j] == xs[j + 1];
        }
      }
      DistinctSetSize(tail);
      assert xs[0] !in tail by {
        forall k | 0 <= k < |tail| ensures tail[k] != xs[0] {
          assert tail[k] == xs[k + 1];
        }
      }
      assert (set x | x in xs) == (set x | x in tail) + {xs[0]} by {
        assert xs == [xs[0]] + tail;
      }
    }
  }

  /** The set of values in any sequence is at most as large as it. */
  lemma {:induction false} SetSizeBound<T>(xs: seq<T>)
    ensures |set x | x in xs| <= |xs|
  {
    if xs != [] {
      var tail := xs[1..];
      SetSizeBound(tail);
      assert (set x | x in xs) == (set x | x in tail) + {xs[0]} by {
        assert xs == [xs[0]] + tail;
      }
    }
  }

  /** Pigeonhole: a duplicate-free sequence whose values all occur in `ys`
      is no longer than `ys`. */
  lemma Pigeonhole<T>(xs: seq<T>, ys: seq<T>)
    requires Distinct(xs)
    requires forall x :: x in xs ==> x in ys
    ensures |xs| <= |ys|
  {
    DistinctSetSize(xs);
    SetSizeBound(ys);
    var a := set x | x in xs;
    var b := set y | y in ys;
    assert a <= b;
    SubsetSize(a, b);
  }

  lemma {:induction false} SubsetSize<T>(a: set<T>, b: set<T>)
    requires a <= b
    ensures |a| <= |b|
    decreases a
  {
    if a != {} {
      var x :| x in a;
      SubsetSize(a - {x}, b - {x});
    }
  }

  /** `le` puts every pair one way round, and chains: an `ORDER BY` key. */
  ghost predicate TotalPreorder<T(!new)>(le: (T, T) -> bool)
  {
    && (forall a, b :: le(a, b) || le(b, a))
    && (forall a, b, c :: le(a, b) && le(b, c) ==> le(a, c))
  }

  /** Each element of `xs` may be listed before the next. */
  predicate SortedBy<T>(xs: seq<T>, le: (T, T) -> bool)
  {
    forall i | 0 <= i < |xs| - 1 :: le(xs[i], xs[i + 1])
  }

  /** Each element of `xs` may be listed before every later one. */
  predicate RankedBy<T>(xs: seq<T>, le: (T, T) -> bool)
  {
    forall i, j | 0 <= i < j < |xs| :: le(xs[i], xs[j])
  }

  /** `x` placed into sorted `xs` before the first element it may precede. */
  function InsertBy<T(!new)>(x: T, xs: seq<T>, le: (T, T) -> bool): (r: seq<T>)
    requires TotalPreorder(le) && SortedBy(xs, le)
    ensures SortedBy(r, le)
    ensures multiset(r) == multiset(xs) + multiset{x}
    ensures |r| == |xs| + 1
    ensures r[0] == x || (xs != [] && r[0] == xs[0])
    decreases |xs|
  {
    if xs == [] then [x]
    else if le(x, xs[0]) then [x] + xs
    else
      var rest := InsertBy(x, xs[1..], le);
      assert le(xs[0], rest[0]);
      SortedAfterHead(xs[0], rest, le);
      assert xs == [xs[0]] + xs[1..];
      assert multiset([xs[0]] + rest) == multiset{xs[0]} + multiset(rest);
      [xs[0]] + rest
  }

  /** A sorted sequence stays sorted behind an element that may precede
      its first. */
  lemma SortedAfterHead<T>(h: T, rest: seq<T>, le: (T, T) -> bool)
    requires SortedBy(rest, le) && rest != [] && le(h, rest[0])
    ensures SortedBy([h] + rest, le)
  {
    var r := [h] + rest;
    forall i | 0 <= i < |r| - 1 ensures le(r[i], r[i + 1]) {
      if i > 0 {
        assert r[i] == rest[i - 1] && r[i + 1] == rest[i];
      }
    }
  }

  /** Insertion sort by `le`: a sorted permutation of the input. */
  function SortBy<T(!new)>(xs: seq<T>, le: (T, T) -> bool): (r: seq<T>)
    requires TotalPreorder(le)
    ensures SortedBy(r, le)
    ensures multiset(r) == multiset(xs)
    ensures |r| == |xs|
    decreases |xs|
  {
    if xs == [] then []
    else
      assert xs == [xs[0]] + xs[1..];
      InsertBy(xs[0], SortBy(xs[1..], le), le)
  }

  /** Sorted neighbour by neighbour is sorted pair by pair. */
  lemma {:induction false} SortedRanked<T(!new)>(xs: seq<T>, le: (T, T) -> bool)
    requires TotalPreorder(le) && SortedBy(xs, le)
    ensures RankedBy(xs, le)
    decreases |xs|
  {
    if |xs| > 1 {
      SortedRanked(xs[1..], le);
      forall j | 1 < j < |xs| ensures le(xs[0], xs[j]) {
        assert le(xs[1..][0], xs[1..][j - 1]);
      }
    }
  }
}

=== FILE: course_videos.dfy ===
/** The course video list (`get_youtube_videos` in BACKEND/course.py):
    which YouTube request a course's link leads to, and the videos the
    reply yields.

    The link is stripped, then tried as a playlist link (`list=`), a watch
    link (`v=`) and a short link (`youtu.be/`), in that order. The reply of
    the YouTube API is a parameter: `reply(t)` is the list of videos the
    API returns for the request `t` names. */
module CourseVideos {
  import opened Basics
  import opened Strings
  import opened Models
  import opened YouTube

  /** The text that introduces a video id in a watch link. */
  const WatchMarker: string := "v="

  /** The host part of a short link; the video id follows it. */
  const ShortMarker: string := "youtu.be/"

  lemma MarkerShapes()
    ensures LastUnique(WatchMarker) && '&' !in WatchMarker
    ensures LastUnique(ShortMarker) && '?' !in ShortMarker
  {
    assert WatchMarker == ['v', '='];
    assert ShortMarker == ['y', 'o', 'u', 't', 'u', '.', 'b', 'e', '/'];
  }

  /** What a link asks the API for. */
  datatype LinkTarget = Playlist(id: string) | Video(id: string) | NoVideos

  /** One entry of the result: title, video id and thumbnail URL. */
  datatype VideoEntry = VideoEntry(title: string, videoId: string, thumbnail: string)

  /** `url.split("v=")[-1].split("&")[0]`: the text after the last `v=`,
      up to the next `&` or the end. */
  function WatchId(url: string): (id: string)
    requires Contains(url, WatchMarker)
    ensures !Contains(id, "&")
    ensures var k := AfterLast(url, WatchMarker);
      && k + |id| <= |url| && id == url[k..k + |id|]
      && (k + |id| == |url| || url[k + |id|] == '&')
    ensures forall j | AfterLast(url, WatchMarker) - |WatchMarker| < j <= |url| ::
      !OccursAt(url, WatchMarker, j)
  {
    MarkerShapes();
    PieceAfterLast(url, WatchMarker, '&')
  }

  /** `url.split("youtu.be/")[1].split("?")[0]`: the text after the first
      `youtu.be/`, up to the next `?`, the next `youtu.be/` or the end. */
  function ShortId(url: string): (id: string)
    requires Contains(url, ShortMarker)
    ensures !Contains(id, "?") && !Contains(id, ShortMarker)
    ensures var rest := url[Find(url, ShortMarker).value + |ShortMarker|..];
      && |id| <= |rest| && id == rest[..|id|]
      && (|id| == |rest| || rest[|id|] == '?' || OccursAt(rest, ShortMarker, |id|))
  {
    PieceAfter(url, ShortMarker, '?')
  }

  /** The request a stripped link leads to: the first of the three link
      shapes it has decides, and a link of none of them asks for nothing. */
  function UrlTarget(url: string): (t: LinkTarget)
    ensures t.Playlist? <==> Contains(url, ListMarker)
    ensures t.Video? <==> !Contains(url, ListMarker)
                          && (Contains(url, WatchMarker) || Contains(url, ShortMarker))
    ensures t == NoVideos <==> !Contains(url, ListMarker) && !Contains(url, WatchMarker)
                               && !Contains(url, ShortMarker)
    ensures t.Playlist? ==> t.id == PlaylistId(url)
    ensures t.Video? && Contains(url, WatchMarker) ==> t.id == WatchId(url)
    ensures t.Video? && !Contains(url, WatchMarker) ==> t.id == ShortId(url)
  {
    if Contains(url, ListMarker) then Playlist(PlaylistId(url))
    else if Contains(url, WatchMarker) then Video(WatchId(url))
    else if Contains(url, ShortMarker) then Video(ShortId(url))
    else NoVideos
  }

  /** The request a course's link leads to, after `strip()`. */
  function Target(link: string): LinkTarget
  {
    UrlTarget(Strip(link))
  }

  /** Whitespace around a link does not change where it leads. */
  lemma TargetIgnoresSpace(link: string)
    ensures Target(Strip(link)) == Target(link)
  {
    StripIdempotent(link);
  }

  /** A playlist link built around an id leads to that playlist, whatever
      else the link holds after it. */
  lemma PlaylistLinkTarget(prefix: string, id: string, rest: string)
    requires !Contains(prefix, ListMarker)
    requires !Contains(id, "&") && !Contains(id, ListMarker)
    requires rest == [] || rest[0] == '&'
    ensures UrlTarget(prefix + ListMarker + id + rest) == Playlist(id)
  {
    FetchPlaylistRoundTrip(prefix, id, rest);
  }

  /** A watch link built around an id leads to that video: nothing after
      the id contains `v=`, and there is no `list=` anywhere. */
  lemma WatchLinkTarget(prefix: string, id: string, rest: string)
    requires !Contains(prefix + WatchMarker + id + rest, ListMarker)
    requires !Contains(id, "&") && !Contains(id, WatchMarker)
    requires rest == [] || (rest[0] == '&' && !Contains(rest, WatchMarker))
    ensures UrlTarget(prefix + WatchMarker + id + rest) == Video(id)
  {
    MarkerShapes();
    PieceAfterLastRoundTrip(prefix, WatchMarker, id, rest, '&');
  }

  /** A short link built around an id leads to that video when the link
      has neither `list=` nor `v=`. */
  lemma ShortLinkTarget(prefix: string, id: string, rest: string)
    requires !Contains(prefix + ShortMarker + id + rest, ListMarker)
    requires !Contains(prefix + ShortMarker + id + rest, WatchMarker)
    requires !Contains(prefix, ShortMarker)
    requires !Contains(id, "?") && !Contains(id, ShortMarker)
    requires rest == [] || rest[0] == '?'
    ensures UrlTarget(prefix + ShortMarker + id + rest) == Video(id)
  {
    MarkerShapes();
    PieceAfterRoundTrip(prefix, ShortMarker, id, rest, '?');
  }

  function HasId(courseId: int): Course -> bool
  {
    (c: Course) => c.id == courseId
  }

  /** The request for a course: none for a missing course or an empty
      link, otherwise where the course's link leads. */
  function CourseTarget(s: Store, courseId: int): (t: LinkTarget)
    ensures (forall i | 0 <= i < |s.courses| :: s.courses[i].id != courseId) ==> t == NoVideos
    ensures t != NoVideos ==> exists i | 0 <= i < |s.courses| ::
      s.courses[i].id == courseId && s.courses[i].youtubeLink != ""
      && t == Target(s.courses[i].youtubeLink)
  {
    match FindIndex(s.courses, HasId(courseId))
    case None => NoVideos
    case Some(i) => if s.courses[i].youtubeLink == "" then NoVideos else Target(s.courses[i].youtubeLink)
  }

  /** Course ids are a key, so the course found is the one with the id. */
  lemma CourseTargetOf(s: Store, i: nat)
    requires Valid(s) && i < |s.courses|
    ensures CourseTarget(s, s.courses[i].id)
      == if s.courses[i].youtubeLink == "" then NoVideos else Target(s.courses[i].youtubeLink)
  {
    var found := FindIndex(s.courses, HasId(s.courses[i].id));
    assert found.Some? by {
      assert HasId(s.courses[i].id)(s.courses[i]);
    }
    var k := found.value;
    assert CourseId(s.courses[k]) == CourseId(s.courses[i]);
    assert k == i;
  }

  /** The videos for a course: the playlist's items for a playlist; for a
      video, the first item under the id taken from the link; otherwise
      none. */
  function Videos(s: Store, courseId: int, reply: LinkTarget -> seq<VideoEntry>)
    : (r: seq<VideoEntry>)
    ensures CourseTarget(s, courseId) == NoVideos ==> r == []
    ensures CourseTarget(s, courseId).Playlist? ==> r == reply(CourseTarget(s, courseId))
    ensures CourseTarget(s, courseId).Video? ==>
      var t := CourseTarget(s, courseId);
      && |r| <= 1 && (r == [] <==> reply(t) == [])
      && forall v | v in r :: v.videoId == t.id && v == reply(t)[0].(videoId := t.id)
  {
    var t := CourseTarget(s, courseId);
    match t
    case NoVideos => []
    case Playlist(_) => reply(t)
    case Video(id) => if reply(t) == [] then [] else [reply(t)[0].(videoId := id)]
  }

  /** `get_youtube_videos` as written: each branch that makes a request
      first reads `api_url`, which the assignment in the same function makes
      a local name not yet bound; the `UnboundLocalError` is caught and the
      list is empty. */
  function VideosAsWritten(s: Store, courseId: int, reply: LinkTarget -> seq<VideoEntry>)
    : (r: seq<VideoEntry>)
    ensures r == []
  {
    match CourseTarget(s, courseId)
    case NoVideos => []
    case Playlist(_) => []
    case Video(_) => []
  }

  /** A course whose link is the playlist `PL`. */
  function OneCourse(): Store
  {
    EmptyStore.(courses := [Course(1, "Course", None, "", None, "list=PL", 1, None)])
  }

  function OneVideo(t: LinkTarget): seq<VideoEntry>
  {
    [VideoEntry("Intro", "v1", "thumb")]
  }

  /** The link `list=PL` asks for the playlist `PL`. */
  lemma PlaylistPL()
    ensures UrlTarget("list=PL") == Playlist("PL")
  {
    assert "list=PL" == [] + ListMarker + "PL" + [];
    assert !Contains("PL", "&") by {
      forall j | 0 <= j <= 2 ensures !OccursAt("PL", "&", j) {
        OccursChar("PL", '&', j);
      }
    }
    PlaylistLinkTarget([], "PL", []);
  }

  lemma OneCourseTarget()
    ensures CourseTarget(OneCourse(), 1) == Playlist("PL")
  {
    var c := OneCourse().courses[0];
    assert FindIndex(OneCourse().courses, HasId(1)) == Some(0) by {
      assert HasId(1)(c);
    }
    assert Target(c.youtubeLink) == Playlist("PL") by {
      assert Strip("list=PL") == "list=PL" by {
        StripUntrimmed("list=PL");
      }
      PlaylistPL();
    }
  }

  /** As written, a course with a playlist link lists no videos even when
      the playlist has one; the intended handler lists it. */
  lemma AsWrittenListsNothing()
    ensures VideosAsWritten(OneCourse(), 1, OneVideo) == []
    ensures Videos(OneCourse(), 1, OneVideo) == [VideoEntry("Intro", "v1", "thumb")]
  {
    OneCourseTarget();
  }
}

=== FILE: courses.dfy ===
/** Course creation, enrollment and course editing (BACKEND/routes/courses.py)
    as store transitions.

    Form fields arrive as strings. The database is PostgreSQL: a string
    bound to an integer column is read as an integer, here the way Python's
    `int()` reads it, and one that is not an integer is a database error;
    foreign keys are enforced. The
    thumbnail upload is a parameter: the URL the upload returned, if a file
    was sent. */
module Courses {
  import opened Basics
  import opened Strings
  import opened Models

  predicate IsStudent(u: User) { u.role == "student" }

  /** The ids of the users whose role is "student", in table order: whom a
      new course is announced to. */
  function StudentIds(users: seq<User>): seq<int>
  {
    Map(Filter(users, IsStudent), UserId)
  }

  /** Under increasing user ids, the student ids name each student exactly
      once and no other user. */
  lemma StudentIdsExact(users: seq<User>, next: nat)
    requires KeysBelow(users, UserId, next)
    ensures Distinct(StudentIds(users))
    ensures forall i | 0 <= i < |users| :: users[i].id in StudentIds(users) <==> IsStudent(users[i])
  {
    StudentIdsDistinct(users, next);
    forall i | 0 <= i < |users| ensures users[i].id in StudentIds(users) <==> IsStudent(users[i]) {
      StudentIdMember(users, next, i);
    }
  }

  lemma StudentIdsDistinct(users: seq<User>, next: nat)
    requires KeysBelow(users, UserId, next)
    ensures Distinct(StudentIds(users))
  {
    var students := Filter(users, IsStudent);
    var ids := StudentIds(users);
    FilterKeepsOrder(users, IsStudent, (a: User, b: User) => a.id < b.id);
    forall i, j | 0 <= i < j < |ids| ensures ids[i] != ids[j] {
      assert ids[i] == students[i].id && ids[j] == students[j].id;
    }
  }

  lemma StudentIdMember(users: seq<User>, next: nat, i: nat)
    requires KeysBelow(users, UserId, next) && i < |users|
    ensures users[i].id in StudentIds(users) <==> IsStudent(users[i])
  {
    var students := Filter(users, IsStudent);
    var ids := StudentIds(users);
    if IsStudent(users[i]) {
      FilterKeeps(users, IsStudent, i);
      var k :| 0 <= k < |students| && students[k] == users[i];
      assert ids[k] == users[i].id;
    }
    if users[i].id in ids {
      var k :| 0 <= k < |ids| && ids[k] == users[i].id;
      assert students[k] in users;
      var j :| 0 <= j < |users| && users[j] == students[k];
      assert UserId(users[j]) == UserId(users[i]);
      assert j == i;
    }
  }

  datatype CourseForm = CourseForm(title: Option<string>, description: Option<string>,
                                   teacherId: Option<string>, youtubeLink: Option<string>)

  /** The 500 reply `create_course` gives when the insert fails. */
  const CreateFailed: string := "Failed to create course: " + DatabaseError

  /** The database accepts a new course row for the form: the YouTube link
      is given (the column is NOT NULL) and the teacher id is the integer id
      of an existing user (the foreign key). */
  predicate CourseStorable(s: Store, form: CourseForm)
  {
    && form.youtubeLink.Some? && form.teacherId.Some? && ParseInt(form.teacherId.value).Some?
    && HasUser(s, ParseInt(form.teacherId.value).value)
  }

  /** `create_course`. A missing or empty title, description or teacher id
      is a 400. The row is rejected by the database at commit, a 500, when
      the YouTube link is absent, the teacher id is not an integer or names
      no user. Otherwise the course is stored with a student counter of 0,
      and every student is sent one unread notification naming the course. */
  function CreateCourse(s: Store, form: CourseForm, thumbnailUrl: Option<string>)
    : (r: Outcome<string>)
    ensures r.response.Err? ==> r.store == s
    ensures r.response == Err(400, "Missing required fields")
      <==> !Truthy(form.title) || !Truthy(form.description) || !Truthy(form.teacherId)
    ensures r.response == Err(500, CreateFailed)
      <==> && Truthy(form.title) && Truthy(form.description) && Truthy(form.teacherId)
           && !CourseStorable(s, form)
    ensures r.response.Ok?
      <==> && Truthy(form.title) && Truthy(form.description) && Truthy(form.teacherId)
           && CourseStorable(s, form)
    ensures r.response.Ok? ==>
      && r.store == r.store.(users := s.users, enrollments := s.enrollments,
                             quizzes := s.quizzes, questions := s.questions,
                             submissions := s.submissions, answers := s.answers)
      && r.store.courses == s.courses
           + [Course(s.next, form.title.value, None, form.description.value, thumbnailUrl,
                     form.youtubeLink.value, ParseInt(form.teacherId.value).value, Some(0))]
      && |s.notifications| <= |r.store.notifications|
      && r.store.notifications[..|s.notifications|] == s.notifications
      && Map(Added(s, r.store), RecipientId) == StudentIds(s.users)
      && (forall n | n in Added(s, r.store) ::
            !n.isRead && n.message == CourseUploaded(form.title.value))
  {
    if !Truthy(form.title) || !Truthy(form.description) || !Truthy(form.teacherId) then
      Outcome(s, Err(400, "Missing required fields"))
    else if !CourseStorable(s, form) then
      Outcome(s, Err(500, CreateFailed))
    else
      var teacherId := ParseInt(form.teacherId.value).value;
      var c := Course(s.next, form.title.value, None, form.description.value, thumbnailUrl,
                      form.youtubeLink.value, teacherId, Some(0));
      var s1 := s.(courses := s.courses + [c], next := s.next + 1);
      var m := CourseUploaded(form.title.value);
      NotifyAddresses(s1, StudentIds(s.users), m);
      Outcome(Notify(s1, StudentIds(s.users), m), Ok("Course created successfully"))
  }

  /** Each user gets exactly one notification from a course creation if a
      student, and none otherwise. */
  lemma CreateCourseNotifiesStudents(s: Store, form: CourseForm, thumbnailUrl: Option<string>)
    requires Valid(s)
    ensures var r := CreateCourse(s, form, thumbnailUrl);
      r.response.Ok? ==>
        && Distinct(Map(Added(s, r.store), RecipientId))
        && forall i | 0 <= i < |s.users| ::
             s.users[i].id in Map(Added(s, r.store), RecipientId) <==> IsStudent(s.users[i])
  {
    StudentIdsExact(s.users, s.next);
  }

  /** Creating a course keeps the store's invariant. */
  lemma CreateCoursePreservesValid(s: Store, form: CourseForm, thumbnailUrl: Option<string>)
    requires Valid(s)
    ensures Valid(CreateCourse(s, form, thumbnailUrl).store)
  {
    if Truthy(form.title) && Truthy(form.description) && Truthy(form.teacherId)
       && CourseStorable(s, form)
    {
      var c := Course(s.next, form.title.value, None, form.description.value, thumbnailUrl,
                      form.youtubeLink.value, ParseInt(form.teacherId.value).value, Some(0));
      CreateCourseStore(s, form, thumbnailUrl, c);
      WithCourseValid(s, c);
      NotifyPreservesValid(WithCourse(s, c), StudentIds(s.users), CourseUploaded(form.title.value));
    }
  }

  /** The store with course `c` added, before the notifications. */
  function WithCourse(s: Store, c: Course): Store
  {
    s.(courses := s.courses + [c], next := s.next + 1)
  }

  /** A course the database accepts is stored, then every student
      notified. */
  lemma CreateCourseStore(s: Store, form: CourseForm, thumbnailUrl: Option<string>, c: Course)
    requires Truthy(form.title) && Truthy(form.description) && Truthy(form.teacherId)
    requires CourseStorable(s, form)
    requires c == Course(s.next, form.title.value, None, form.description.value, thumbnailUrl,
                         form.youtubeLink.value, ParseInt(form.teacherId.value).value, Some(0))
    ensures CreateCourse(s, form, thumbnailUrl).store
         == Notify(WithCourse(s, c), StudentIds(s.users), CourseUploaded(form.title.value))
  {
  }

  /** Adding a course with id `next` keeps the invariant. */
  lemma WithCourseValid(s: Store, c: Course)
    requires Valid(s) && c.id == s.next
    ensures Valid(WithCourse(s, c))
  {
    GrowPreservesValid(s, s.next + 1);
    KeysBelowAppend(s.courses, CourseId, s.next, c, s.next + 1);
  }

  /** The student already has an enrollment row for the course. */
  predicate IsEnrolled(s: Store, studentId: int, courseId: int)
  {
    exists i :: 0 <= i < |s.enrollments|
      && s.enrollments[i].studentId == studentId && s.enrollments[i].courseId == courseId
  }

  /** The counter after one more enrollment: a null counter becomes 1. */
  function Incremented(students: Option<int>): (r: Option<int>)
    ensures r.Some? && r.value == (if students.None? then 1 else students.value + 1)
  {
    match students
    case None => Some(1)
    case Some(n) => Some(n + 1)
  }

  /** `enroll_in_course`. A missing (or zero) student id and a duplicate
      enrollment are 400s that change nothing. The course lookup flushes the
      new enrollment row, and the database rejects it when its student or
      its course does not exist (the foreign keys); a course id that names
      no course also fails on the counter update. Either error is raised
      outside the handler's error handling: a 500 with nothing committed.
      Otherwise one enrollment row is added, the course's counter goes up
      by one (from null to 1), and the course's teacher gets one unread
      notification. */
  function Enroll(s: Store, courseId: int, studentId: Option<int>): (r: Outcome<string>)
    ensures r.response.Err? ==> r.store == s
    ensures r.response == Err(400, "Missing student ID") <==> !TruthyInt(studentId)
    ensures r.response == Err(400, "Already enrolled")
      <==> TruthyInt(studentId) && IsEnrolled(s, studentId.value, courseId)
    ensures r.response == Err(500, InternalServerError)
      <==> TruthyInt(studentId) && !IsEnrolled(s, studentId.value, courseId)
           && (!HasCourse(s, courseId) || !HasUser(s, studentId.value))
    ensures r.response.Ok?
      <==> && TruthyInt(studentId) && !IsEnrolled(s, studentId.value, courseId)
           && HasCourse(s, courseId) && HasUser(s, studentId.value)
    ensures r.response.Ok? ==> exists i | 0 <= i < |s.courses| && s.courses[i].id == courseId ::
      var c := s.courses[i];
      && r.store == r.store.(users := s.users, quizzes := s.quizzes, questions := s.questions,
                             submissions := s.submissions, answers := s.answers)
      && r.store.enrollments == s.enrollments + [Enrollment(s.next, studentId.value, courseId, s.next)]
      && r.store.courses == s.courses[i := c.(students := Incremented(c.students))]
      && r.store.notifications
           == s.notifications
              + [Notification(s.next + 1, c.teacherId, StudentEnrolled(c.title), false, s.next + 1)]
  {
    if !TruthyInt(studentId) then Outcome(s, Err(400, "Missing student ID"))
    else if IsEnrolled(s, studentId.value, courseId) then Outcome(s, Err(400, "Already enrolled"))
    else if !HasUser(s, studentId.value) then Outcome(s, Err(500, InternalServerError))
    else
      match FindIndex(s.courses, (c: Course) => c.id == courseId)
      case None => Outcome(s, Err(500, InternalServerError))
      case Some(i) =>
        var c := s.courses[i];
        var e := Enrollment(s.next, studentId.value, courseId, s.next);
        var s1 := s.(enrollments := s.enrollments + [e],
                     courses := s.courses[i := c.(students := Incremented(c.students))],
                     next := s.next + 1);
        var t := Notify(s1, [c.teacherId], StudentEnrolled(c.title));
        assert t.notifications == s1.notifications + [t.notifications[|s1.notifications|]];
        Outcome(t, Ok("Enrolled successfully"))
  }

  /** Enrolling keeps the store's invariant, in particular one enrollment
      per student and course. */
  lemma EnrollPreservesValid(s: Store, courseId: int, studentId: Option<int>)
    requires Valid(s)
    ensures Valid(Enroll(s, courseId, studentId).store)
  {
    if Enroll(s, courseId, studentId).response.Ok? {
      EnrolledValid(s, courseId, studentId);
    }
  }

  /** A successful enrollment keeps the invariant. */
  lemma EnrolledValid(s: Store, courseId: int, studentId: Option<int>)
    requires Valid(s)
    requires Enroll(s, courseId, studentId).response.Ok?
    ensures Valid(Enroll(s, courseId, studentId).store)
  {
    match FindIndex(s.courses, (c: Course) => c.id == courseId)
    case None =>
    case Some(i) =>
      var c := s.courses[i];
      var e := Enrollment(s.next, studentId.value, courseId, s.next);
      var s1 := s.(enrollments := s.enrollments + [e],
                   courses := s.courses[i := c.(students := Incremented(c.students))],
                   next := s.next + 1);
      EnrollRowValid(s, i, e);
      NotifyPreservesValid(s1, [c.teacherId], StudentEnrolled(c.title));
  }

  /** Adding a fresh enrollment row for a new pair and bumping a course's
      counter keeps the invariant. */
  lemma EnrollRowValid(s: Store, i: nat, e: Enrollment)
    requires Valid(s) && i < |s.courses| && e.id == s.next
    requires forall k | 0 <= k < |s.enrollments| :: EnrollmentPair(s.enrollments[k]) != EnrollmentPair(e)
    ensures var c := s.courses[i];
      Valid(s.(enrollments := s.enrollments + [e],
               courses := s.courses[i := c.(students := Incremented(c.students))],
               next := s.next + 1))
  {
    var c := s.courses[i];
    var s1 := s.(enrollments := s.enrollments + [e],
                 courses := s.courses[i := c.(students := Incremented(c.students))],
                 next := s.next + 1);
    GrowPreservesValid(s, s.next + 1);
    KeysBelowAppend(s.enrollments, EnrollmentId, s.next, e, s.next + 1);
    assert KeysBelow(s1.courses, CourseId, s1.next) by {
      assert forall k | 0 <= k < |s1.courses| :: s1.courses[k].id == s.courses[k].id;
    }
  }

  /** Enrolling is once-only: right after a successful enrollment the same
      request is refused and changes nothing, so the counter goes up by one,
      not two. */
  lemma EnrollTwiceRefused(s: Store, courseId: int, studentId: Option<int>)
    requires Enroll(s, courseId, studentId).response.Ok?
    ensures var t := Enroll(s, courseId, studentId).store;
      Enroll(t, courseId, studentId) == Outcome(t, Err(400, "Already enrolled"))
  {
    var t := Enroll(s, courseId, studentId).store;
    assert t.enrollments[|s.enrollments|].studentId == studentId.value;
    assert IsEnrolled(t, studentId.value, courseId);
  }

  datatype CourseEdit = CourseEdit(teacherId: Option<string>, title: Option<string>,
                                   description: Option<string>, youtubeLink: Option<string>)

  /** The course with this id belongs to this teacher. */
  predicate Owns(s: Store, courseId: int, teacherId: int)
  {
    exists i :: 0 <= i < |s.courses| && s.courses[i].id == courseId
      && s.courses[i].teacherId == teacherId
  }

  /** `c` with every field the edit supplies non-empty replaced, and the
      thumbnail replaced when a new one was uploaded. */
  function Patch(c: Course, edit: CourseEdit, thumbnailUrl: Option<string>): (d: Course)
    ensures d.id == c.id && d.level == c.level && d.teacherId == c.teacherId
    ensures d.students == c.students
    ensures d.title == (if Truthy(edit.title) then edit.title.value else c.title)
    ensures d.description
      == (if Truthy(edit.description) then edit.description.value else c.description)
    ensures d.youtubeLink
      == (if Truthy(edit.youtubeLink) then edit.youtubeLink.value else c.youtubeLink)
    ensures d.thumbnail == (if thumbnailUrl.Some? then thumbnailUrl else c.thumbnail)
  {
    c.(title := if Truthy(edit.title) then edit.title.value else c.title,
       description := if Truthy(edit.description) then edit.description.value else c.description,
       youtubeLink := if Truthy(edit.youtubeLink) then edit.youtubeLink.value else c.youtubeLink,
       thumbnail := if thumbnailUrl.Some? then thumbnailUrl else c.thumbnail)
  }

  /** `update_course`. A missing teacher id is a 400, a teacher id `int()`
      rejects is a 400, a course that does not belong to that teacher is a
      403; none of them changes anything. Otherwise only that course
      changes, and in it only the supplied fields. */
  function UpdateCourse(s: Store, courseId: int, edit: CourseEdit, thumbnailUrl: Option<string>)
    : (r: Outcome<string>)
    ensures r.response.Err? ==> r.store == s
    ensures r.response == Err(400, "Missing teacher ID") <==> !Truthy(edit.teacherId)
    ensures r.response == Err(400, "Invalid teacher ID")
      <==> Truthy(edit.teacherId) && ParseInt(edit.teacherId.value).None?
    ensures r.response == Err(403, "You are not authorized to edit this course.")
      <==> && Truthy(edit.teacherId) && ParseInt(edit.teacherId.value).Some?
           && !Owns(s, courseId, ParseInt(edit.teacherId.value).value)
    ensures r.response.Ok?
      <==> && Truthy(edit.teacherId) && ParseInt(edit.teacherId.value).Some?
           && Owns(s, courseId, ParseInt(edit.teacherId.value).value)
    ensures r.response.Ok? ==>
      exists i | 0 <= i < |s.courses| && s.courses[i].id == courseId
                 && s.courses[i].teacherId == ParseInt(edit.teacherId.value).value ::
        r.store == s.(courses := s.courses[i := Patch(s.courses[i], edit, thumbnailUrl)])
  {
    if !Truthy(edit.teacherId) then Outcome(s, Err(400, "Missing teacher ID"))
    else
      match ParseInt(edit.teacherId.value)
      case None => Outcome(s, Err(400, "Invalid teacher ID"))
      case Some(teacherId) =>
        match FindIndex(s.courses, (c: Course) => c.id == courseId && c.teacherId == teacherId)
        case None => Outcome(s, Err(403, "You are not authorized to edit this course."))
        case Some(i) =>
          var d := Patch(s.courses[i], edit, thumbnailUrl);
          Outcome(s.(courses := s.courses[i := d]), Ok("Course updated successfully"))
  }

  /** An edit applied twice leaves the store as applying it once. */
  lemma UpdateCourseIdempotent(s: Store, courseId: int, edit: CourseEdit,
                               thumbnailUrl: Option<string>)
    requires UpdateCourse(s, courseId, edit, thumbnailUrl).response.Ok?
    ensures var t := UpdateCourse(s, courseId, edit, thumbnailUrl).store;
      UpdateCourse(t, courseId, edit, thumbnailUrl) == Outcome(t, Ok("Course updated successfully"))
  {
    var t := UpdateCourse(s, courseId, edit, thumbnailUrl).store;
    var teacherId := ParseInt(edit.teacherId.value).value;
    var p := (c: Course) => c.id == courseId && c.teacherId == teacherId;
    var i := FindIndex(s.courses, p).value;
    assert t.courses[i] == Patch(s.courses[i], edit, thumbnailUrl);
    forall k | 0 <= k < |t.courses| ensures p(t.courses[k]) <==> p(s.courses[k]) {
    }
    assert FindIndex(t.courses, p) == Some(i) by {
      FindIndexSame(s.courses, t.courses, p);
    }
    assert Patch(t.courses[i], edit, thumbnailUrl) == t.courses[i];
    assert t.courses[i := t.courses[i]] == t.courses;
  }

  /** A search gives the same answer on tables that agree on the predicate
      row by row. */
  lemma {:induction false} FindIndexSame<T>(xs: seq<T>, ys: seq<T>, p: T -> bool)
    requires |xs| == |ys|
    requires forall k | 0 <= k < |xs| :: p(xs[k]) == p(ys[k])
    ensures FindIndex(xs, p) == FindIndex(ys, p)
  {
    if xs != [] {
      FindIndexSame(xs[1..], ys[1..], p);
    }
  }

  /** Editing a course keeps the store's invariant. */
  lemma UpdateCoursePreservesValid(s: Store, courseId: int, edit: CourseEdit,
                                   thumbnailUrl: Option<string>)
    requires Valid(s)
    ensures Valid(UpdateCourse(s, courseId, edit, thumbnailUrl).store)
  {
    var r := UpdateCourse(s, courseId, edit, thumbnailUrl);
    if r.response.Ok? {
      var i :| && 0 <= i < |s.courses| && s.courses[i].id == courseId
               && r.store == s.(courses := s.courses[i := Patch(s.courses[i], edit, thumbnailUrl)]);
      PatchValid(s, i, edit, thumbnailUrl);
    }
  }

  /** Patching one course keeps the invariant: its id does not change. */
  lemma PatchValid(s: Store, i: nat, edit: CourseEdit, thumbnailUrl: Option<string>)
    requires Valid(s) && i < |s.courses|
    ensures Valid(s.(courses := s.courses[i := Patch(s.courses[i], edit, thumbnailUrl)]))
  {
    var cs := s.courses[i := Patch(s.courses[i], edit, thumbnailUrl)];
    assert forall k | 0 <= k < |cs| :: CourseId(cs[k]) == CourseId(s.courses[k]);
    assert KeysBelow(cs, CourseId, s.next);
  }
}

=== FILE: dashboard.dfy ===
/** The two dashboards (BACKEND/routes/dashboard.py): a student's enrolled
    courses next to the whole catalogue, and a teacher's courses with the
    number of students enrolled in each.

    The id arrives as a query-string text compared with an integer column.
    As elsewhere in the model, text that is not an integer is a database
    error (a 500); the handlers themselves only refuse a missing or empty
    id. */
module Dashboard {
  import opened Basics
  import opened Strings
  import opened Models
  import opened Courses
  import opened Quizzes

  /** The fields of a course both dashboards list. */
  datatype CourseCard = CourseCard(id: nat, title: string, description: string,
                                   thumbnail: Option<string>)

  function CardOf(c: Course): CourseCard
  {
    CourseCard(c.id, c.title, c.description, c.thumbnail)
  }

  datatype StudentBoard = StudentBoard(enrolled: seq<int>, myEnrolled: seq<CourseCard>,
                                       courses: seq<CourseCard>)

  function IdIn(ids: seq<int>): Course -> bool
  {
    (c: Course) => c.id in ids
  }

  /** The catalogue courses the student has an enrollment row for. */
  function EnrolledIn(s: Store, studentId: int): Course -> bool
  {
    (c: Course) => IsEnrolled(s, studentId, c.id)
  }

  /** `card` is the card of a catalogue course the student is enrolled
      in. */
  ghost predicate EnrolledCard(s: Store, studentId: int, card: CourseCard)
  {
    exists i | 0 <= i < |s.courses| :: card == CardOf(s.courses[i]) && IsEnrolled(s, studentId, s.courses[i].id)
  }

  /** `student_dashboard`: 400 without an id; otherwise one course id per
      enrollment row of the student, exactly the ids of the courses the
      student is enrolled in; the cards of exactly the catalogue courses the
      student is enrolled in, in catalogue order; and the whole catalogue. */
  function StudentDashboard(s: Store, studentId: Option<string>): (r: Response<StudentBoard>)
    ensures r == Err(400, "Missing student ID") <==> !Truthy(studentId)
    ensures r == Err(500, InternalServerError)
      <==> Truthy(studentId) && ParseInt(studentId.value).None?
    ensures r.Ok? <==> Truthy(studentId) && ParseInt(studentId.value).Some?
    ensures r.Ok? ==>
      var sid := ParseInt(studentId.value).value;
      && |r.value.enrolled| == Count(s.enrollments, OfStudent(sid))
      && (forall c :: c in r.value.enrolled <==> IsEnrolled(s, sid, c))
      && r.value.myEnrolled == Map(Filter(s.courses, EnrolledIn(s, sid)), CardOf)
      && (forall i | 0 <= i < |s.courses| ::
            CardOf(s.courses[i]) in r.value.myEnrolled <==> IsEnrolled(s, sid, s.courses[i].id))
      && (forall k | 0 <= k < |r.value.myEnrolled| :: EnrolledCard(s, sid, r.value.myEnrolled[k]))
      && |r.value.courses| == |s.courses|
      && (forall i | 0 <= i < |s.courses| :: r.value.courses[i] == CardOf(s.courses[i]))
  {
    if !Truthy(studentId) then Err(400, "Missing student ID")
    else
      match ParseInt(studentId.value)
      case None => Err(500, InternalServerError)
      case Some(sid) =>
        var enrolled := CoursesOf(s.enrollments, sid);
        CoursesOfExact(s, sid);
        MyEnrolledExact(s, sid);
        MyEnrolledInOrder(s, sid);
        Ok(StudentBoard(enrolled, Map(Filter(s.courses, IdIn(enrolled)), CardOf), Map(s.courses, CardOf)))
  }

  /** The cards the handler picks by the enrolled ids are those of the
      catalogue courses the student is enrolled in, in catalogue order, and
      each is such a course's card. */
  lemma MyEnrolledInOrder(s: Store, studentId: int)
    ensures Map(Filter(s.courses, IdIn(CoursesOf(s.enrollments, studentId))), CardOf)
         == Map(Filter(s.courses, EnrolledIn(s, studentId)), CardOf)
    ensures var mine := Map(Filter(s.courses, EnrolledIn(s, studentId)), CardOf);
      forall k | 0 <= k < |mine| :: EnrolledCard(s, studentId, mine[k])
  {
    var ids := CoursesOf(s.enrollments, studentId);
    CoursesOfExact(s, studentId);
    FilterAgree(s.courses, IdIn(ids), EnrolledIn(s, studentId));
    var kept := Filter(s.courses, EnrolledIn(s, studentId));
    var mine := Map(kept, CardOf);
    forall k | 0 <= k < |mine| ensures EnrolledCard(s, studentId, mine[k]) {
      assert kept[k] in s.courses && EnrolledIn(s, studentId)(kept[k]);
      var i :| 0 <= i < |s.courses| && s.courses[i] == kept[k];
      assert mine[k] == CardOf(s.courses[i]);
    }
    assert mine == Map(Filter(s.courses, EnrolledIn(s, studentId)), CardOf);
  }

  /** A course id is listed as enrolled exactly when the student has an
      enrollment row for it. */
  lemma CoursesOfExact(s: Store, studentId: int)
    ensures forall c :: c in CoursesOf(s.enrollments, studentId) <==> IsEnrolled(s, studentId, c)
  {
    var mine := Filter(s.enrollments, OfStudent(studentId));
    var ids := CoursesOf(s.enrollments, studentId);
    forall c | c in ids ensures IsEnrolled(s, studentId, c) {
      var l :| 0 <= l < |ids| && ids[l] == c;
      assert mine[l] in s.enrollments;
      var i :| 0 <= i < |s.enrollments| && s.enrollments[i] == mine[l];
    }
    forall c | IsEnrolled(s, studentId, c) ensures c in ids {
      var i :| 0 <= i < |s.enrollments|
               && s.enrollments[i].studentId == studentId && s.enrollments[i].courseId == c;
      FilterKeeps(s.enrollments, OfStudent(studentId), i);
      var l :| 0 <= l < |mine| && mine[l] == s.enrollments[i];
      assert ids[l] == c;
    }
  }

  /** A catalogue course's card is among the student's courses exactly
      when the student is enrolled in it. */
  lemma MyEnrolledExact(s: Store, studentId: int)
    ensures var mine := Map(Filter(s.courses, IdIn(CoursesOf(s.enrollments, studentId))), CardOf);
      forall i | 0 <= i < |s.courses| ::
        CardOf(s.courses[i]) in mine <==> IsEnrolled(s, studentId, s.courses[i].id)
  {
    var ids := CoursesOf(s.enrollments, studentId);
    var kept := Filter(s.courses, IdIn(ids));
    var mine := Map(kept, CardOf);
    CoursesOfExact(s, studentId);
    forall i | 0 <= i < |s.courses|
      ensures CardOf(s.courses[i]) in mine <==> IsEnrolled(s, studentId, s.courses[i].id)
    {
      if CardOf(s.courses[i]) in mine {
        var k :| 0 <= k < |mine| && mine[k] == CardOf(s.courses[i]);
        assert IdIn(ids)(kept[k]);
      }
      if IsEnrolled(s, studentId, s.courses[i].id) {
        FilterKeeps(s.courses, IdIn(ids), i);
        var k :| 0 <= k < |kept| && kept[k] == s.courses[i];
        assert mine[k] == CardOf(s.courses[i]);
      }
    }
  }

  /** A teacher's course with its number of enrollment rows. */
  datatype TeacherCourse = TeacherCourse(id: nat, title: string, description: string,
                                         students: nat, thumbnail: Option<string>)

  function OwnedBy(teacherId: int): Course -> bool
  {
    (c: Course) => c.teacherId == teacherId
  }

  /** The course's entry: the student count is counted from the
      enrollment table, not read from the course's `students` column. */
  function Summary(s: Store, c: Course): TeacherCourse
  {
    TeacherCourse(c.id, c.title, c.description, Count(s.enrollments, InCourse(c.id)), c.thumbnail)
  }

  function SummaryIn(s: Store): Course -> TeacherCourse
  {
    (c: Course) => Summary(s, c)
  }

  /** Every entry of `rows` summarises a course of the teacher, and every
      course of the teacher is summarised. */
  predicate SummariesOf(s: Store, teacherId: int, rows: seq<TeacherCourse>)
  {
    && (forall k | 0 <= k < |rows| :: exists i | 0 <= i < |s.courses| ::
          s.courses[i].teacherId == teacherId && rows[k] == Summary(s, s.courses[i]))
    && (forall i | 0 <= i < |s.courses| && s.courses[i].teacherId == teacherId ::
          Summary(s, s.courses[i]) in rows)
  }

  /** `get_teacher_dashboard`: 400 without an id; otherwise one entry per
      course the teacher owns. */
  function TeacherDashboard(s: Store, teacherId: Option<string>): (r: Response<seq<TeacherCourse>>)
    ensures r == Err(400, "Missing teacher ID") <==> !Truthy(teacherId)
    ensures r == Err(500, InternalServerError)
      <==> Truthy(teacherId) && ParseInt(teacherId.value).None?
    ensures r.Ok? <==> Truthy(teacherId) && ParseInt(teacherId.value).Some?
    ensures r.Ok? ==>
      var tid := ParseInt(teacherId.value).value;
      |r.value| == Count(s.courses, OwnedBy(tid)) && SummariesOf(s, tid, r.value)
  {
    if !Truthy(teacherId) then Err(400, "Missing teacher ID")
    else
      match ParseInt(teacherId.value)
      case None => Err(500, InternalServerError)
      case Some(tid) =>
        TeacherCoursesExact(s, tid);
        Ok(Map(Filter(s.courses, OwnedBy(tid)), SummaryIn(s)))
  }

  lemma TeacherCoursesExact(s: Store, teacherId: int)
    ensures SummariesOf(s, teacherId, Map(Filter(s.courses, OwnedBy(teacherId)), SummaryIn(s)))
  {
    var owned := Filter(s.courses, OwnedBy(teacherId));
    var r := Map(owned, SummaryIn(s));
    forall k | 0 <= k < |r| ensures exists i | 0 <= i < |s.courses| ::
      s.courses[i].teacherId == teacherId && r[k] == Summary(s, s.courses[i])
    {
      assert owned[k] in s.courses && OwnedBy(teacherId)(owned[k]);
      var i :| 0 <= i < |s.courses| && s.courses[i] == owned[k];
      assert r[k] == SummaryIn(s)(owned[k]) == Summary(s, s.courses[i]);
    }
    assert forall k | 0 <= k < |r| :: exists i | 0 <= i < |s.courses| ::
      s.courses[i].teacherId == teacherId && r[k] == Summary(s, s.courses[i]);

    forall i | 0 <= i < |s.courses| && s.courses[i].teacherId == teacherId
      ensures Summary(s, s.courses[i]) in r
    {
      FilterKeeps(s.courses, OwnedBy(teacherId), i);
      var k :| 0 <= k < |owned| && owned[k] == s.courses[i];
      assert r[k] == Summary(s, s.courses[i]);
    }
  }

  /** Because a student enrolls in a course at most once, the count of
      enrollment rows is the number of distinct students enrolled. */
  lemma StudentCountIsHeadcount(s: Store, c: Course)
    requires Valid(s)
    ensures Summary(s, c).students == |set x | x in EnrolledStudents(s.enrollments, c.id)|
    ensures forall x :: x in EnrolledStudents(s.enrollments, c.id) <==> IsEnrolled(s, x, c.id)
  {
    var ids := EnrolledStudents(s.enrollments, c.id);
    EnrolledStudentsExact(s.enrollments, c.id);
    DistinctSetSize(ids);
    forall x | IsEnrolled(s, x, c.id) ensures x in ids {
      var i :| 0 <= i < |s.enrollments|
               && s.enrollments[i].studentId == x && s.enrollments[i].courseId == c.id;
    }
    forall x | x in ids ensures IsEnrolled(s, x, c.id) {
      var i :| 0 <= i < |s.enrollments|
               && s.enrollments[i].courseId == c.id && s.enrollments[i].studentId == x;
    }
  }
}

=== FILE: grading.dfy ===
/** Quiz submission, grading and the manual score override
    (BACKEND/routes/quiz.py, `submit_quiz` and `update_quiz_score`).

    `submit_quiz` looks each answered question up by id alone, so an answer
    to a question of another quiz is graded and counted against this quiz's
    question total. `Submit` takes a flag `scoped`: without it the lookup is
    the handler's, with it the lookup is restricted to the quiz's own
    questions. SubmitQuizAsWritten is the former, SubmitQuiz the latter. */
module Grading {
  import opened Basics
  import opened Models

  /** One entry of the request's `answers` list; `None` is a missing key. */
  datatype AnswerSpec = AnswerSpec(questionId: Option<int>, answer: Option<AnswerValue>)

  /** The JSON body of `submit_quiz`; `None` is a missing key. */
  datatype SubmissionBody = SubmissionBody(studentId: Option<int>, answers: Option<seq<AnswerSpec>>,
                                           timeTaken: Option<int>)

  /** An answer entry once both its keys have been read. */
  datatype Reply = Reply(questionId: int, value: AnswerValue)

  /** What a successful submission reports. */
  datatype ScoreReport = ScoreReport(score: real, correct: nat, total: nat)

  /** Python's `==` between a JSON value and an int: numbers compare by
      value, `True` and `False` equal 1 and 0, anything else is unequal. */
  predicate EqualsInt(v: AnswerValue, n: int)
  {
    match v
    case IntValue(i) => i == n
    case FloatValue(x) => x == n as real
    case BoolValue(b) => (if b then 1 else 0) == n
    case _ => false
  }

  /** An answer to question `q` is correct when `q` is a multiple-choice
      question with a correct option that the answer equals. */
  predicate IsCorrect(q: Question, v: AnswerValue)
  {
    q.kind == "mcq" && q.correctOption.Some? && EqualsInt(v, q.correctOption.value)
  }

  /** The questions the lookup for `questionId` can return. */
  function Refers(quizId: int, questionId: int, scoped: bool): Question -> bool
  {
    (q: Question) => q.id == questionId && (!scoped || q.quizId == quizId)
  }

  /** `Question.query.get(question_id)`, or with `scoped` the same lookup
      among the questions of quiz `quizId`. */
  function Lookup(questions: seq<Question>, quizId: int, questionId: int, scoped: bool)
    : (r: Option<Question>)
    ensures r.Some? ==> r.value in questions && r.value.id == questionId
    ensures r.Some? && scoped ==> r.value.quizId == quizId
    ensures r.None? <==> forall i | 0 <= i < |questions| :: !Refers(quizId, questionId, scoped)(questions[i])
  {
    match FindIndex(questions, Refers(quizId, questionId, scoped))
    case None => None
    case Some(i) => Some(questions[i])
  }

  predicate Complete(a: AnswerSpec)
  {
    a.questionId.Some? && a.answer.Some?
  }

  function Replies(answers: seq<AnswerSpec>): (rs: seq<Reply>)
    requires forall i | 0 <= i < |answers| :: Complete(answers[i])
    ensures |rs| == |answers|
    ensures forall i | 0 <= i < |answers| ::
      Complete(answers[i]) && rs[i] == Reply(answers[i].questionId.value, answers[i].answer.value)
  {
    if answers == [] then []
    else
      assert Complete(answers[0]);
      [Reply(answers[0].questionId.value, answers[0].answer.value)] + Replies(answers[1..])
  }

  /** The reply names a question the lookup finds. */
  function Resolves(questions: seq<Question>, quizId: int, scoped: bool): Reply -> bool
  {
    (r: Reply) => Lookup(questions, quizId, r.questionId, scoped).Some?
  }

  function RowReply(a: Answer): Reply { Reply(a.questionId, a.answer) }
  function QuestionOf(a: Answer): int { a.questionId }
  function Graded(a: Answer): bool { a.isCorrect }

  /** The answer rows of submission `subId`: one for each reply whose
      question the lookup finds, with ids from `nextId`, each marked correct
      exactly when the answer is correct for that question. Replies to
      questions the lookup does not find leave no row. */
  function AnswerRows(questions: seq<Question>, quizId: int, scoped: bool, replies: seq<Reply>,
                      subId: nat, nextId: nat): (rows: seq<Answer>)
    ensures |rows| <= |replies|
    ensures forall k | 0 <= k < |rows| :: rows[k].id == nextId + k && rows[k].submissionId == subId
    ensures forall k | 0 <= k < |rows| ::
      && Lookup(questions, quizId, rows[k].questionId, scoped).Some?
      && rows[k].isCorrect == IsCorrect(Lookup(questions, quizId, rows[k].questionId, scoped).value,
                                        rows[k].answer)
    decreases |replies|
  {
    if replies == [] then []
    else
      var r := replies[0];
      match Lookup(questions, quizId, r.questionId, scoped)
      case None => AnswerRows(questions, quizId, scoped, replies[1..], subId, nextId)
      case Some(q) =>
        [Answer(nextId, subId, r.questionId, r.value, IsCorrect(q, r.value))]
        + AnswerRows(questions, quizId, scoped, replies[1..], subId, nextId + 1)
  }

  /** The answer rows record exactly the replies whose question is found,
      in order. */
  lemma {:induction false} AnswerRowsRecordReplies(questions: seq<Question>, quizId: int, scoped: bool,
                                                   replies: seq<Reply>, subId: nat, nextId: nat)
    ensures Map(AnswerRows(questions, quizId, scoped, replies, subId, nextId), RowReply)
         == Filter(replies, Resolves(questions, quizId, scoped))
    decreases |replies|
  {
    if replies != [] {
      var r := replies[0];
      var rows := AnswerRows(questions, quizId, scoped, replies, subId, nextId);
      match Lookup(questions, quizId, r.questionId, scoped)
      case None =>
        AnswerRowsRecordReplies(questions, quizId, scoped, replies[1..], subId, nextId);
      case Some(q) =>
        var tail := AnswerRows(questions, quizId, scoped, replies[1..], subId, nextId + 1);
        AnswerRowsRecordReplies(questions, quizId, scoped, replies[1..], subId, nextId + 1);
        MapAppend([rows[0]], tail, RowReply);
    }
  }

  /** The database accepts the answer rows: the answer column is NOT NULL
      and holds text, so a null or a list/object answer is rejected, and
      the unique (submission, question) constraint rejects two answers to
      the same question. */
  predicate Storable(rows: seq<Answer>)
  {
    && (forall k | 0 <= k < |rows| :: !rows[k].answer.NullValue? && !rows[k].answer.Structured?)
    && Distinct(Map(rows, QuestionOf))
  }

  function OfQuiz(quizId: int): Question -> bool
  {
    (q: Question) => q.quizId == quizId
  }

  /** The percentage score: correct answers over the quiz's questions,
      times 100, and 0 for a quiz with no questions. */
  function Score(correct: nat, total: nat): real
  {
    if total > 0 then correct as real / total as real * 100.0 else 0.0
  }

  /** The score is a percentage whenever the correct answers do not
      outnumber the questions; it is 100 exactly when all are correct. */
  lemma ScoreBounds(correct: nat, total: nat)
    requires correct <= total
    ensures 0.0 <= Score(correct, total) <= 100.0
    ensures total > 0 ==> (Score(correct, total) == 100.0 <==> correct == total)
  {
    if total > 0 {
      var t := total as real;
      var c := correct as real;
      var q := c / t;
      assert q * t == c;
      assert Score(correct, total) == q * 100.0;
      assert 0.0 <= q;
      assert q <= 1.0 by {
        assert c <= t;
        assert q * t <= 1.0 * t;
      }
      if q == 1.0 {
        assert c == t;
      }
      if c == t {
        assert q == 1.0;
      }
    }
  }

  /** The answer rows `t` holds beyond the first `|s.answers|`. */
  function NewAnswers(s: Store, t: Store): seq<Answer>
    requires |s.answers| <= |t.answers|
  {
    t.answers[|s.answers|..]
  }

  /** The student already has a submission for the quiz. */
  predicate Submitted(s: Store, quizId: int, studentId: int)
  {
    exists i :: 0 <= i < |s.submissions|
      && s.submissions[i].quizId == quizId && s.submissions[i].studentId == studentId
  }

  /** The entry-level key error `submit_quiz` hits first, if any: the
      loop reads `question_id`, then `answer`, of each entry in turn. */
  function MissingKey(answers: seq<AnswerSpec>): (r: Option<string>)
    ensures r.None? <==> forall i | 0 <= i < |answers| :: Complete(answers[i])
    ensures r.Some? ==> exists i | 0 <= i < |answers| ::
      && !Complete(answers[i])
      && (forall j | 0 <= j < i :: Complete(answers[j]))
      && r.value == (if answers[i].questionId.None? then "'question_id'" else "'answer'")
  {
    match FindIndex(answers, (a: AnswerSpec) => !Complete(a))
    case None => None
    case Some(i) => Some(if answers[i].questionId.None? then "'question_id'" else "'answer'")
  }

  /** `submit_quiz`, with the question lookup as the flag chooses. A missing
      top-level key is a 500 carrying the key (the handler returns
      `str(e)` of the `KeyError`); a repeated submission is a 400; the
      submission row is then flushed, and the database rejects it, a 500,
      when its quiz or its student does not exist (the foreign keys); a
      missing key in an answer entry and answer rows the database rejects
      are 500s.
      None of these changes the store. Otherwise one submission row and its
      answer rows are stored, and the score is the percentage of the quiz's
      questions answered correctly. */
  function Submit(s: Store, quizId: int, body: SubmissionBody, scoped: bool)
    : (r: Outcome<ScoreReport>)
    ensures r.response.Err? ==> r.store == s
    ensures r.response == Err(500, "'student_id'") <==> body.studentId.None?
    ensures r.response == Err(500, "'answers'") <==> body.studentId.Some? && body.answers.None?
    ensures r.response == Err(500, "'time_taken'")
      <==> body.studentId.Some? && body.answers.Some? && body.timeTaken.None?
    ensures r.response == Err(400, "You have already submitted this quiz")
      <==> && body.studentId.Some? && body.answers.Some? && body.timeTaken.Some?
           && Submitted(s, quizId, body.studentId.value)
    ensures && body.studentId.Some? && body.answers.Some? && body.timeTaken.Some?
            && !Submitted(s, quizId, body.studentId.value)
            && (!HasQuiz(s, quizId) || !HasUser(s, body.studentId.value))
            ==> r.response == Err(500, DatabaseError)
    ensures && body.studentId.Some? && body.answers.Some? && body.timeTaken.Some?
            && !Submitted(s, quizId, body.studentId.value)
            && HasQuiz(s, quizId) && HasUser(s, body.studentId.value)
            && MissingKey(body.answers.value).Some?
            ==> r.response == Err(500, MissingKey(body.answers.value).value)
    ensures && body.studentId.Some? && body.answers.Some? && body.timeTaken.Some?
            && !Submitted(s, quizId, body.studentId.value)
            && HasQuiz(s, quizId) && HasUser(s, body.studentId.value)
            && MissingKey(body.answers.value).None?
            && !Storable(AnswerRows(s.questions, quizId, scoped, Replies(body.answers.value),
                                   s.next, s.next + 1))
            ==> r.response == Err(500, DatabaseError)
    ensures r.response.Ok?
      <==> && body.studentId.Some? && body.answers.Some? && body.timeTaken.Some?
           && !Submitted(s, quizId, body.studentId.value)
           && HasQuiz(s, quizId) && HasUser(s, body.studentId.value)
           && MissingKey(body.answers.value).None?
           && Storable(AnswerRows(s.questions, quizId, scoped, Replies(body.answers.value),
                                  s.next, s.next + 1))
    ensures r.response.Ok? ==>
      Records(s, quizId, body.studentId.value, body.timeTaken.value, body.answers.value, scoped, r)
  {
    if body.studentId.None? then Outcome(s, Err(500, "'student_id'"))
    else if body.answers.None? then Outcome(s, Err(500, "'answers'"))
    else if body.timeTaken.None? then Outcome(s, Err(500, "'time_taken'"))
    else if Submitted(s, quizId, body.studentId.value) then
      Outcome(s, Err(400, "You have already submitted this quiz"))
    else if !HasQuiz(s, quizId) || !HasUser(s, body.studentId.value) then
      Outcome(s, Err(500, DatabaseError))
    else
      match MissingKey(body.answers.value)
      case Some(key) => Outcome(s, Err(500, key))
      case None =>
        var replies := Replies(body.answers.value);
        var rows := AnswerRows(s.questions, quizId, scoped, replies, s.next, s.next + 1);
        if !Storable(rows) then Outcome(s, Err(500, DatabaseError))
        else
          Grade(s, quizId, body.studentId.value, body.timeTaken.value, body.answers.value, scoped)
  }

  /** What a successful submission leaves behind: one submission row
      carrying the score, the answer rows appended after the stored ones
      with fresh ids, one row per reply that resolves to a question (in
      reply order, each graded against that question), and the report of
      correct rows over the quiz's questions. Nothing else in the store
      changes. */
  ghost predicate Records(s: Store, quizId: int, studentId: int, timeTaken: int,
                          answers: seq<AnswerSpec>, scoped: bool, r: Outcome<ScoreReport>)
    requires MissingKey(answers).None?
    requires r.response.Ok?
  {
    && r.store == s.(submissions := r.store.submissions, answers := r.store.answers,
                     next := r.store.next)
    && r.store.submissions
         == s.submissions + [Submission(s.next, quizId, studentId, timeTaken,
                                        Some(r.response.value.score), s.next)]
    && |s.answers| <= |r.store.answers|
    && r.store.answers[..|s.answers|] == s.answers
    && r.store.next == s.next + 1 + |NewAnswers(s, r.store)|
    && NewAnswers(s, r.store)
         == AnswerRows(s.questions, quizId, scoped, Replies(answers), s.next, s.next + 1)
    && Storable(NewAnswers(s, r.store))
    && Map(NewAnswers(s, r.store), RowReply)
         == Filter(Replies(answers), Resolves(s.questions, quizId, scoped))
    && (forall a | a in NewAnswers(s, r.store) ::
          && a.submissionId == s.next
          && Lookup(s.questions, quizId, a.questionId, scoped).Some?
          && a.isCorrect == IsCorrect(Lookup(s.questions, quizId, a.questionId, scoped).value, a.answer))
    && r.response.value.total == Count(s.questions, OfQuiz(quizId))
    && r.response.value.correct == Count(NewAnswers(s, r.store), Graded)
    && r.response.value.score == Score(r.response.value.correct, r.response.value.total)
  }

  /** The success path of `submit_quiz`, once every check has passed. */
  function Grade(s: Store, quizId: int, studentId: int, timeTaken: int,
                 answers: seq<AnswerSpec>, scoped: bool)
    : (r: Outcome<ScoreReport>)
    requires MissingKey(answers).None?
    requires Storable(AnswerRows(s.questions, quizId, scoped, Replies(answers), s.next, s.next + 1))
    ensures r.response.Ok?
    ensures Records(s, quizId, studentId, timeTaken, answers, scoped, r)
  {
    var replies := Replies(answers);
    var rows := AnswerRows(s.questions, quizId, scoped, replies, s.next, s.next + 1);
    AnswerRowsRecordReplies(s.questions, quizId, scoped, replies, s.next, s.next + 1);
    var total := Count(s.questions, OfQuiz(quizId));
    var correct := Count(rows, Graded);
    var score := Score(correct, total);
    var sub := Submission(s.next, quizId, studentId, timeTaken, Some(score), s.next);
    var t := Record(s, sub, rows);
    assert NewAnswers(s, t) == rows;
    Outcome(t, Ok(ScoreReport(score, correct, total)))
  }

  /** `submit_quiz` as written: answers are looked up among all
      questions. */
  function SubmitQuizAsWritten(s: Store, quizId: int, body: SubmissionBody)
    : (r: Outcome<ScoreReport>)
    ensures r.response.Ok? ==> r.response.value.correct <= Count(r.store.answers, Graded)
  {
    CorrectAmongStored(s, quizId, body, false);
    Submit(s, quizId, body, false)
  }

  /** The correct answers a submission reports are among the correct
      answer rows the store then holds. */
  lemma CorrectAmongStored(s: Store, quizId: int, body: SubmissionBody, scoped: bool)
    ensures var r := Submit(s, quizId, body, scoped);
      r.response.Ok? ==> r.response.value.correct <= Count(r.store.answers, Graded)
  {
    var r := Submit(s, quizId, body, scoped);
    if r.response.Ok? {
      FilterAppend(s.answers, NewAnswers(s, r.store), Graded);
      assert r.store.answers == s.answers + NewAnswers(s, r.store);
    }
  }

  /** `submit_quiz` with the lookup restricted to the quiz's own questions:
      the correct answers never outnumber the questions, so the score is a
      percentage. */
  function SubmitQuiz(s: Store, quizId: int, body: SubmissionBody): (r: Outcome<ScoreReport>)
    ensures r.response.Ok? ==>
      && r.response.value.correct <= r.response.value.total
      && 0.0 <= r.response.value.score <= 100.0
  {
    var r := Submit(s, quizId, body, true);
    if r.response.Ok? then
      CorrectBounded(s, quizId, NewAnswers(s, r.store));
      ScoreBounds(r.response.value.correct, r.response.value.total);
      r
    else r
  }

  /** Pigeonhole: answer rows that name distinct questions, each one of quiz
      `quizId`, have at most as many correct rows as the quiz has
      questions. */
  lemma CorrectBounded(s: Store, quizId: int, rows: seq<Answer>)
    requires Distinct(Map(rows, QuestionOf))
    requires forall a | a in rows :: Lookup(s.questions, quizId, a.questionId, true).Some?
    ensures Count(rows, Graded) <= Count(s.questions, OfQuiz(quizId))
  {
    var correct := Filter(rows, Graded);
    var quizQuestions := Filter(s.questions, OfQuiz(quizId));
    var xs := Map(correct, QuestionOf);
    var ys := Map(quizQuestions, QuestionId);
    UniqueFilter(rows, QuestionOf, Graded);
    forall i, j | 0 <= i < j < |rows| ensures QuestionOf(rows[i]) != QuestionOf(rows[j]) {
      assert Map(rows, QuestionOf)[i] == QuestionOf(rows[i]);
      assert Map(rows, QuestionOf)[j] == QuestionOf(rows[j]);
    }
    assert Distinct(xs);
    forall x | x in xs ensures x in ys {
      var k :| 0 <= k < |xs| && xs[k] == x;
      assert correct[k] in rows;
      var q := Lookup(s.questions, quizId, x, true).value;
      var i :| 0 <= i < |s.questions| && s.questions[i] == q;
      FilterKeeps(s.questions, OfQuiz(quizId), i);
      var l :| 0 <= l < |quizQuestions| && quizQuestions[l] == q;
      assert ys[l] == x;
    }
    Pigeonhole(xs, ys);
  }

  /** Student 7 and two quizzes, numbered 1 and 2, with one
      multiple-choice question each, whose correct option is 0. */
  const TwoQuizzes: Store :=
    EmptyStore.(users := [User(7, None, "s@x.io", "h", "student", None)],
                quizzes := [Quiz(1, None, "i", 9, 9, 0), Quiz(2, None, "i", 9, 9, 0)],
                questions := [Question(1, 1, "a", "mcq", None, Some(0)),
                              Question(2, 2, "b", "mcq", None, Some(0))],
                next := 3)

  /** Quiz 1 and student 7 exist, so the submission row is accepted. */
  lemma TwoQuizzesRefs()
    ensures HasQuiz(TwoQuizzes, 1) && HasUser(TwoQuizzes, 7)
  {
    assert TwoQuizzes.quizzes[0].id == 1;
    assert TwoQuizzes.users[0].id == 7;
  }

  /** A submission to quiz 1 answering both questions with 0. */
  const BothAnswered: SubmissionBody :=
    SubmissionBody(Some(7), Some([AnswerSpec(Some(1), Some(IntValue(0))),
                                  AnswerSpec(Some(2), Some(IntValue(0)))]), Some(30))

  /** Looked up among all questions, both replies of `BothAnswered` become
      correct answer rows, the second one for quiz 2's question. */
  lemma AsWrittenRows()
    ensures var rows := AnswerRows(TwoQuizzes.questions, 1, false,
                                   Replies(BothAnswered.answers.value), 3, 4);
      && rows == [Answer(4, 3, 1, IntValue(0), true), Answer(5, 3, 2, IntValue(0), true)]
      && Storable(rows) && Count(rows, Graded) == 2
  {
    AsWrittenRowValues();
    BothRowsCorrect();
  }

  /** Two correct answer rows to distinct questions. */
  lemma BothRowsCorrect()
    ensures var rows := [Answer(4, 3, 1, IntValue(0), true), Answer(5, 3, 2, IntValue(0), true)];
      Storable(rows) && Count(rows, Graded) == 2
  {
    var rows := [Answer(4, 3, 1, IntValue(0), true), Answer(5, 3, 2, IntValue(0), true)];
    assert Filter(rows, Graded) == [rows[0]] + Filter([rows[1]], Graded) by {
      assert rows[1..] == [rows[1]];
    }
    assert Filter([rows[1]], Graded) == [rows[1]] by {
      assert [rows[1]][1..] == [];
    }
    assert Storable(rows) by {
      assert Map(rows, QuestionOf) == [1, 2];
    }
  }

  lemma AsWrittenRowValues()
    ensures AnswerRows(TwoQuizzes.questions, 1, false, Replies(BothAnswered.answers.value), 3, 4)
         == [Answer(4, 3, 1, IntValue(0), true), Answer(5, 3, 2, IntValue(0), true)]
  {
    var qs := TwoQuizzes.questions;
    var replies := Replies(BothAnswered.answers.value);
    assert replies == [Reply(1, IntValue(0)), Reply(2, IntValue(0))];
    assert Lookup(qs, 1, 1, false) == Some(qs[0]);
    assert Lookup(qs, 1, 2, false) == Some(qs[1]);
    var rest := replies[1..];
    assert rest[1..] == [];
    assert AnswerRows(qs, 1, false, rest[1..], 3, 6) == [];
    assert IsCorrect(qs[0], IntValue(0)) && IsCorrect(qs[1], IntValue(0));
    var a1, a2 := Answer(4, 3, 1, IntValue(0), true), Answer(5, 3, 2, IntValue(0), true);
    assert AnswerRows(qs, 1, false, rest, 3, 5) == [a2];
    var rows := AnswerRows(qs, 1, false, replies, 3, 4);
    assert rows == [a1, a2];
  }

  /** Quiz 1 of `TwoQuizzes` has one question. */
  lemma QuizOneSize()
    ensures Count(TwoQuizzes.questions, OfQuiz(1)) == 1
  {
    assert TwoQuizzes.questions[1..][1..] == [];
  }

  /** Looked up among all questions, the submission is accepted. */
  lemma UnscopedAccepted()
    ensures Submit(TwoQuizzes, 1, BothAnswered, false).response.Ok?
  {
    AsWrittenRows();
    assert MissingKey(BothAnswered.answers.value).None?;
    assert !Submitted(TwoQuizzes, 1, 7);
    TwoQuizzesRefs();
  }

  /** Looked up among all questions, the submission is accepted with two
      correct answers against quiz 1's one question. */
  lemma UnscopedSubmitScores200()
    ensures Submit(TwoQuizzes, 1, BothAnswered, false).response == Ok(ScoreReport(200.0, 2, 1))
  {
    UnscopedAccepted();
    AsWrittenRows();
    QuizOneSize();
    assert Score(2, 1) == 200.0;
  }

  /** As written, the answer to quiz 2's question counts for quiz 1: two
      correct answers against one question, a score of 200. */
  lemma AsWrittenScoreExceeds100()
    ensures SubmitQuizAsWritten(TwoQuizzes, 1, BothAnswered).response == Ok(ScoreReport(200.0, 2, 1))
  {
    UnscopedSubmitScores200();
  }

  /** Scoped to quiz 1, only the first reply of `BothAnswered` becomes an
      answer row, and it is correct. */
  lemma ScopedRows()
    ensures var rows := AnswerRows(TwoQuizzes.questions, 1, true,
                                   Replies(BothAnswered.answers.value), 3, 4);
      && rows == [Answer(4, 3, 1, IntValue(0), true)]
      && Storable(rows) && Count(rows, Graded) == 1
  {
    var qs := TwoQuizzes.questions;
    var replies := Replies(BothAnswered.answers.value);
    assert replies == [Reply(1, IntValue(0)), Reply(2, IntValue(0))];
    assert Lookup(qs, 1, 1, true) == Some(qs[0]);
    assert Lookup(qs, 1, 2, true) == None by {
      assert !Refers(1, 2, true)(qs[0]) && !Refers(1, 2, true)(qs[1]);
    }
    var rest := replies[1..];
    assert rest[1..] == [];
    assert AnswerRows(qs, 1, true, rest[1..], 3, 5) == [];
    assert AnswerRows(qs, 1, true, rest, 3, 5) == [];
    assert IsCorrect(qs[0], IntValue(0));
    var rows := AnswerRows(qs, 1, true, replies, 3, 4);
    assert rows == [Answer(4, 3, 1, IntValue(0), true)];
  }

  /** Scoped to quiz 1, the submission is accepted. */
  lemma ScopedAccepted()
    ensures Submit(TwoQuizzes, 1, BothAnswered, true).response.Ok?
  {
    ScopedRows();
    assert MissingKey(BothAnswered.answers.value).None?;
    assert !Submitted(TwoQuizzes, 1, 7);
    TwoQuizzesRefs();
  }

  /** On the same submission, the lookup scoped to the quiz ignores the
      foreign question: one correct answer of one, a score of 100. */
  lemma ScopedScoreOnSameInput()
    ensures SubmitQuiz(TwoQuizzes, 1, BothAnswered).response == Ok(ScoreReport(100.0, 1, 1))
  {
    ScopedAccepted();
    ScopedRows();
    QuizOneSize();
    assert Score(1, 1) == 100.0;
  }

  /** Submitting is once-only: right after a successful submission the same
      request is refused and changes nothing. */
  lemma SubmitTwiceRefused(s: Store, quizId: int, body: SubmissionBody, scoped: bool)
    requires Submit(s, quizId, body, scoped).response.Ok?
    ensures var t := Submit(s, quizId, body, scoped).store;
      Submit(t, quizId, body, scoped) == Outcome(t, Err(400, "You have already submitted this quiz"))
  {
    var t := Submit(s, quizId, body, scoped).store;
    assert t.submissions[|s.submissions|].quizId == quizId;
    assert Submitted(t, quizId, body.studentId.value);
  }

  /** A submission keeps the store's invariant: one submission per quiz and
      student, one answer per submission and question. */
  lemma SubmitPreservesValid(s: Store, quizId: int, body: SubmissionBody, scoped: bool)
    requires Valid(s)
    ensures Valid(Submit(s, quizId, body, scoped).store)
  {
    var r := Submit(s, quizId, body, scoped);
    if r.response.Ok? {
      var rows := NewAnswers(s, r.store);
      var sub := r.store.submissions[|s.submissions|];
      assert r.store.answers == s.answers + rows;
      assert r.store == Record(s, sub, rows);
      SubmissionRowsValid(s, sub, rows);
    }
  }

  /** The store with a new submission and its answer rows. */
  function Record(s: Store, sub: Submission, rows: seq<Answer>): Store
  {
    s.(submissions := s.submissions + [sub], answers := s.answers + rows,
       next := s.next + 1 + |rows|)
  }

  /** Adding a submission with id `next` for a new (quiz, student) pair,
      and its answer rows with the ids after it, naming distinct questions,
      keeps the invariant. */
  lemma SubmissionRowsValid(s: Store, sub: Submission, rows: seq<Answer>)
    requires Valid(s) && sub.id == s.next && !Submitted(s, sub.quizId, sub.studentId)
    requires forall k | 0 <= k < |rows| :: rows[k].id == s.next + 1 + k && rows[k].submissionId == s.next
    requires Distinct(Map(rows, QuestionOf))
    ensures Valid(Record(s, sub, rows))
  {
    var next' := s.next + 1 + |rows|;
    GrowPreservesValid(s, next');
    assert SubmissionsValid(s.submissions + [sub], next') by {
      KeysBelowAppend(s.submissions, SubmissionId, s.next, sub, next');
    }
    AnswersAppendValid(s.answers, rows, s.next);
  }

  /** Answer rows with the ids after `next`, all for submission `next` and
      naming distinct questions, can follow the existing answers. */
  lemma AnswersAppendValid(answers: seq<Answer>, rows: seq<Answer>, next: nat)
    requires AnswersValid(answers, next)
    requires forall k | 0 <= k < |rows| :: rows[k].id == next + 1 + k && rows[k].submissionId == next
    requires Distinct(Map(rows, QuestionOf))
    ensures AnswersValid(answers + rows, next + 1 + |rows|)
  {
    var t := answers + rows;
    var n := |answers|;
    forall i, j | 0 <= i < j < |t| ensures t[i].id < t[j].id {
      if j >= n {
        assert t[j] == rows[j - n];
        if i >= n {
          assert t[i] == rows[i - n];
        }
      }
    }
    forall i | 0 <= i < |t| ensures t[i].id < next + 1 + |rows| && t[i].submissionId < next + 1 + |rows| {
      if i >= n {
        assert t[i] == rows[i - n];
      }
    }
    forall i, j | 0 <= i < j < |t| ensures AnswerPair(t[i]) != AnswerPair(t[j]) {
      if j >= n {
        assert t[j] == rows[j - n];
        if i >= n {
          assert t[i] == rows[i - n];
          assert Map(rows, QuestionOf)[i - n] != Map(rows, QuestionOf)[j - n];
        }
      }
    }
  }

  /** `update_quiz_score`: a missing submission is a 404 that changes
      nothing; otherwise the submission's score is overwritten with the
      given value, unchecked, and the student gets one unread notification
      with the score and the feedback (empty when none is sent). */
  function UpdateQuizScore(s: Store, quizId: int, studentId: int, score: Option<real>,
                           feedback: Option<string>): (r: Outcome<string>)
    ensures r.response.Err? ==> r.store == s
    ensures r.response == Err(404, "Submission not found") <==> !Submitted(s, quizId, studentId)
    ensures r.response.Ok? <==> Submitted(s, quizId, studentId)
    ensures r.response.Ok? ==>
      exists i | 0 <= i < |s.submissions| && s.submissions[i].quizId == quizId
                 && s.submissions[i].studentId == studentId ::
        r.store == s.(submissions := s.submissions[i := s.submissions[i].(score := score)],
                      notifications := s.notifications
                        + [Notification(s.next, studentId,
                                        ScoreUpdated(score, if feedback.Some? then feedback.value else ""),
                                        false, s.next)],
                      next := s.next + 1)
  {
    match FindIndex(s.submissions, (u: Submission) => u.quizId == quizId && u.studentId == studentId)
    case None => Outcome(s, Err(404, "Submission not found"))
    case Some(i) =>
      var s1 := s.(submissions := s.submissions[i := s.submissions[i].(score := score)]);
      var m := ScoreUpdated(score, if feedback.Some? then feedback.value else "");
      var t := Notify(s1, [studentId], m);
      assert t.notifications == s1.notifications + [t.notifications[|s1.notifications|]];
      Outcome(t, Ok("Score updated and student notified"))
  }

  /** Under the store's invariant, after an override the student's
      submission for the quiz carries exactly the given score and every
      other submission is untouched. */
  lemma UpdateQuizScoreSets(s: Store, quizId: int, studentId: int, score: Option<real>,
                            feedback: Option<string>)
    requires Valid(s)
    ensures var t := UpdateQuizScore(s, quizId, studentId, score, feedback).store;
      && |t.submissions| == |s.submissions|
      && forall i | 0 <= i < |t.submissions| ::
           if s.submissions[i].quizId == quizId && s.submissions[i].studentId == studentId
           then t.submissions[i] == s.submissions[i].(score := score)
           else t.submissions[i] == s.submissions[i]
  {
    var r := UpdateQuizScore(s, quizId, studentId, score, feedback);
    if r.response.Ok? {
      var i :| && 0 <= i < |s.submissions| && s.submissions[i].quizId == quizId
               && s.submissions[i].studentId == studentId
               && r.store.submissions == s.submissions[i := s.submissions[i].(score := score)];
      OnlySubmission(s, quizId, studentId, i);
    }
  }

  /** An override keeps the store's invariant. */
  lemma UpdateQuizScorePreservesValid(s: Store, quizId: int, studentId: int, score: Option<real>,
                                      feedback: Option<string>)
    requires Valid(s)
    ensures Valid(UpdateQuizScore(s, quizId, studentId, score, feedback).store)
  {
    var r := UpdateQuizScore(s, quizId, studentId, score, feedback);
    if r.response.Ok? {
      var m := ScoreUpdated(score, if feedback.Some? then feedback.value else "");
      var i :| && 0 <= i < |s.submissions| && s.submissions[i].quizId == quizId
               && s.submissions[i].studentId == studentId
               && r.store == s.(submissions := s.submissions[i := s.submissions[i].(score := score)],
                                notifications := s.notifications
                                  + [Notification(s.next, studentId, m, false, s.next)],
                                next := s.next + 1);
      var s1 := s.(submissions := s.submissions[i := s.submissions[i].(score := score)]);
      var t := Notify(s1, [studentId], m);
      assert t.notifications == r.store.notifications;
      ScoreOverrideValid(s, i, score);
      NotifyPreservesValid(s1, [studentId], m);
    }
  }

  /** Under the invariant, submission `i` is the only one of its student
      for its quiz. */
  lemma OnlySubmission(s: Store, quizId: int, studentId: int, i: nat)
    requires Valid(s) && i < |s.submissions|
    requires s.submissions[i].quizId == quizId && s.submissions[i].studentId == studentId
    ensures forall k | 0 <= k < |s.submissions| ::
      s.submissions[k].quizId == quizId && s.submissions[k].studentId == studentId ==> k == i
  {
    forall k | 0 <= k < |s.submissions| && s.submissions[k].quizId == quizId
               && s.submissions[k].studentId == studentId
      ensures k == i
    {
      assert SubmissionPair(s.submissions[k]) == SubmissionPair(s.submissions[i]);
    }
  }

  /** Overwriting one submission's score keeps the invariant. */
  lemma ScoreOverrideValid(s: Store, i: nat, score: Option<real>)
    requires Valid(s) && i < |s.submissions|
    ensures Valid(s.(submissions := s.submissions[i := s.submissions[i].(score := score)]))
  {
    var subs := s.submissions[i := s.submissions[i].(score := score)];
    assert forall k | 0 <= k < |subs| ::
      SubmissionPair(subs[k]) == SubmissionPair(s.submissions[k])
      && SubmissionId(subs[k]) == SubmissionId(s.submissions[k]);
    assert SubmissionsValid(subs, s.next);
  }
}

=== FILE: models.dfy ===
/** The tables of the backend's relational schema as one immutable store,
    the key and uniqueness constraints the schema declares as an invariant,
    and the row-level steps the handlers share: fanning out notifications
    and deleting a quiz with its cascade.

    Every inserted row takes the store's counter `next` as its id and, where
    the row records a time, as its timestamp, and the counter moves on; ids
    and timestamps are only ever compared, so their actual values do not
    matter. */
module Models {
  import opened Basics

  /** What a notification announces. The handlers render each event into an
      f-string; the rendering is not modelled, the event and its data are. */
  datatype Message =
    | QuizUploaded(courseId: int)
    | CourseUploaded(title: string)
    | StudentEnrolled(courseTitle: string)
    | ScoreUpdated(score: Option<real>, feedback: string)

  /** A JSON value submitted as a quiz answer: grading compares it with
      Python's `==` against an integer, so its runtime type matters. */
  datatype AnswerValue =
    | IntValue(i: int)
    | FloatValue(r: real)
    | BoolValue(b: bool)
    | StrValue(s: string)
    | NullValue
    | Structured   // a JSON list or object

  datatype User = User(id: nat, name: Option<string>, email: string, password: string,
                       role: string, image: Option<string>)

  /** `students` is the denormalised enrollment counter, nullable. */
  datatype Course = Course(id: nat, title: string, level: Option<string>, description: string,
                           thumbnail: Option<string>, youtubeLink: string, teacherId: int,
                           students: Option<int>)

  datatype Enrollment = Enrollment(id: nat, studentId: int, courseId: int, timestamp: nat)

  datatype Notification = Notification(id: nat, recipientId: int, message: Message,
                                       isRead: bool, timestamp: nat)

  datatype Quiz = Quiz(id: nat, title: Option<string>, instructions: string, teacherId: int,
                       courseId: int, createdAt: nat)

  /** `kind` is the column `type`: "short", "long", "mcq" or "number" by
      convention, not enforced. Text and type are never null. */
  datatype Question = Question(id: nat, quizId: int, text: string, kind: string,
                               options: Option<seq<string>>, correctOption: Option<int>)

  datatype Submission = Submission(id: nat, quizId: int, studentId: int, timeTaken: int,
                                   score: Option<real>, submittedAt: nat)

  datatype Answer = Answer(id: nat, submissionId: int, questionId: int, answer: AnswerValue,
                           isCorrect: bool)

  datatype Store = Store(
    users: seq<User>,
    courses: seq<Course>,
    enrollments: seq<Enrollment>,
    notifications: seq<Notification>,
    quizzes: seq<Quiz>,
    questions: seq<Question>,
    submissions: seq<Submission>,
    answers: seq<Answer>,
    next: nat)

  /** A handler's HTTP reply: a 200 with a value, or a status and the
      `error` string of the JSON body. */
  datatype Response<T> = Ok(value: T) | Err(status: nat, error: string)

  /** A handler run as one atomic transition. */
  datatype Outcome<T> = Outcome(store: Store, response: Response<T>)

  /** Stands for the text of a database driver's exception, which the
      model does not reproduce. */
  const DatabaseError: string := "database error"

  /** Flask's body for an exception that no handler catches. */
  const InternalServerError: string := "Internal Server Error"

  /** Python truthiness of a string-or-None request field: present and
      non-empty. */
  predicate Truthy(x: Option<string>)
  {
    x.Some? && x.value != ""
  }

  /** Python truthiness of an integer-or-None request field: present and
      non-zero. */
  predicate TruthyInt(x: Option<int>)
  {
    x.Some? && x.value != 0
  }

  /** A user, course or quiz row with this id exists: what a foreign key
      to that table demands of the value it holds. */
  predicate HasUser(s: Store, id: int)
  {
    exists i :: 0 <= i < |s.users| && s.users[i].id == id
  }

  predicate HasCourse(s: Store, id: int)
  {
    exists i :: 0 <= i < |s.courses| && s.courses[i].id == id
  }

  predicate HasQuiz(s: Store, id: int)
  {
    exists i :: 0 <= i < |s.quizzes| && s.quizzes[i].id == id
  }

  const EmptyStore: Store := Store([], [], [], [], [], [], [], [], 0)

  function UserId(u: User): nat { u.id }
  function CourseId(c: Course): nat { c.id }
  function EnrollmentId(e: Enrollment): nat { e.id }
  function NotificationId(n: Notification): nat { n.id }
  function NotificationTime(n: Notification): nat { n.timestamp }
  function QuizId(q: Quiz): nat { q.id }
  function QuestionId(q: Question): nat { q.id }
  function SubmissionId(s: Submission): nat { s.id }
  function AnswerId(a: Answer): nat { a.id }

  function RecipientId(n: Notification): int { n.recipientId }

  function UserEmail(u: User): string { u.email }
  function EnrollmentPair(e: Enrollment): (int, int) { (e.studentId, e.courseId) }
  function SubmissionPair(s: Submission): (int, int) { (s.quizId, s.studentId) }
  function AnswerPair(a: Answer): (int, int) { (a.submissionId, a.questionId) }

  /** The keys of `rows` increase along the table and are all below `next`:
      primary keys are unique and a fresh row can take `next`. */
  ghost predicate KeysBelow<T>(rows: seq<T>, key: T -> nat, next: nat)
  {
    && (forall i, j :: 0 <= i < j < |rows| ==> key(rows[i]) < key(rows[j]))
    && (forall i :: 0 <= i < |rows| ==> key(rows[i]) < next)
  }

  /** No two rows of `rows` agree on `key`: a unique constraint. */
  ghost predicate Unique<T, K>(rows: seq<T>, key: T -> K)
  {
    forall i, j :: 0 <= i < j < |rows| ==> key(rows[i]) != key(rows[j])
  }

  /** The constraints the schema declares, table by table: primary keys,
      the unique email, and the three composite unique constraints;
      notification timestamps follow insertion order; every answer names a
      submission id already handed out. */
  ghost predicate Valid(s: Store)
  {
    && UsersValid(s.users, s.next)
    && KeysBelow(s.courses, CourseId, s.next)
    && EnrollmentsValid(s.enrollments, s.next)
    && NotificationsValid(s.notifications, s.next)
    && KeysBelow(s.quizzes, QuizId, s.next)
    && KeysBelow(s.questions, QuestionId, s.next)
    && SubmissionsValid(s.submissions, s.next)
    && AnswersValid(s.answers, s.next)
  }

  ghost predicate UsersValid(users: seq<User>, next: nat)
  {
    KeysBelow(users, UserId, next) && Unique(users, UserEmail)
  }

  ghost predicate EnrollmentsValid(enrollments: seq<Enrollment>, next: nat)
  {
    KeysBelow(enrollments, EnrollmentId, next) && Unique(enrollments, EnrollmentPair)
  }

  ghost predicate NotificationsValid(notifications: seq<Notification>, next: nat)
  {
    KeysBelow(notifications, NotificationId, next) && KeysBelow(notifications, NotificationTime, next)
  }

  ghost predicate SubmissionsValid(submissions: seq<Submission>, next: nat)
  {
    KeysBelow(submissions, SubmissionId, next) && Unique(submissions, SubmissionPair)
  }

  ghost predicate AnswersValid(answers: seq<Answer>, next: nat)
  {
    && KeysBelow(answers, AnswerId, next) && Unique(answers, AnswerPair)
    && (forall i :: 0 <= i < |answers| ==> answers[i].submissionId < next)
  }

  lemma KeysBelowGrow<T>(rows: seq<T>, key: T -> nat, next: nat, next': nat)
    requires KeysBelow(rows, key, next) && next <= next'
    ensures KeysBelow(rows, key, next')
  {
  }

  lemma KeysBelowAppend<T>(rows: seq<T>, key: T -> nat, next: nat, row: T, next': nat)
    requires KeysBelow(rows, key, next) && next <= key(row) < next'
    ensures KeysBelow(rows + [row], key, next')
  {
  }

  /** Rows kept by a filter keep their increasing keys. */
  lemma KeysBelowFilter<T>(rows: seq<T>, key: T -> nat, next: nat, p: T -> bool)
    requires KeysBelow(rows, key, next)
    ensures KeysBelow(Filter(rows, p), key, next)
  {
    FilterKeepsOrder(rows, p, (a: T, b: T) => key(a) < key(b));
    var r := Filter(rows, p);
    forall i | 0 <= i < |r| ensures key(r[i]) < next {
      assert r[i] in rows;
    }
  }

  /** Rows kept by a filter keep a unique constraint. */
  lemma UniqueFilter<T, K>(rows: seq<T>, key: T -> K, p: T -> bool)
    requires Unique(rows, key)
    ensures Unique(Filter(rows, p), key)
  {
    FilterKeepsOrder(rows, p, (a: T, b: T) => key(a) != key(b));
  }

  /** Appends one unread notification per recipient, in order, each with
      its own fresh id and timestamp. Only the notification table and the
      counter change. */
  function Notify(s: Store, recipients: seq<int>, m: Message): (t: Store)
    ensures t == s.(notifications := t.notifications, next := t.next)
    ensures t.next == s.next + |recipients|
    ensures |t.notifications| == |s.notifications| + |recipients|
    ensures t.notifications[..|s.notifications|] == s.notifications
    ensures forall k :: 0 <= k < |recipients| ==>
      t.notifications[|s.notifications| + k]
        == Notification(s.next + k, recipients[k], m, false, s.next + k)
    decreases |recipients|
  {
    if recipients == [] then s
    else
      var n := Notification(s.next, recipients[0], m, false, s.next);
      var s' := s.(notifications := s.notifications + [n], next := s.next + 1);
      var t := Notify(s', recipients[1..], m);
      assert t.notifications[|s.notifications|] == n by {
        assert t.notifications[..|s'.notifications|] == s'.notifications;
      }
      t
  }

  /** The notifications `t` holds beyond the first `|s.notifications|`. */
  function Added(s: Store, t: Store): seq<Notification>
    requires |s.notifications| <= |t.notifications|
  {
    t.notifications[|s.notifications|..]
  }

  /** Notifying addresses exactly the given recipients, in order, with one
      unread copy of the message each. */
  lemma NotifyAddresses(s: Store, recipients: seq<int>, m: Message)
    ensures Map(Added(s, Notify(s, recipients, m)), RecipientId) == recipients
    ensures forall n | n in Added(s, Notify(s, recipients, m)) :: !n.isRead && n.message == m
  {
    var added := Added(s, Notify(s, recipients, m));
    forall k | 0 <= k < |added| ensures added[k].recipientId == recipients[k] {
      assert added[k] == Notify(s, recipients, m).notifications[|s.notifications| + k];
    }
    forall n | n in added ensures !n.isRead && n.message == m {
      var k :| 0 <= k < |added| && added[k] == n;
      assert added[k] == Notify(s, recipients, m).notifications[|s.notifications| + k];
    }
  }

  /** Notifying keeps the store's invariant. */
  lemma {:induction false} NotifyPreservesValid(s: Store, recipients: seq<int>, m: Message)
    requires Valid(s)
    ensures Valid(Notify(s, recipients, m))
    decreases |recipients|
  {
    if recipients != [] {
      var n := Notification(s.next, recipients[0], m, false, s.next);
      var s' := s.(notifications := s.notifications + [n], next := s.next + 1);
      assert Notify(s, recipients, m) == Notify(s', recipients[1..], m);
      GrowPreservesValid(s, s.next + 1);
      KeysBelowAppend(s.notifications, NotificationId, s.next, n, s.next + 1);
      KeysBelowAppend(s.notifications, NotificationTime, s.next, n, s.next + 1);
      NotifyPreservesValid(s', recipients[1..], m);
    }
  }

  /** Moving the counter forward keeps the invariant. */
  lemma GrowPreservesValid(s: Store, next': nat)
    requires Valid(s) && s.next <= next'
    ensures Valid(s.(next := next'))
  {
    KeysBelowGrow(s.users, UserId, s.next, next');
    KeysBelowGrow(s.courses, CourseId, s.next, next');
    KeysBelowGrow(s.enrollments, EnrollmentId, s.next, next');
    KeysBelowGrow(s.notifications, NotificationId, s.next, next');
    KeysBelowGrow(s.notifications, NotificationTime, s.next, next');
    KeysBelowGrow(s.quizzes, QuizId, s.next, next');
    KeysBelowGrow(s.questions, QuestionId, s.next, next');
    KeysBelowGrow(s.submissions, SubmissionId, s.next, next');
    KeysBelowGrow(s.answers, AnswerId, s.next, next');
  }

  /** Deleting a quiz: the `delete-orphan` cascades on `Quiz.questions` and
      `Quiz.submissions` remove its questions and submissions, and the
      cascades on `QuizSubmission.answers` and `Question.student_answers`
      remove the answers of those submissions and to those questions. No
      other row changes. */
  function DeleteQuiz(s: Store, quizId: int): (t: Store)
    ensures forall i :: 0 <= i < |t.quizzes| ==> t.quizzes[i].id != quizId
    ensures forall i :: 0 <= i < |t.questions| ==> t.questions[i].quizId != quizId
    ensures forall i :: 0 <= i < |t.submissions| ==> t.submissions[i].quizId != quizId
    ensures forall i, k | 0 <= i < |t.answers| && 0 <= k < |s.submissions| ::
      s.submissions[k].quizId == quizId ==> t.answers[i].submissionId != s.submissions[k].id
    ensures forall i, k | 0 <= i < |t.answers| && 0 <= k < |s.questions| ::
      s.questions[k].quizId == quizId ==> t.answers[i].questionId != s.questions[k].id
    ensures forall i | 0 <= i < |s.quizzes| && s.quizzes[i].id != quizId :: s.quizzes[i] in t.quizzes
    ensures forall i | 0 <= i < |s.questions| && s.questions[i].quizId != quizId ::
      s.questions[i] in t.questions
    ensures forall i | 0 <= i < |s.submissions| && s.submissions[i].quizId != quizId ::
      s.submissions[i] in t.submissions
    ensures forall i | 0 <= i < |s.answers| && !AnswerOfQuiz(s, quizId, s.answers[i]) ::
      s.answers[i] in t.answers
    ensures forall i | 0 <= i < |t.quizzes| :: t.quizzes[i] in s.quizzes
    ensures forall i | 0 <= i < |t.questions| :: t.questions[i] in s.questions
    ensures forall i | 0 <= i < |t.submissions| :: t.submissions[i] in s.submissions
    ensures forall i | 0 <= i < |t.answers| :: t.answers[i] in s.answers
    ensures t.users == s.users && t.courses == s.courses && t.enrollments == s.enrollments
    ensures t.notifications == s.notifications && t.next == s.next
  {
    var goneSubmissions := set i | 0 <= i < |s.submissions| && s.submissions[i].quizId == quizId
      :: s.submissions[i].id as int;
    var goneQuestions := set i | 0 <= i < |s.questions| && s.questions[i].quizId == quizId
      :: s.questions[i].id as int;
    var t := s.(
      quizzes := Filter(s.quizzes, (q: Quiz) => q.id != quizId),
      questions := Filter(s.questions, (q: Question) => q.quizId != quizId),
      submissions := Filter(s.submissions, (u: Submission) => u.quizId != quizId),
      answers := Filter(s.answers, (a: Answer) =>
        a.submissionId !in goneSubmissions && a.questionId !in goneQuestions));
    forall i | 0 <= i < |s.quizzes| && s.quizzes[i].id != quizId ensures s.quizzes[i] in t.quizzes {
      FilterKeeps(s.quizzes, (q: Quiz) => q.id != quizId, i);
    }
    forall i | 0 <= i < |s.questions| && s.questions[i].quizId != quizId
      ensures s.questions[i] in t.questions
    {
      FilterKeeps(s.questions, (q: Question) => q.quizId != quizId, i);
    }
    forall i | 0 <= i < |s.submissions| && s.submissions[i].quizId != quizId
      ensures s.submissions[i] in t.submissions
    {
      FilterKeeps(s.submissions, (u: Submission) => u.quizId != quizId, i);
    }
    forall i | 0 <= i < |s.answers| && !AnswerOfQuiz(s, quizId, s.answers[i])
      ensures s.answers[i] in t.answers
    {
      var a := s.answers[i];
      assert a.submissionId !in goneSubmissions;
      assert a.questionId !in goneQuestions;
      FilterKeeps(s.answers, (a: Answer) =>
        a.submissionId !in goneSubmissions && a.questionId !in goneQuestions, i);
    }
    t
  }

  /** Answer `a` belongs to a submission of quiz `quizId` or answers one of
      its questions: the rows the cascades reach. */
  predicate AnswerOfQuiz(s: Store, quizId: int, a: Answer)
  {
    || (exists k | 0 <= k < |s.submissions| ::
          s.submissions[k].quizId == quizId && a.submissionId == s.submissions[k].id)
    || (exists k | 0 <= k < |s.questions| ::
          s.questions[k].quizId == quizId && a.questionId == s.questions[k].id)
  }

  /** Deleting a quiz keeps the store's invariant. */
  lemma DeleteQuizPreservesValid(s: Store, quizId: int)
    requires Valid(s)
    ensures Valid(DeleteQuiz(s, quizId))
  {
    var t := DeleteQuiz(s, quizId);
    var goneSubmissions := set i | 0 <= i < |s.submissions| && s.submissions[i].quizId == quizId
      :: s.submissions[i].id as int;
    var goneQuestions := set i | 0 <= i < |s.questions| && s.questions[i].quizId == quizId
      :: s.questions[i].id as int;
    var pa := (a: Answer) => a.submissionId !in goneSubmissions && a.questionId !in goneQuestions;
    KeysBelowFilter(s.quizzes, QuizId, s.next, (q: Quiz) => q.id != quizId);
    KeysBelowFilter(s.questions, QuestionId, s.next, (q: Question) => q.quizId != quizId);
    KeysBelowFilter(s.submissions, SubmissionId, s.next, (u: Submission) => u.quizId != quizId);
    KeysBelowFilter(s.answers, AnswerId, s.next, pa);
    UniqueFilter(s.submissions, SubmissionPair, (u: Submission) => u.quizId != quizId);
    UniqueFilter(s.answers, AnswerPair, pa);
    forall i | 0 <= i < |t.answers| ensures t.answers[i].submissionId < t.next {
      assert t.answers[i] in s.answers;
    }
  }
}

=== FILE: notifications.dfy ===
/** The notification inbox (BACKEND/routes/notifications.py): the twenty
    most recent notifications of a user, newest first, and marking all of
    a user's notifications read.

    The query orders by the `timestamp` column. The schema's default for
    that column is `datetime.now()` evaluated once, when the module is
    loaded, so as written every notification carries the same stamp and
    the ordering cannot tell them apart (see `NotifyAsWritten`). The rest
    of the model stamps each notification from the store's counter, which
    is the ordering the inbox evidently intends. */
module Notifications {
  import opened Basics
  import opened Models

  /** The size of one page: the query's `.limit(20)`. */
  const PageSize: nat := 20

  function ToUser(userId: int): Notification -> bool
  {
    (n: Notification) => n.recipientId == userId
  }

  /** `a` may be listed before `b`: its stamp is no older. */
  predicate Later(a: Notification, b: Notification)
  {
    a.timestamp >= b.timestamp
  }

  lemma LaterOrder()
    ensures TotalPreorder(Later)
  {
  }

  /** All the user's notifications, newest first; equal stamps keep
      table order. */
  function NewestFirst(s: Store, userId: int): (r: seq<Notification>)
    ensures RankedBy(r, Later)
    ensures multiset(r) == multiset(Filter(s.notifications, ToUser(userId)))
    ensures |r| == Count(s.notifications, ToUser(userId))
  {
    LaterOrder();
    var sorted := SortBy(Filter(s.notifications, ToUser(userId)), Later);
    SortedRanked(sorted, Later);
    sorted
  }

  /** The first page of `xs`. */
  function FirstPage<T>(xs: seq<T>): (r: seq<T>)
    ensures |r| == if |xs| < PageSize then |xs| else PageSize
    ensures r == xs[..|r|]
  {
    if |xs| < PageSize then xs else xs[..PageSize]
  }

  /** `get_notifications`: the user's notifications ordered by stamp,
      newest first, at most a page of them, each listed no more often than
      the table holds it; no older notification of the user is left out
      while a newer one is listed. */
  function Inbox(s: Store, userId: int): (r: seq<Notification>)
    ensures |r| == if Count(s.notifications, ToUser(userId)) < PageSize
                   then Count(s.notifications, ToUser(userId)) else PageSize
    ensures multiset(r) <= multiset(Filter(s.notifications, ToUser(userId)))
    ensures forall n | n in r :: n in s.notifications && n.recipientId == userId
    ensures RankedBy(r, Later)
    ensures forall n | n in s.notifications && n.recipientId == userId && n !in r ::
      forall k | 0 <= k < |r| :: r[k].timestamp >= n.timestamp
  {
    InboxMembers(s, userId);
    InboxTop(s, userId);
    InboxCopies(s, userId);
    FirstPage(NewestFirst(s, userId))
  }

  lemma InboxCopies(s: Store, userId: int)
    ensures multiset(FirstPage(NewestFirst(s, userId)))
         <= multiset(Filter(s.notifications, ToUser(userId)))
  {
    var sorted := NewestFirst(s, userId);
    PrefixSubMultiset(sorted, |FirstPage(sorted)|);
  }

  lemma InboxMembers(s: Store, userId: int)
    ensures forall n | n in FirstPage(NewestFirst(s, userId)) ::
      n in s.notifications && n.recipientId == userId
  {
    var sorted := NewestFirst(s, userId);
    forall n | n in FirstPage(sorted) ensures n in s.notifications && n.recipientId == userId {
      assert n in multiset(sorted);
      assert n in Filter(s.notifications, ToUser(userId));
    }
  }

  lemma InboxTop(s: Store, userId: int)
    ensures forall n | n in s.notifications && n.recipientId == userId
                       && n !in FirstPage(NewestFirst(s, userId)) ::
      forall k | 0 <= k < |FirstPage(NewestFirst(s, userId))| ::
        FirstPage(NewestFirst(s, userId))[k].timestamp >= n.timestamp
  {
    var sorted := NewestFirst(s, userId);
    var r := FirstPage(sorted);
    forall n | n in s.notifications && n.recipientId == userId && n !in r
      ensures forall k | 0 <= k < |r| :: r[k].timestamp >= n.timestamp
    {
      var i :| 0 <= i < |s.notifications| && s.notifications[i] == n;
      FilterKeeps(s.notifications, ToUser(userId), i);
      assert n in multiset(sorted);
      var j :| 0 <= j < |sorted| && sorted[j] == n;
      forall k | 0 <= k < |r| ensures r[k].timestamp >= n.timestamp {
        assert r[k] == sorted[k];
        assert Later(sorted[k], sorted[j]);
      }
    }
  }

  /** With stamps taken from the store's counter, the inbox holds the
      user's newest notifications: one listed means every later one of the
      user is listed too. */
  lemma InboxKeepsNewest(s: Store, userId: int, i: nat, j: nat)
    requires Valid(s)
    requires i < j < |s.notifications|
    requires s.notifications[i].recipientId == userId && s.notifications[j].recipientId == userId
    requires s.notifications[i] in Inbox(s, userId)
    ensures s.notifications[j] in Inbox(s, userId)
  {
    assert NotificationTime(s.notifications[i]) < NotificationTime(s.notifications[j]);
  }

  /** With stamps taken from the store's counter, a notification just sent
      to the user heads the user's inbox. */
  lemma NotifyHeadsInbox(s: Store, userId: int, m: Message)
    requires Valid(s)
    ensures Inbox(Notify(s, [userId], m), userId) != []
    ensures Inbox(Notify(s, [userId], m), userId)[0]
      == Notification(s.next, userId, m, false, s.next)
  {
    var t := Notify(s, [userId], m);
    var n := Notification(s.next, userId, m, false, s.next);
    NotifyOneNewest(s, userId, m);
    FilterKeeps(t.notifications, ToUser(userId), |s.notifications|);
    NewestHeads(Inbox(t, userId), t.notifications, n);
  }

  /** Notifying one user appends one notification, newer than every
      other. */
  lemma NotifyOneNewest(s: Store, userId: int, m: Message)
    requires Valid(s)
    ensures var t := Notify(s, [userId], m);
      var n := Notification(s.next, userId, m, false, s.next);
      && t.notifications == s.notifications + [n]
      && forall x | x in t.notifications && x != n :: x.timestamp < n.timestamp
  {
    var t := Notify(s, [userId], m);
    var n := Notification(s.next, userId, m, false, s.next);
    assert t.notifications == s.notifications + [n] by {
      assert t.notifications[..|s.notifications|] == s.notifications;
    }
    forall x | x in t.notifications && x != n ensures x.timestamp < n.timestamp {
      var k :| 0 <= k < |t.notifications| && t.notifications[k] == x;
      assert NotificationTime(s.notifications[k]) < s.next;
    }
  }

  /** The head of a newest-first list that leaves out nothing newer than
      what it lists is the notification newer than all others. */
  lemma NewestHeads(r: seq<Notification>, all: seq<Notification>, n: Notification)
    requires |r| > 0 && RankedBy(r, Later) && n in all
    requires forall x | x in r :: x in all
    requires n !in r ==> forall k | 0 <= k < |r| :: r[k].timestamp >= n.timestamp
    requires forall x | x in all && x != n :: x.timestamp < n.timestamp
    ensures r[0] == n
  {
    if n in r {
      var j :| 0 <= j < |r| && r[j] == n;
      if j > 0 {
        assert Later(r[0], r[j]);
      }
    }
  }

  /** `Notify` as the schema writes it: the stamp is the fixed time the
      module was loaded, the same for every notification. */
  function NotifyAsWritten(s: Store, recipients: seq<int>, m: Message, loadTime: nat): (t: Store)
    ensures t == s.(notifications := t.notifications, next := t.next)
    ensures t.next == s.next + |recipients|
    ensures |t.notifications| == |s.notifications| + |recipients|
    ensures t.notifications[..|s.notifications|] == s.notifications
    ensures forall k :: 0 <= k < |recipients| ==>
      t.notifications[|s.notifications| + k]
        == Notification(s.next + k, recipients[k], m, false, loadTime)
    decreases |recipients|
  {
    if recipients == [] then s
    else
      var n := Notification(s.next, recipients[0], m, false, loadTime);
      var s' := s.(notifications := s.notifications + [n], next := s.next + 1);
      var t := NotifyAsWritten(s', recipients[1..], m, loadTime);
      assert t.notifications[|s.notifications|] == n by {
        assert t.notifications[..|s'.notifications|] == s'.notifications;
      }
      t
  }

  /** Two notifications to user 1 stamped as written: the first one sent. */
  function TwoNotices(): Store
  {
    NotifyAsWritten(NotifyAsWritten(EmptyStore, [1], QuizUploaded(7), 0), [1], QuizUploaded(8), 0)
  }

  lemma TwoNoticesRows()
    ensures TwoNotices().notifications
      == [Notification(0, 1, QuizUploaded(7), false, 0), Notification(1, 1, QuizUploaded(8), false, 0)]
  {
    var s1 := NotifyAsWritten(EmptyStore, [1], QuizUploaded(7), 0);
    assert s1.notifications == [Notification(0, 1, QuizUploaded(7), false, 0)];
    var s2 := TwoNotices();
    assert s2.notifications == s1.notifications + [s2.notifications[1]] by {
      assert s2.notifications[..1] == s1.notifications;
    }
  }

  /** As written, the notification sent last does not head the inbox: the
      older one, with the same stamp, is listed first. */
  lemma AsWrittenNewestNotFirst()
    ensures Inbox(TwoNotices(), 1)[0] == Notification(0, 1, QuizUploaded(7), false, 0)
    ensures Inbox(TwoNotices(), 1)[0] != TwoNotices().notifications[1]
  {
    TwoNoticesRows();
    var a := Notification(0, 1, QuizUploaded(7), false, 0);
    var b := Notification(1, 1, QuizUploaded(8), false, 0);
    assert Filter([a, b], ToUser(1)) == [a, b] by {
      assert [a, b][1..] == [b];
    }
    LaterOrder();
    assert SortBy([b], Later) == [b];
    assert [a, b][1..] == [b];
    assert SortBy([a, b], Later) == InsertBy(a, [b], Later);
  }

  /** As written, the two notifications carry the same stamp, so both of
      their orders are newest first: the query may list either one first,
      and nothing makes the newer one head the inbox. */
  lemma AsWrittenEitherOrder()
    ensures var ns := TwoNotices().notifications;
      RankedBy([ns[0], ns[1]], Later) && RankedBy([ns[1], ns[0]], Later)
  {
    TwoNoticesRows();
  }

  /** `mark_read`: every notification of the user is marked read; nothing
      else changes. */
  function MarkRead(s: Store, userId: int): (r: Outcome<string>)
    ensures r.response == Ok("All marked as read")
    ensures r.store == s.(notifications := r.store.notifications)
    ensures |r.store.notifications| == |s.notifications|
    ensures forall i | 0 <= i < |s.notifications| ::
      r.store.notifications[i] == if s.notifications[i].recipientId == userId
                                   then s.notifications[i].(isRead := true)
                                   else s.notifications[i]
  {
    Outcome(s.(notifications := Map(s.notifications, ReadIfTo(userId))), Ok("All marked as read"))
  }

  function ReadIfTo(userId: int): Notification -> Notification
  {
    (n: Notification) => if n.recipientId == userId then n.(isRead := true) else n
  }

  /** After marking, everything in the user's inbox is read. */
  lemma MarkReadClearsInbox(s: Store, userId: int)
    ensures forall n | n in Inbox(MarkRead(s, userId).store, userId) :: n.isRead
  {
    var t := MarkRead(s, userId).store;
    forall n | n in Inbox(t, userId) ensures n.isRead {
      var i :| 0 <= i < |t.notifications| && t.notifications[i] == n;
    }
  }

  /** Marking twice is marking once. */
  lemma MarkReadIdempotent(s: Store, userId: int)
    ensures MarkRead(MarkRead(s, userId).store, userId) == MarkRead(s, userId)
  {
    var t := MarkRead(s, userId).store;
    var t' := MarkRead(t, userId).store;
    assert t'.notifications == t.notifications;
  }

  /** Marking keeps the store's invariant: ids and stamps do not change. */
  lemma MarkReadPreservesValid(s: Store, userId: int)
    requires Valid(s)
    ensures Valid(MarkRead(s, userId).store)
  {
    var t := MarkRead(s, userId).store;
    assert forall i | 0 <= i < |t.notifications| ::
      NotificationId(t.notifications[i]) == NotificationId(s.notifications[i])
      && NotificationTime(t.notifications[i]) == NotificationTime(s.notifications[i]);
  }
}

=== FILE: quizzes.dfy ===
/** Quiz authoring and the student's quiz list (BACKEND/routes/quiz.py):
    `create_quiz` with its validation chain, question filtering and
    notification fan-out, and the per-course grouping of
    `get_quizzes_for_student`. Submission and grading are in module
    Grading. */
module Quizzes {
  import opened Basics
  import opened Strings
  import opened Models

  /** One entry of the request's `questions` list. */
  datatype QuestionSpec = QuestionSpec(text: Option<string>, kind: Option<string>,
                                       options: Option<seq<string>>, correctOption: Option<int>)

  /** The JSON body of `create_quiz`; `None` is a key the body leaves out. */
  datatype QuizForm = QuizForm(instructions: Option<string>, teacherId: Option<int>,
                               courseId: Option<int>, questions: Option<seq<QuestionSpec>>,
                               title: Option<string>)

  /** The title a quiz gets when the body has none: the literal string the
      handler passes as the default of `data.get`. */
  const DefaultTitle: string := "course_id"

  /** An entry is stored only when both its text and its type are
      non-empty. */
  predicate Stored(q: QuestionSpec)
  {
    Truthy(q.text) && Truthy(q.kind)
  }

  /** The question rows for the kept entries of a new quiz, with
      consecutive ids from `firstId`. */
  function QuestionRows(specs: seq<QuestionSpec>, quizId: nat, firstId: nat): (rows: seq<Question>)
    requires forall i | 0 <= i < |specs| :: Stored(specs[i])
    ensures |rows| == |specs|
    ensures forall k | 0 <= k < |rows| ::
      Stored(specs[k]) && rows[k] == ToQuestion(specs[k], quizId, firstId + k)
  {
    seq(|specs|, k requires 0 <= k < |specs| => ToQuestion(specs[k], quizId, firstId + k))
  }

  function ToQuestion(spec: QuestionSpec, quizId: nat, id: nat): Question
    requires Stored(spec)
  {
    Question(id, quizId, spec.text.value, spec.kind.value, spec.options, spec.correctOption)
  }

  function InCourse(courseId: int): Enrollment -> bool
  {
    (e: Enrollment) => e.courseId == courseId
  }

  function EnrolledStudent(e: Enrollment): int { e.studentId }

  /** The student of every enrollment row of the course, in table order:
      whom a new quiz is announced to. */
  function EnrolledStudents(enrollments: seq<Enrollment>, courseId: int): seq<int>
  {
    Map(Filter(enrollments, InCourse(courseId)), EnrolledStudent)
  }

  /** The 500 reply `create_quiz` gives when the database rejects the quiz
      row. */
  const QuizFailed: string := "Server error: " + DatabaseError

  /** `create_quiz`. Errors are checked in order: instructions, teacher,
      course, questions; each is a 400 that stores nothing. The quiz row is
      then flushed, and the database rejects it, a 500 that stores nothing,
      when its teacher or its course does not exist (the foreign keys).
      Otherwise the quiz, its kept questions (linked to it, in input order)
      and one unread notification per enrollment row of the course are
      stored. */
  function CreateQuiz(s: Store, form: QuizForm): (r: Outcome<string>)
    ensures r.response.Err? ==> r.store == s
    ensures r.response == Err(400, "Missing instruction") <==> !Truthy(form.instructions)
    ensures r.response == Err(400, "Missing teacher")
      <==> Truthy(form.instructions) && !TruthyInt(form.teacherId)
    ensures r.response == Err(400, "Missing course_id")
      <==> Truthy(form.instructions) && TruthyInt(form.teacherId) && !TruthyInt(form.courseId)
    ensures r.response == Err(400, "Missing questions")
      <==> && Truthy(form.instructions) && TruthyInt(form.teacherId) && TruthyInt(form.courseId)
           && (form.questions.None? || form.questions.value == [])
    ensures r.response == Err(500, QuizFailed)
      <==> Accepted(form) && (!HasUser(s, form.teacherId.value) || !HasCourse(s, form.courseId.value))
    ensures r.response.Ok?
      <==> Accepted(form) && HasUser(s, form.teacherId.value) && HasCourse(s, form.courseId.value)
    ensures r.response.Ok? ==>
      var kept := Filter(form.questions.value, Stored);
      && r.store == r.store.(users := s.users, courses := s.courses,
                             enrollments := s.enrollments, submissions := s.submissions,
                             answers := s.answers)
      && r.store.quizzes
           == s.quizzes + [Quiz(s.next, Some(if form.title.Some? then form.title.value else DefaultTitle),
                                form.instructions.value, form.teacherId.value,
                                form.courseId.value, s.next)]
      && r.store.questions == s.questions + QuestionRows(kept, s.next, s.next + 1)
      && |s.notifications| <= |r.store.notifications|
      && r.store.notifications[..|s.notifications|] == s.notifications
      && Map(Added(s, r.store), RecipientId) == EnrolledStudents(s.enrollments, form.courseId.value)
      && (forall n | n in Added(s, r.store) ::
            !n.isRead && n.message == QuizUploaded(form.courseId.value))
  {
    if !Truthy(form.instructions) then Outcome(s, Err(400, "Missing instruction"))
    else if !TruthyInt(form.teacherId) then Outcome(s, Err(400, "Missing teacher"))
    else if !TruthyInt(form.courseId) then Outcome(s, Err(400, "Missing course_id"))
    else if form.questions.None? || form.questions.value == [] then
      Outcome(s, Err(400, "Missing questions"))
    else if !HasUser(s, form.teacherId.value) || !HasCourse(s, form.courseId.value) then
      Outcome(s, Err(500, QuizFailed))
    else
      var s1 := WithQuiz(s, form);
      var students := EnrolledStudents(s.enrollments, form.courseId.value);
      NotifyAddresses(s1, students, QuizUploaded(form.courseId.value));
      Outcome(Notify(s1, students, QuizUploaded(form.courseId.value)),
              Ok("Quiz created successfully with notifications"))
  }

  /** The request passes every check of `create_quiz`. */
  predicate Accepted(form: QuizForm)
  {
    && Truthy(form.instructions) && TruthyInt(form.teacherId) && TruthyInt(form.courseId)
    && form.questions.Some? && form.questions.value != []
  }

  /** The store with the new quiz and its kept questions, before the
      notifications. */
  function WithQuiz(s: Store, form: QuizForm): Store
    requires Accepted(form)
  {
    var title := if form.title.Some? then form.title.value else DefaultTitle;
    var quiz := Quiz(s.next, Some(title), form.instructions.value, form.teacherId.value,
                     form.courseId.value, s.next);
    var kept := Filter(form.questions.value, Stored);
    s.(quizzes := s.quizzes + [quiz],
       questions := s.questions + QuestionRows(kept, s.next, s.next + 1),
       next := s.next + 1 + |kept|)
  }

  /** The question rows of a new quiz are exactly the entries with
      non-empty text and type: each such entry has a row carrying its data,
      and every row carries the data of such an entry. */
  lemma KeptQuestionsExact(specs: seq<QuestionSpec>, quizId: nat, firstId: nat)
    ensures var rows := QuestionRows(Filter(specs, Stored), quizId, firstId);
      && (forall i | 0 <= i < |specs| && Stored(specs[i]) ::
            exists k | 0 <= k < |rows| :: FromSpec(rows[k], specs[i], quizId))
      && (forall k | 0 <= k < |rows| ::
            exists i | 0 <= i < |specs| :: Stored(specs[i]) && FromSpec(rows[k], specs[i], quizId))
  {
    var kept := Filter(specs, Stored);
    var rows := QuestionRows(kept, quizId, firstId);
    forall i | 0 <= i < |specs| && Stored(specs[i])
      ensures exists k | 0 <= k < |rows| :: FromSpec(rows[k], specs[i], quizId)
    {
      FilterKeeps(specs, Stored, i);
      var k :| 0 <= k < |kept| && kept[k] == specs[i];
      assert FromSpec(rows[k], specs[i], quizId);
    }
    forall k | 0 <= k < |rows|
      ensures exists i | 0 <= i < |specs| :: Stored(specs[i]) && FromSpec(rows[k], specs[i], quizId)
    {
      assert kept[k] in specs;
      var i :| 0 <= i < |specs| && specs[i] == kept[k];
      assert FromSpec(rows[k], specs[i], quizId);
    }
  }

  /** Row `q` of quiz `quizId` carries the data of entry `spec`. */
  predicate FromSpec(q: Question, spec: QuestionSpec, quizId: int)
  {
    && q.quizId == quizId && spec.text == Some(q.text) && spec.kind == Some(q.kind)
    && q.options == spec.options && q.correctOption == spec.correctOption
  }

  /** A new quiz notifies each student enrolled in its course exactly
      once and nobody else. */
  lemma CreateQuizNotifiesEnrolled(s: Store, form: QuizForm)
    requires Unique(s.enrollments, EnrollmentPair)
    requires CreateQuiz(s, form).response.Ok?
    ensures var notified := Map(Added(s, CreateQuiz(s, form).store), RecipientId);
      && Distinct(notified)
      && (forall i | 0 <= i < |s.enrollments| && s.enrollments[i].courseId == form.courseId.value ::
            s.enrollments[i].studentId in notified)
      && (forall x | x in notified :: exists i | 0 <= i < |s.enrollments| ::
            s.enrollments[i].courseId == form.courseId.value && s.enrollments[i].studentId == x)
  {
    EnrolledStudentsExact(s.enrollments, form.courseId.value);
  }

  /** Creating a quiz keeps the store's invariant. */
  lemma CreateQuizPreservesValid(s: Store, form: QuizForm)
    requires Valid(s)
    ensures Valid(CreateQuiz(s, form).store)
  {
    if Accepted(form) && HasUser(s, form.teacherId.value) && HasCourse(s, form.courseId.value) {
      var courseId := form.courseId.value;
      CreateQuizStore(s, form);
      WithQuizValid(s, form);
      NotifyPreservesValid(WithQuiz(s, form), EnrolledStudents(s.enrollments, courseId),
                           QuizUploaded(courseId));
    }
  }

  /** Storing an accepted quiz and its questions keeps the invariant. */
  lemma WithQuizValid(s: Store, form: QuizForm)
    requires Valid(s) && Accepted(form)
    ensures Valid(WithQuiz(s, form))
  {
    var title := if form.title.Some? then form.title.value else DefaultTitle;
    var quiz := Quiz(s.next, Some(title), form.instructions.value, form.teacherId.value,
                     form.courseId.value, s.next);
    var kept := Filter(form.questions.value, Stored);
    QuizRowsValid(s, quiz, QuestionRows(kept, s.next, s.next + 1));
  }

  /** An accepted quiz is stored, then the enrolled students notified. */
  lemma CreateQuizStore(s: Store, form: QuizForm)
    requires Accepted(form) && HasUser(s, form.teacherId.value) && HasCourse(s, form.courseId.value)
    ensures CreateQuiz(s, form).store
         == Notify(WithQuiz(s, form), EnrolledStudents(s.enrollments, form.courseId.value),
                   QuizUploaded(form.courseId.value))
  {
  }

  /** Adding a quiz with id `next` and its question rows with the ids after
      it keeps the invariant. */
  lemma QuizRowsValid(s: Store, quiz: Quiz, rows: seq<Question>)
    requires Valid(s) && quiz.id == s.next
    requires forall k | 0 <= k < |rows| :: rows[k].id == s.next + 1 + k
    ensures Valid(s.(quizzes := s.quizzes + [quiz], questions := s.questions + rows,
                     next := s.next + 1 + |rows|))
  {
    GrowPreservesValid(s, s.next + 1 + |rows|);
    KeysBelowAppend(s.quizzes, QuizId, s.next, quiz, s.next + 1 + |rows|);
    var qs := s.questions + rows;
    assert KeysBelow(qs, QuestionId, s.next + 1 + |rows|) by {
      forall i, j | 0 <= i < j < |qs| ensures qs[i].id < qs[j].id {
        if j >= |s.questions| {
          assert qs[j] == rows[j - |s.questions|];
        }
      }
      forall i | 0 <= i < |qs| ensures qs[i].id < s.next + 1 + |rows| {
        if i >= |s.questions| {
          assert qs[i] == rows[i - |s.questions|];
        }
      }
    }
  }

  /** Under the unique (student, course) constraint, the students of a
      course's enrollment rows are distinct and are exactly the students
      with a row for that course. */
  lemma EnrolledStudentsExact(enrollments: seq<Enrollment>, courseId: int)
    requires Unique(enrollments, EnrollmentPair)
    ensures Distinct(EnrolledStudents(enrollments, courseId))
    ensures forall i | 0 <= i < |enrollments| && enrollments[i].courseId == courseId ::
      enrollments[i].studentId in EnrolledStudents(enrollments, courseId)
    ensures forall x | x in EnrolledStudents(enrollments, courseId) ::
      exists i | 0 <= i < |enrollments| ::
        enrollments[i].courseId == courseId && enrollments[i].studentId == x
  {
    var rows := Filter(enrollments, InCourse(courseId));
    var ids := EnrolledStudents(enrollments, courseId);
    UniqueFilter(enrollments, EnrollmentPair, InCourse(courseId));
    forall i, j | 0 <= i < j < |ids| ensures ids[i] != ids[j] {
      assert EnrollmentPair(rows[i]) != EnrollmentPair(rows[j]);
      assert InCourse(courseId)(rows[i]) && InCourse(courseId)(rows[j]);
    }
    forall i | 0 <= i < |enrollments| && enrollments[i].courseId == courseId
      ensures enrollments[i].studentId in ids
    {
      FilterKeeps(enrollments, InCourse(courseId), i);
      var k :| 0 <= k < |rows| && rows[k] == enrollments[i];
      assert ids[k] == enrollments[i].studentId;
    }
    forall x | x in ids
      ensures exists i | 0 <= i < |enrollments| ::
        enrollments[i].courseId == courseId && enrollments[i].studentId == x
    {
      var k :| 0 <= k < |ids| && ids[k] == x;
      assert rows[k] in enrollments && InCourse(courseId)(rows[k]);
      var i :| 0 <= i < |enrollments| && enrollments[i] == rows[k];
    }
  }

  /** What the student's quiz list shows of one quiz. */
  datatype QuizCard = QuizCard(id: nat, title: Option<string>, instructions: string)

  function Card(q: Quiz): QuizCard { QuizCard(q.id, q.title, q.instructions) }

  function OfCourse(courseId: int): Quiz -> bool
  {
    (q: Quiz) => q.courseId == courseId
  }

  /** The quizzes grouped by course, each group in table order: the loop
      that builds `course_quiz_map`. */
  function GroupByCourse(quizzes: seq<Quiz>): map<int, seq<QuizCard>>
  {
    if quizzes == [] then map[]
    else
      var m := GroupByCourse(quizzes[..|quizzes| - 1]);
      var q := quizzes[|quizzes| - 1];
      m[q.courseId := (if q.courseId in m then m[q.courseId] else []) + [Card(q)]]
  }

  /** The grouping has a key for exactly the courses that have a quiz. */
  lemma {:induction false} GroupByCourseKeys(quizzes: seq<Quiz>)
    ensures forall c :: c in GroupByCourse(quizzes) <==> HasQuizOf(quizzes, c)
  {
    if quizzes != [] {
      var init := quizzes[..|quizzes| - 1];
      GroupByCourseKeys(init);
      forall c ensures HasQuizOf(quizzes, c) <==> HasQuizOf(init, c) || quizzes[|quizzes| - 1].courseId == c {
        if HasQuizOf(init, c) {
          var i :| 0 <= i < |init| && init[i].courseId == c;
          assert quizzes[i] == init[i];
        }
        if HasQuizOf(quizzes, c) {
          var i :| 0 <= i < |quizzes| && quizzes[i].courseId == c;
          if i < |init| {
            assert init[i] == quizzes[i];
          }
        }
      }
    }
  }

  predicate HasQuizOf(quizzes: seq<Quiz>, c: int)
  {
    exists i :: 0 <= i < |quizzes| && quizzes[i].courseId == c
  }

  /** Under each key, the grouping holds the cards of exactly that course's
      quizzes, in table order. */
  lemma {:induction false} GroupByCourseValues(quizzes: seq<Quiz>, c: int)
    requires c in GroupByCourse(quizzes)
    ensures GroupByCourse(quizzes)[c] == Map(Filter(quizzes, OfCourse(c)), Card)
  {
    var init := quizzes[..|quizzes| - 1];
    var q := quizzes[|quizzes| - 1];
    var m := GroupByCourse(init);
    assert quizzes == init + [q];
    FilterAppend(init, [q], OfCourse(c));
    if q.courseId == c {
      assert Filter([q], OfCourse(c)) == [q] by {
        assert [q][1..] == [];
      }
      if c in m {
        GroupByCourseValues(init, c);
      } else {
        GroupByCourseKeys(init);
        FilterNone(init, OfCourse(c));
      }
      MapAppend(Filter(init, OfCourse(c)), [q], Card);
    } else {
      assert Filter([q], OfCourse(c)) == [] by {
        assert [q][1..] == [];
      }
      assert Filter(quizzes, OfCourse(c)) == Filter(init, OfCourse(c));
      GroupByCourseValues(init, c);
    }
  }

  function OfStudent(studentId: int): Enrollment -> bool
  {
    (e: Enrollment) => e.studentId == studentId
  }

  function EnrolledCourse(e: Enrollment): int { e.courseId }

  /** The courses the student has an enrollment row for, in table order. */
  function CoursesOf(enrollments: seq<Enrollment>, studentId: int): seq<int>
  {
    Map(Filter(enrollments, OfStudent(studentId)), EnrolledCourse)
  }

  function InCourses(courseIds: seq<int>): Quiz -> bool
  {
    (q: Quiz) => q.courseId in courseIds
  }

  /** The quizzes of the courses the student is enrolled in, in table order. */
  function StudentQuizzes(s: Store, studentId: int): seq<Quiz>
  {
    Filter(s.quizzes, InCourses(CoursesOf(s.enrollments, studentId)))
  }

  /** The student has an enrollment row for course `c`, and `c` has a quiz. */
  predicate HasQuizFor(s: Store, studentId: int, c: int)
  {
    && (exists i :: 0 <= i < |s.enrollments| && s.enrollments[i].studentId == studentId
                    && s.enrollments[i].courseId == c)
    && (exists j :: 0 <= j < |s.quizzes| && s.quizzes[j].courseId == c)
  }

  /** The student's quiz list has a group for exactly the courses the
      student is enrolled in that have quizzes. */
  lemma StudentQuizGroups(s: Store, studentId: int)
    ensures forall c :: c in GroupByCourse(StudentQuizzes(s, studentId)) <==> HasQuizFor(s, studentId, c)
  {
    var quizzes := StudentQuizzes(s, studentId);
    GroupByCourseKeys(quizzes);
    forall c ensures HasQuizOf(quizzes, c) <==> HasQuizFor(s, studentId, c) {
      if HasQuizOf(quizzes, c) {
        GroupedCourseEnrolled(s, studentId, c);
      }
      if HasQuizFor(s, studentId, c) {
        EnrolledCourseGrouped(s, studentId, c);
      }
    }
  }

  /** A course with one of the student's quizzes is one the student is
      enrolled in, and has a quiz. */
  lemma GroupedCourseEnrolled(s: Store, studentId: int, c: int)
    requires HasQuizOf(StudentQuizzes(s, studentId), c)
    ensures HasQuizFor(s, studentId, c)
  {
    var courseIds := CoursesOf(s.enrollments, studentId);
    var mine := Filter(s.enrollments, OfStudent(studentId));
    var quizzes := StudentQuizzes(s, studentId);
    var k :| 0 <= k < |quizzes| && quizzes[k].courseId == c;
    assert quizzes[k] in s.quizzes;
    var j :| 0 <= j < |s.quizzes| && s.quizzes[j] == quizzes[k];
    assert c in courseIds;
    var l :| 0 <= l < |courseIds| && courseIds[l] == c;
    assert mine[l] in s.enrollments;
    var i :| 0 <= i < |s.enrollments| && s.enrollments[i] == mine[l];
  }

  /** A course the student is enrolled in that has a quiz has one of the
      student's quizzes. */
  lemma EnrolledCourseGrouped(s: Store, studentId: int, c: int)
    requires HasQuizFor(s, studentId, c)
    ensures HasQuizOf(StudentQuizzes(s, studentId), c)
  {
    var courseIds := CoursesOf(s.enrollments, studentId);
    var mine := Filter(s.enrollments, OfStudent(studentId));
    var quizzes := StudentQuizzes(s, studentId);
    var i :| 0 <= i < |s.enrollments| && s.enrollments[i].studentId == studentId
             && s.enrollments[i].courseId == c;
    var j :| 0 <= j < |s.quizzes| && s.quizzes[j].courseId == c;
    FilterKeeps(s.enrollments, OfStudent(studentId), i);
    var l :| 0 <= l < |mine| && mine[l] == s.enrollments[i];
    assert courseIds[l] == c;
    FilterKeeps(s.quizzes, InCourses(courseIds), j);
    var k :| 0 <= k < |quizzes| && quizzes[k] == s.quizzes[j];
  }

  /** Each group of the student's quiz list holds the cards of all of that
      course's quizzes, in table order. */
  lemma StudentQuizGroupContents(s: Store, studentId: int)
    ensures forall c | c in GroupByCourse(StudentQuizzes(s, studentId)) ::
      GroupByCourse(StudentQuizzes(s, studentId))[c]
        == Map(Filter(s.quizzes, OfCourse(c)), Card)
  {
    var courseIds := CoursesOf(s.enrollments, studentId);
    var quizzes := StudentQuizzes(s, studentId);
    var m := GroupByCourse(quizzes);
    GroupByCourseKeys(quizzes);
    forall c | c in m ensures m[c] == Map(Filter(s.quizzes, OfCourse(c)), Card) {
      GroupByCourseValues(quizzes, c);
      assert c in courseIds by {
        var k :| 0 <= k < |quizzes| && quizzes[k].courseId == c;
      }
      FilterOfFilter(s.quizzes, InCourses(courseIds), OfCourse(c));
    }
  }

  /** `get_quizzes_for_student`. A missing student id is a 400; one that is
      not an integer is a database error outside the handler's error
      handling. Otherwise the quizzes of the student's courses, grouped by
      course (see StudentQuizGroups). */
  function QuizzesForStudent(s: Store, studentId: Option<string>)
    : (r: Response<map<int, seq<QuizCard>>>)
    ensures r == Err(400, "Missing student ID") <==> !Truthy(studentId)
    ensures r == Err(500, InternalServerError)
      <==> Truthy(studentId) && ParseInt(studentId.value).None?
    ensures r.Ok? <==> Truthy(studentId) && ParseInt(studentId.value).Some?
    ensures r.Ok? ==> r.value == GroupByCourse(StudentQuizzes(s, ParseInt(studentId.value).value))
  {
    if !Truthy(studentId) then Err(400, "Missing student ID")
    else
      match ParseInt(studentId.value)
      case None => Err(500, InternalServerError)
      case Some(sid) => Ok(GroupByCourse(StudentQuizzes(s, sid)))
  }
}

=== FILE: ranking.dfy ===
/** The quiz leaderboard (`leaderboard` in BACKEND/routes/quiz.py and
    `get_leaderboard` in BACKEND/leaderboard.py, which run the same query)
    and the not-found branch of the submission-detail endpoint.

    The query joins each submission of the quiz to the user with the
    student's id and orders by score descending, then time taken
    ascending. SQL leaves the place of null scores to the database;
    PostgreSQL ranks a null above every number, so under `DESC` the
    submissions whose score was cleared come first. */
module Ranking {
  import opened Basics
  import opened Models
  import opened Grading

  /** One leaderboard entry: the fields both handlers return. */
  datatype LeaderRow = LeaderRow(studentId: int, studentName: Option<string>, timeTaken: int,
                                 score: Option<real>, submittedAt: nat)

  /** The entry for submission `sub` joined to user `u`. */
  function RowOf(sub: Submission, u: User): LeaderRow
  {
    LeaderRow(sub.studentId, u.name, sub.timeTaken, sub.score, sub.submittedAt)
  }

  function HasId(id: int): User -> bool
  {
    (u: User) => u.id == id
  }

  /** `row` is the join of a submission of quiz `quizId` with the user
      whose id is the submission's student id. */
  ghost predicate JoinedFrom(s: Store, quizId: int, row: LeaderRow)
  {
    exists i, j | 0 <= i < |s.submissions| && 0 <= j < |s.users| ::
      && s.submissions[i].quizId == quizId && s.users[j].id == s.submissions[i].studentId
      && row == RowOf(s.submissions[i], s.users[j])
  }

  /** The joined rows of the quiz's submissions, in table order: a
      submission whose student is no user has no row. User ids are a
      primary key, so the student's user is the first with that id. */
  function Entries(subs: seq<Submission>, users: seq<User>, quizId: int): seq<LeaderRow>
    decreases |subs|
  {
    if subs == [] then []
    else
      var rest := Entries(subs[1..], users, quizId);
      if subs[0].quizId != quizId then rest
      else
        match FindIndex(users, HasId(subs[0].studentId))
        case None => rest
        case Some(j) => [RowOf(subs[0], users[j])] + rest
  }

  /** Every entry joins a submission of the quiz with its student. */
  lemma {:induction false} EntriesSound(s: Store, quizId: int, subs: seq<Submission>)
    requires forall k | 0 <= k < |subs| :: subs[k] in s.submissions
    ensures forall row | row in Entries(subs, s.users, quizId) :: JoinedFrom(s, quizId, row)
    decreases |subs|
  {
    if subs != [] {
      EntriesSound(s, quizId, subs[1..]);
      var i :| 0 <= i < |s.submissions| && s.submissions[i] == subs[0];
      if subs[0].quizId == quizId {
        match FindIndex(s.users, HasId(subs[0].studentId))
        case None =>
        case Some(j) =>
          assert JoinedFrom(s, quizId, RowOf(s.submissions[i], s.users[j]));
      }
    }
  }

  /** Every submission of the quiz whose student is a user has an entry,
      joined to the first user with the student's id. */
  lemma {:induction false} EntriesComplete(subs: seq<Submission>, users: seq<User>, quizId: int,
                                           i: nat, j: nat)
    requires i < |subs| && j < |users|
    requires subs[i].quizId == quizId && users[j].id == subs[i].studentId
    ensures exists k | 0 <= k <= j ::
      users[k].id == subs[i].studentId && RowOf(subs[i], users[k]) in Entries(subs, users, quizId)
    decreases |subs|
  {
    if i > 0 {
      EntriesComplete(subs[1..], users, quizId, i - 1, j);
    } else {
      var k := FindIndex(users, HasId(subs[0].studentId)).value;
      assert RowOf(subs[0], users[k]) in Entries(subs, users, quizId);
    }
  }

  /** `a` may be listed before `b`: a null score before a number, a higher
      score before a lower one, and among equal scores no more time taken
      first. */
  predicate Precedes(a: LeaderRow, b: LeaderRow)
  {
    || (a.score.None? && b.score.Some?)
    || (a.score.Some? && b.score.Some? && a.score.value > b.score.value)
    || (a.score == b.score && a.timeTaken <= b.timeTaken)
  }

  /** Every entry may be listed before every later one: higher scores
      first, and among equal scores the faster first. */
  predicate Ranked(rows: seq<LeaderRow>)
  {
    RankedBy(rows, Precedes)
  }

  /** `Precedes` is a total preorder, so the query's `ORDER BY` is one. */
  lemma PrecedesOrder()
    ensures TotalPreorder(Precedes)
  {
    forall a, b, c | Precedes(a, b) && Precedes(b, c) ensures Precedes(a, c) {
    }
  }

  /** The leaderboard: a 404 for an unknown quiz; otherwise exactly the
      joined entries of the quiz's submissions, each once, ranked. */
  function Leaderboard(s: Store, quizId: int): (r: Response<seq<LeaderRow>>)
    ensures r == Err(404, "Quiz not found") <==> !HasQuiz(s, quizId)
    ensures r.Err? ==> r == Err(404, "Quiz not found")
    ensures r.Ok? ==>
      && Ranked(r.value)
      && multiset(r.value) == multiset(Entries(s.submissions, s.users, quizId))
  {
    if !HasQuiz(s, quizId) then Err(404, "Quiz not found")
    else
      PrecedesOrder();
      var rows := SortBy(Entries(s.submissions, s.users, quizId), Precedes);
      SortedRanked(rows, Precedes);
      Ok(rows)
  }

  /** Every leaderboard entry joins a submission of the quiz with its
      student, and every such submission is on the leaderboard. */
  lemma LeaderboardExact(s: Store, quizId: int)
    requires HasQuiz(s, quizId)
    ensures forall row | row in Leaderboard(s, quizId).value :: JoinedFrom(s, quizId, row)
    ensures forall i, j | 0 <= i < |s.submissions| && 0 <= j < |s.users| ::
      s.submissions[i].quizId == quizId && s.users[j].id == s.submissions[i].studentId ==>
        exists k | 0 <= k <= j ::
          s.users[k].id == s.submissions[i].studentId
          && RowOf(s.submissions[i], s.users[k]) in Leaderboard(s, quizId).value
  {
    var entries := Entries(s.submissions, s.users, quizId);
    var board := Leaderboard(s, quizId).value;
    EntriesSound(s, quizId, s.submissions);
    forall row | row in board ensures JoinedFrom(s, quizId, row) {
      assert row in multiset(board);
      assert row in entries;
    }
    forall i, j | 0 <= i < |s.submissions| && 0 <= j < |s.users|
                  && s.submissions[i].quizId == quizId && s.users[j].id == s.submissions[i].studentId
      ensures exists k | 0 <= k <= j ::
        s.users[k].id == s.submissions[i].studentId
        && RowOf(s.submissions[i], s.users[k]) in board
    {
      EntriesComplete(s.submissions, s.users, quizId, i, j);
      var k :| 0 <= k <= j && s.users[k].id == s.submissions[i].studentId
               && RowOf(s.submissions[i], s.users[k]) in entries;
      assert RowOf(s.submissions[i], s.users[k]) in multiset(entries);
    }
  }

  /** `get_student_submission_details`: a 404 when the student has no
      submission for the quiz. Otherwise the answer query names `Question`,
      which the module never imports; the `NameError` is caught and
      reported as a 500. */
  function SubmissionDetails(s: Store, quizId: int, studentId: int): (r: Response<()>)
    ensures r == Err(404, "Submission not found") <==> !Submitted(s, quizId, studentId)
    ensures r != Err(404, "Submission not found") ==>
      r == Err(500, "Server error fetching submission details")
  {
    if !Submitted(s, quizId, studentId) then Err(404, "Submission not found")
    else Err(500, "Server error fetching submission details")
  }
}

=== FILE: strings.dfy ===
/** The Python string operations the handlers rely on: the substring test
    `pat in s`, `s.split(sep)` with a non-empty separator, `s.strip()`, and
    `int(s)` on a decimal string. */
module Strings {
  import opened Basics

  /** `pat` occurs in `s` starting at position `i`. */
  predicate OccursAt(s: string, pat: string, i: nat)
  {
    i + |pat| <= |s| && s[i..i + |pat|] == pat
  }

  /** Python's `pat in s`. */
  predicate Contains(s: string, pat: string)
  {
    exists i :: 0 <= i <= |s| && OccursAt(s, pat, i)
  }

  /** The first occurrence of `pat` in `s` at or after position `i`. */
  function FindFrom(s: string, pat: string, i: nat): (r: Option<nat>)
    requires i <= |s|
    ensures r.Some? ==> i <= r.value <= |s| && OccursAt(s, pat, r.value)
    ensures r.Some? ==> forall j :: i <= j < r.value ==> !OccursAt(s, pat, j)
    ensures r.None? ==> forall j :: i <= j <= |s| ==> !OccursAt(s, pat, j)
    decreases |s| - i
  {
    if OccursAt(s, pat, i) then Some(i)
    else if i == |s| then None
    else FindFrom(s, pat, i + 1)
  }

  /** Python's `s.find(pat)`, with `None` for -1. */
  function Find(s: string, pat: string): (r: Option<nat>)
    ensures r.Some? ==> r.value <= |s| && OccursAt(s, pat, r.value)
    ensures r.Some? ==> forall j :: 0 <= j < r.value ==> !OccursAt(s, pat, j)
    ensures r.None? <==> !Contains(s, pat)
  {
    FindFrom(s, pat, 0)
  }

  /** Python's `sep.join(parts)`. */
  function Join(parts: seq<string>, sep: string): string
  {
    if |parts| == 0 then ""
    else if |parts| == 1 then parts[0]
    else parts[0] + sep + Join(parts[1..], sep)
  }

  /** Nothing before the first occurrence of `pat` contains `pat`. */
  lemma PrefixBeforeFirst(s: string, pat: string, i: nat)
    requires |pat| > 0 && i <= |s|
    requires forall j :: 0 <= j < i ==> !OccursAt(s, pat, j)
    ensures !Contains(s[..i], pat)
  {
    forall j | 0 <= j <= i && OccursAt(s[..i], pat, j)
      ensures false
    {
      assert s[..i][j..j + |pat|] == s[j..j + |pat|];
      assert OccursAt(s, pat, j);
    }
  }

  /** Python's `s.split(sep)` for a non-empty separator: the pieces between
      successive left-to-right occurrences of `sep`; there are at least two
      exactly when `sep` occurs. `SplitJoin` shows the pieces are
      separator-free and join back to `s`. */
  function Split(s: string, sep: string): (parts: seq<string>)
    requires |sep| > 0
    ensures |parts| >= 1
    ensures |parts| >= 2 <==> Contains(s, sep)
    decreases |s|
  {
    match Find(s, sep)
    case None => [s]
    case Some(i) => [s[..i]] + Split(s[i + |sep|..], sep)
  }

  /** No piece of a split contains the separator, and joining the pieces
      with it gives back the text. */
  lemma {:induction false} SplitJoin(s: string, sep: string)
    requires |sep| > 0
    ensures forall k | 0 <= k < |Split(s, sep)| :: !Contains(Split(s, sep)[k], sep)
    ensures Join(Split(s, sep), sep) == s
    decreases |s|
  {
    match Find(s, sep)
    case None =>
    case Some(i) =>
      PrefixBeforeFirst(s, sep, i);
      var rest := Split(s[i + |sep|..], sep);
      SplitJoin(s[i + |sep|..], sep);
      assert s == s[..i] + sep + s[i + |sep|..] by {
        assert s[i..i + |sep|] == sep;
      }
      assert ([s[..i]] + rest)[1..] == rest;
  }

  /** The first piece of a split is the text before the first occurrence of
      the separator, or all of `s` when there is none. */
  lemma FirstPiece(s: string, sep: string)
    requires |sep| > 0
    ensures var p := Split(s, sep)[0];
      && p == s[..|p|]
      && (|p| == |s| || OccursAt(s, sep, |p|))
      && forall j :: 0 <= j < |p| ==> !OccursAt(s, sep, j)
  {
  }

  /** The second piece of a split starts right after the first occurrence
      of the separator and is the first piece of what follows it. */
  lemma SecondPiece(s: string, sep: string)
    requires |sep| > 0 && Contains(s, sep)
    ensures var i := Find(s, sep).value;
      i + |sep| <= |s| && Split(s, sep)[1] == Split(s[i + |sep|..], sep)[0]
  {
  }

  /** Joining two or more pieces is joining all but the last, then the
      separator, then the last piece. */
  lemma {:induction false} JoinLast(parts: seq<string>, sep: string)
    requires |parts| >= 2
    ensures Join(parts, sep) == Join(parts[..|parts| - 1], sep) + sep + parts[|parts| - 1]
  {
    if |parts| > 2 {
      JoinLast(parts[1..], sep);
      assert parts[1..][..|parts| - 2] == parts[..|parts| - 1][1..];
    }
  }

  /** Joining ends with the last piece. */
  lemma JoinEndsWithLast(parts: seq<string>, sep: string)
    requires |parts| >= 1
    ensures var j := Join(parts, sep);
      |parts[|parts| - 1]| <= |j| && j[|j| - |parts[|parts| - 1]|..] == parts[|parts| - 1]
  {
    if |parts| >= 2 {
      JoinLast(parts, sep);
    }
  }

  /** The last piece of a split is what follows the last occurrence of the
      separator: `s` ends with it, and it is preceded by `sep` when there
      was more than one piece. */
  lemma LastPiece(s: string, sep: string)
    requires |sep| > 0
    ensures var parts := Split(s, sep);
      var last := parts[|parts| - 1];
      && |last| <= |s|
      && s[|s| - |last|..] == last
      && (|parts| >= 2 ==> |last| + |sep| <= |s| && s[|s| - |last| - |sep|..|s| - |last|] == sep)
  {
    var parts := Split(s, sep);
    var last := parts[|parts| - 1];
    SplitJoin(s, sep);
    JoinEndsWithLast(parts, sep);
    if |parts| >= 2 {
      JoinLast(parts, sep);
      var front := Join(parts[..|parts| - 1], sep);
      assert s == front + sep + last;
      var k := |front|;
      assert k == |s| - |last| - |sep|;
      assert s[k..k + |sep|] == (front + sep + last)[k..k + |sep|];
    }
  }

  /** Python's `str.isspace()` for one character: the ASCII controls
      TAB to CR and FS to US, the space, NEL, NO-BREAK SPACE and the Unicode
      space separators. */
  predicate IsSpace(c: char)
  {
    var n := c as int;
    || (9 <= n <= 13) || (28 <= n <= 32) || n == 0x85 || n == 0xA0 || n == 0x1680
    || (0x2000 <= n <= 0x200A) || n == 0x2028 || n == 0x2029 || n == 0x202F
    || n == 0x205F || n == 0x3000
  }

  /** The number of whitespace characters `s.lstrip()` removes. */
  function LeadingSpace(s: string): (n: nat)
    ensures n <= |s| && (forall i :: 0 <= i < n ==> IsSpace(s[i]))
    ensures n < |s| ==> !IsSpace(s[n])
  {
    if s != [] && IsSpace(s[0]) then 1 + LeadingSpace(s[1..]) else 0
  }

  /** The number of whitespace characters `s.rstrip()` removes. */
  function TrailingSpace(s: string): (n: nat)
    ensures n <= |s| && (forall i :: |s| - n <= i < |s| ==> IsSpace(s[i]))
    ensures n < |s| ==> !IsSpace(s[|s| - n - 1])
  {
    if s != [] && IsSpace(s[|s| - 1]) then 1 + TrailingSpace(s[..|s| - 1]) else 0
  }

  /** `r` is `s` with the `a` characters before it and the rest after it
      all whitespace. */
  predicate Surrounded(s: string, r: string, a: nat)
  {
    && a + |r| <= |s| && r == s[a..a + |r|]
    && (forall i :: 0 <= i < a ==> IsSpace(s[i]))
    && (forall i :: a + |r| <= i < |s| ==> IsSpace(s[i]))
  }

  /** Python's `s.strip()`: `s` is the result with whitespace around it,
      and the result neither starts nor ends with whitespace. */
  function Strip(s: string): (r: string)
    ensures exists a :: 0 <= a <= |s| && Surrounded(s, r, a)
    ensures r == [] || (!IsSpace(r[0]) && !IsSpace(r[|r| - 1]))
  {
    var a := LeadingSpace(s);
    var b := TrailingSpace(s[a..]);
    forall i | |s| - b <= i < |s|
      ensures IsSpace(s[i])
    {
      assert s[i] == s[a..][i - a];
    }
    assert Surrounded(s, s[a..|s| - b], a);
    s[a..|s| - b]
  }

  /** A string that does not start or end with whitespace strips to itself. */
  lemma StripUntrimmed(s: string)
    requires s != [] && !IsSpace(s[0]) && !IsSpace(s[|s| - 1])
    ensures Strip(s) == s
  {
  }

  /** Stripping twice is stripping once. */
  lemma StripIdempotent(s: string)
    ensures Strip(Strip(s)) == Strip(s)
  {
    var r := Strip(s);
    if r != [] {
      StripUntrimmed(r);
    }
  }

  predicate IsDigit(c: char)
  {
    '0' <= c <= '9'
  }

  /** Decimal digits with single underscores between them, the body that
      `int()` accepts after an optional sign. */
  predicate DigitGroups(t: string)
  {
    && |t| > 0 && IsDigit(t[0]) && IsDigit(t[|t| - 1])
    && (forall i :: 0 <= i < |t| ==> IsDigit(t[i]) || t[i] == '_')
    && (forall i | 0 <= i < |t| :: SingleUnderscore(t, i))
  }

  /** No underscore at `i` is followed by another. */
  predicate SingleUnderscore(t: string, i: nat)
    requires i < |t|
  {
    i + 1 == |t| || t[i] != '_' || t[i + 1] != '_'
  }

  /** The value of a string of decimal digits, most significant first. */
  function DigitsValue(ds: string): nat
    requires forall i :: 0 <= i < |ds| ==> IsDigit(ds[i])
  {
    if ds == [] then 0
    else
      assert IsDigit(ds[|ds| - 1]);
      DigitsValue(ds[..|ds| - 1]) * 10 + (ds[|ds| - 1] as int - '0' as int)
  }

  function NotUnderscore(c: char): bool
  {
    c != '_'
  }

  /** The value of a `DigitGroups` body: its digits with the underscores
      dropped. */
  function GroupsValue(t: string): nat
    requires DigitGroups(t)
  {
    DigitsValue(Filter(t, NotUnderscore))
  }

  /** CPython's default `sys.int_max_str_digits`: `int()` and `str()`
      refuse decimal text of more digits with `ValueError`. */
  const MaxStrDigits: nat := 4300

  /** A `DigitGroups` body has no more digits than `int()` converts. */
  predicate WithinDigitLimit(t: string)
  {
    |Filter(t, NotUnderscore)| <= MaxStrDigits
  }

  /** Python's `int(s)` for a `str` argument and base 10: surrounding
      whitespace, an optional sign, then digits with optional single
      underscores between them, at most `MaxStrDigits` digits in all;
      `None` where Python raises `ValueError`. */
  function ParseInt(s: string): (r: Option<int>)
  {
    var t := Strip(s);
    if |t| > 0 && (t[0] == '-' || t[0] == '+') then
      if DigitGroups(t[1..]) && WithinDigitLimit(t[1..]) then
        var v: int := GroupsValue(t[1..]);
        Some(if t[0] == '-' then -v else v)
      else None
    else if DigitGroups(t) && WithinDigitLimit(t) then Some(GroupsValue(t))
    else None
  }

  /** The decimal digits of `n` without leading zeros, as Python's `str()`
      writes a non-negative integer. */
  function NatToDigits(n: nat): (ds: string)
    ensures |ds| > 0
    ensures forall i :: 0 <= i < |ds| ==> IsDigit(ds[i])
  {
    if n < 10 then [('0' as int + n) as char]
    else NatToDigits(n / 10) + [('0' as int + n % 10) as char]
  }

  /** Python's `str(n)` for an integer. */
  function IntToString(n: int): string
  {
    if n < 0 then "-" + NatToDigits(-n) else NatToDigits(n)
  }

  lemma {:induction false} DigitsRoundTrip(n: nat)
    ensures DigitsValue(NatToDigits(n)) == n
  {
    if n >= 10 {
      DigitsRoundTrip(n / 10);
      var ds := NatToDigits(n);
      assert ds[..|ds| - 1] == NatToDigits(n / 10);
    }
  }

  lemma {:induction false} FilterAllKept(ds: string)
    requires forall i :: 0 <= i < |ds| ==> IsDigit(ds[i])
    ensures Filter(ds, NotUnderscore) == ds
  {
    if ds != [] {
      FilterAllKept(ds[1..]);
    }
  }

  /** The digits Python prints for a non-negative integer parse back as
      a `DigitGroups` body with that value. */
  lemma DigitsParse(m: nat)
    ensures DigitGroups(NatToDigits(m)) && GroupsValue(NatToDigits(m)) == m
    ensures WithinDigitLimit(NatToDigits(m)) <==> |NatToDigits(m)| <= MaxStrDigits
  {
    var ds := NatToDigits(m);
    DigitsRoundTrip(m);
    FilterAllKept(ds);
  }

  /** `int(str(n)) == n` for every integer of at most `MaxStrDigits`
      digits; beyond that `int()` refuses the text (as `str()` itself would
      refuse to write it). */
  lemma ParseIntRoundTrip(n: int)
    ensures |NatToDigits(if n < 0 then -n else n)| <= MaxStrDigits
            ==> ParseInt(IntToString(n)) == Some(n)
    ensures |NatToDigits(if n < 0 then -n else n)| > MaxStrDigits
            ==> ParseInt(IntToString(n)) == None
  {
    if n < 0 {
      NegativeRoundTrip(n);
    } else {
      NonNegativeRoundTrip(n);
    }
  }

  lemma NegativeRoundTrip(n: int)
    requires n < 0
    ensures ParseInt(IntToString(n))
         == if |NatToDigits(-n)| <= MaxStrDigits then Some(n) else None
  {
    var m: nat := -n;
    var ds := NatToDigits(m);
    var s := "-" + ds;
    assert Strip(s) == s by {
      assert s[|s| - 1] == ds[|ds| - 1];
      assert IsDigit(ds[|ds| - 1]);
      StripUntrimmed(s);
    }
    assert s[1..] == ds;
    DigitsParse(m);
    ParseNegative(s, m);
    assert IntToString(n) == s;
  }

  lemma NonNegativeRoundTrip(n: int)
    requires n >= 0
    ensures ParseInt(IntToString(n))
         == if |NatToDigits(n)| <= MaxStrDigits then Some(n) else None
  {
    var ds := NatToDigits(n);
    assert Strip(ds) == ds by {
      assert IsDigit(ds[0]) && IsDigit(ds[|ds| - 1]);
      StripUntrimmed(ds);
    }
    assert ds[0] != '-' && ds[0] != '+' by {
      assert IsDigit(ds[0]);
    }
    DigitsParse(n);
    ParseUnsigned(ds);
  }

  /** `int()` of a trimmed text made of a minus sign and digit groups. */
  lemma ParseNegative(t: string, v: nat)
    requires Strip(t) == t && |t| > 0 && t[0] == '-'
    requires DigitGroups(t[1..]) && GroupsValue(t[1..]) == v
    ensures ParseInt(t) == if WithinDigitLimit(t[1..]) then Some(-(v as int)) else None
  {
  }

  /** `int()` of a trimmed text of digit groups without a sign. */
  lemma ParseUnsigned(t: string)
    requires Strip(t) == t && |t| > 0 && t[0] != '-' && t[0] != '+'
    requires DigitGroups(t)
    ensures ParseInt(t) == if WithinDigitLimit(t) then Some(GroupsValue(t)) else None
  {
  }

  /** An occurrence inside a part of `s` is an occurrence in the part. */
  lemma OccursWithin(s: string, pat: string, lo: nat, j: nat)
    requires lo <= j && lo <= |s|
    ensures OccursAt(s, pat, j) ==> OccursAt(s[lo..], pat, j - lo)
  {
    if OccursAt(s, pat, j) {
      assert s[lo..][j - lo..j - lo + |pat|] == s[j..j + |pat|];
    }
  }

  /** An occurrence in a prefix is an occurrence in the whole. */
  lemma ContainsPrefix(s: string, t: string, pat: string)
    ensures Contains(s, pat) ==> Contains(s + t, pat)
  {
    if Contains(s, pat) {
      var j :| 0 <= j <= |s| && OccursAt(s, pat, j);
      assert (s + t)[j..j + |pat|] == s[j..j + |pat|];
      assert OccursAt(s + t, pat, j);
    }
  }

  /** `pat` ends with a character found nowhere else in it, so no
      occurrence of `pat` overlaps another one's end. */
  predicate LastUnique(pat: string)
  {
    |pat| > 0 && forall k | 0 <= k < |pat| - 1 :: pat[k] != pat[|pat| - 1]
  }

  /** Where `pat` does not occur in `prefix`, no occurrence in
      `prefix + pat + rest` starts inside `prefix`. */
  lemma NoEarlyOccurrence(prefix: string, pat: string, rest: string, j: nat)
    requires LastUnique(pat) && !Contains(prefix, pat) && j < |prefix|
    ensures !OccursAt(prefix + pat + rest, pat, j)
  {
    var u := prefix + pat + rest;
    if j + |pat| <= |prefix| {
      assert u[j..j + |pat|] == prefix[j..j + |pat|];
      assert OccursAt(u, pat, j) ==> OccursAt(prefix, pat, j);
    } else {
      assert u[j + |pat| - 1] == pat[j + |pat| - 1 - |prefix|];
    }
  }

  /** The first occurrence of such a `pat` in `prefix + pat + rest` is the
      one after `prefix` when `prefix` does not contain it. */
  lemma FindAfterPrefix(prefix: string, pat: string, rest: string)
    requires LastUnique(pat) && !Contains(prefix, pat)
    ensures Find(prefix + pat + rest, pat) == Some(|prefix|)
  {
    var u := prefix + pat + rest;
    assert u[|prefix|..|prefix| + |pat|] == pat;
    assert OccursAt(u, pat, |prefix|);
    forall j | 0 <= j < |prefix| ensures !OccursAt(u, pat, j) {
      NoEarlyOccurrence(prefix, pat, rest, j);
    }
  }

  /** A one-character pattern occurs where that character stands. */
  lemma OccursChar(s: string, c: char, j: nat)
    ensures OccursAt(s, [c], j) <==> j < |s| && s[j] == c
  {
    if j < |s| {
      assert s[j..j + 1] == [s[j]];
    }
  }

  /** Splitting `piece + rest` on a one-character separator absent from
      `piece` gives `piece` first, when `rest` is empty or starts with the
      separator. */
  lemma FirstPieceIs(piece: string, rest: string, c: char)
    requires !Contains(piece, [c])
    requires rest == [] || rest[0] == c
    ensures Split(piece + rest, [c])[0] == piece
  {
    var v := piece + rest;
    FirstPiece(v, [c]);
    forall j | 0 <= j < |piece| ensures !OccursAt(v, [c], j) {
      OccursChar(v, c, j);
      OccursChar(piece, c, j);
    }
    if rest != [] {
      OccursChar(v, c, |piece|);
    }
  }

  /** Where `pat` does not occur in `piece`, no occurrence in `piece + rest`
      starts inside `piece` when `rest` is empty or starts with a character
      not in `pat`. */
  lemma NoOccurrenceBefore(piece: string, rest: string, pat: string, j: nat)
    requires |pat| > 0 && !Contains(piece, pat)
    requires rest == [] || rest[0] !in pat
    requires j < |piece|
    ensures !OccursAt(piece + rest, pat, j)
  {
    var v := piece + rest;
    if j + |pat| <= |piece| {
      assert v[j..j + |pat|] == piece[j..j + |pat|];
      assert OccursAt(v, pat, j) ==> OccursAt(piece, pat, j);
    } else if j + |pat| <= |v| {
      assert v[|piece|] == rest[0];
      assert v[j..j + |pat|][|piece| - j] == v[|piece|];
    }
  }

  /** Splitting `piece + rest` on a `pat` absent from `piece` gives a first
      piece that covers `piece`, when `rest` is empty or starts with a
      character not in `pat`. */
  lemma FirstPieceCovers(piece: string, rest: string, pat: string)
    requires |pat| > 0 && !Contains(piece, pat)
    requires rest == [] || rest[0] !in pat
    ensures var p := Split(piece + rest, pat)[0];
      |piece| <= |p| && p[..|piece|] == piece
  {
    var v := piece + rest;
    FirstPiece(v, pat);
    forall j | 0 <= j < |piece| ensures !OccursAt(v, pat, j) {
      NoOccurrenceBefore(piece, rest, pat, j);
    }
    var p := Split(v, pat)[0];
    assert p[..|piece|] == v[..|piece|];
  }

  /** Python's `s.split(marker)[1].split(stop)[0]`: the text after the
      first `marker`, up to the next `stop`, the next `marker` or the end. */
  function PieceAfter(s: string, marker: string, stop: char): (r: string)
    requires |marker| > 0 && Contains(s, marker)
    ensures !Contains(r, [stop]) && !Contains(r, marker)
    ensures var rest := s[Find(s, marker).value + |marker|..];
      && |r| <= |rest| && r == rest[..|r|]
      && (|r| == |rest| || rest[|r|] == stop || OccursAt(rest, marker, |r|))
  {
    var first := Split(s, marker)[1];
    var r := Split(first, [stop])[0];
    SplitJoin(s, marker);
    SplitJoin(first, [stop]);
    SecondPiece(s, marker);
    FirstPiece(s[Find(s, marker).value + |marker|..], marker);
    FirstPiece(first, [stop]);
    OccursChar(first, stop, |r|);
    assert first == r + first[|r|..];
    ContainsPrefix(r, first[|r|..], marker);
    r
  }

  /** The piece after `marker` in a text built around it is what was put
      there: `marker` is not in `prefix` and ends with a character found
      nowhere else in it, the piece has neither `stop` nor `marker`, and what
      follows starts with `stop` if anything. */
  lemma PieceAfterRoundTrip(prefix: string, marker: string, piece: string, rest: string,
                            stop: char)
    requires LastUnique(marker) && stop !in marker
    requires !Contains(prefix, marker)
    requires !Contains(piece, [stop]) && !Contains(piece, marker)
    requires rest == [] || rest[0] == stop
    ensures Contains(prefix + marker + piece + rest, marker)
    ensures PieceAfter(prefix + marker + piece + rest, marker, stop) == piece
  {
    var u := prefix + marker + piece + rest;
    assert u == prefix + marker + (piece + rest);
    FindAfterPrefix(prefix, marker, piece + rest);
    SecondPiece(u, marker);
    assert u[|prefix| + |marker|..] == piece + rest;
    FirstPieceCovers(piece, rest, marker);
    var first := Split(piece + rest, marker)[0];
    FirstPiece(piece + rest, marker);
    var tail := first[|piece|..];
    assert first == piece + tail;
    assert tail == [] || tail[0] == stop by {
      if tail != [] {
        assert tail[0] == (piece + rest)[|piece|];
      }
    }
    FirstPieceIs(piece, tail, stop);
  }

  /** Where the piece after the last `marker` starts: Python's
      `s.split(marker)[-1]` is `s[AfterLast(s, marker)..]`. */
  function AfterLast(s: string, marker: string): (k: nat)
    requires LastUnique(marker) && Contains(s, marker)
    ensures |marker| <= k <= |s| && OccursAt(s, marker, k - |marker|)
    ensures forall j | k - |marker| < j <= |s| :: !OccursAt(s, marker, j)
    ensures s[k..] == Split(s, marker)[|Split(s, marker)| - 1]
  {
    LastPieceFollows(s, marker);
    |s| - |Split(s, marker)[|Split(s, marker)| - 1]|
  }

  /** The last piece of a split on such a `marker` follows its last
      occurrence. */
  lemma LastPieceFollows(s: string, marker: string)
    requires LastUnique(marker) && Contains(s, marker)
    ensures var last := Split(s, marker)[|Split(s, marker)| - 1];
      && |last| + |marker| <= |s| && s[|s| - |last|..] == last
      && OccursAt(s, marker, |s| - |last| - |marker|)
      && forall j | |s| - |last| - |marker| < j <= |s| :: !OccursAt(s, marker, j)
  {
    var parts := Split(s, marker);
    var last := parts[|parts| - 1];
    assert !Contains(last, marker) by {
      SplitJoin(s, marker);
    }
    assert |last| + |marker| <= |s| && s[|s| - |last|..] == last
           && s[|s| - |last| - |marker|..|s| - |last|] == marker by {
      LastPiece(s, marker);
    }
    NotAfterSuffix(s, marker, last);
  }

  /** No occurrence of `marker` starts after one that is followed by a
      `marker`-free rest of `s`. */
  lemma NotAfterSuffix(s: string, marker: string, last: string)
    requires LastUnique(marker) && !Contains(last, marker)
    requires |last| + |marker| <= |s| && s[|s| - |last|..] == last
    requires s[|s| - |last| - |marker|..|s| - |last|] == marker
    ensures forall j | |s| - |last| - |marker| < j <= |s| :: !OccursAt(s, marker, j)
  {
    var k := |s| - |last|;
    forall j | k - |marker| < j <= |s| ensures !OccursAt(s, marker, j) {
      if j >= k {
        OccursWithin(s, marker, k, j);
      } else if j + |marker| <= |s| {
        assert s[k - 1] == marker[|marker| - 1];
        assert s[j..j + |marker|][k - 1 - j] == s[k - 1];
      }
    }
  }

  /** Python's `s.split(marker)[-1].split(stop)[0]`: the text after the
      last `marker`, up to the next `stop` or the end. */
  function PieceAfterLast(s: string, marker: string, stop: char): (r: string)
    requires LastUnique(marker) && Contains(s, marker)
    ensures !Contains(r, [stop]) && !Contains(r, marker)
    ensures var k := AfterLast(s, marker);
      && k + |r| <= |s| && r == s[k..k + |r|]
      && (k + |r| == |s| || s[k + |r|] == stop)
  {
    var k := AfterLast(s, marker);
    var last := s[k..];
    var r := Split(last, [stop])[0];
    assert !Contains(last, marker) by {
      SplitJoin(s, marker);
    }
    assert !Contains(r, [stop]) by {
      SplitJoin(last, [stop]);
    }
    assert r == last[..|r|] && (|r| == |last| || last[|r|] == stop) by {
      FirstPiece(last, [stop]);
      OccursChar(last, stop, |r|);
    }
    assert last == r + last[|r|..];
    ContainsPrefix(r, last[|r|..], marker);
    r
  }

  /** Joining two `marker`-free texts creates no `marker` when the second
      is empty or starts with a character not in it. */
  lemma NoMarkerIn(piece: string, rest: string, marker: string)
    requires |marker| > 0 && !Contains(piece, marker) && !Contains(rest, marker)
    requires rest == [] || rest[0] !in marker
    ensures !Contains(piece + rest, marker)
  {
    var v := piece + rest;
    forall j | 0 <= j <= |v| ensures !OccursAt(v, marker, j) {
      if j < |piece| {
        NoOccurrenceBefore(piece, rest, marker, j);
      } else {
        OccursWithin(v, marker, |piece|, j);
        assert v[|piece|..] == rest;
      }
    }
  }

  /** No occurrence of `marker` starts after the one put between `prefix`
      and a `marker`-free `tail`. */
  lemma NoLaterOccurrence(prefix: string, marker: string, tail: string, j: nat)
    requires LastUnique(marker) && !Contains(tail, marker)
    requires |prefix| < j
    ensures !OccursAt(prefix + marker + tail, marker, j)
  {
    var u := prefix + marker + tail;
    var m := |prefix| + |marker|;
    if j < m {
      if j + |marker| <= |u| {
        assert u[m - 1] == marker[|marker| - 1];
        assert u[j..j + |marker|][m - 1 - j] == u[m - 1];
      }
    } else {
      OccursWithin(u, marker, m, j);
      assert u[m..] == tail;
    }
  }

  /** The piece after the last `marker` in a text built around it is what
      was put there, whatever came before. */
  lemma PieceAfterLastRoundTrip(prefix: string, marker: string, piece: string, rest: string,
                                stop: char)
    requires LastUnique(marker) && stop !in marker
    requires !Contains(piece, [stop]) && !Contains(piece, marker)
    requires rest == [] || (rest[0] == stop && !Contains(rest, marker))
    ensures Contains(prefix + marker + piece + rest, marker)
    ensures PieceAfterLast(prefix + marker + piece + rest, marker, stop) == piece
  {
    var u := prefix + marker + piece + rest;
    var m := |prefix| + |marker|;
    assert u[|prefix|..m] == marker;
    assert OccursAt(u, marker, |prefix|);
    var k := AfterLast(u, marker);
    if rest == [] {
      assert !Contains(rest, marker);
    }
    NoMarkerIn(piece, rest, marker);
    assert u == prefix + marker + (piece + rest);
    forall j | |prefix| < j <= |u| ensures !OccursAt(u, marker, j) {
      NoLaterOccurrence(prefix, marker, piece + rest, j);
    }
    assert k == m;
    assert u[m..] == piece + rest;
    FirstPieceIs(piece, rest, stop);
  }
}

=== FILE: youtube.dfy ===
/** The YouTube proxy endpoints (BACKEND/routes/youtube.py): their
    parameter checks and the playlist id taken from the URL. The requests
    to the YouTube API and the paging through its replies are network I/O
    and are not modelled; a successful response here carries the id the
    handler would ask the API about. */
module YouTube {
  import opened Basics
  import opened Strings
  import opened Models

  /** The text that introduces a playlist id in a YouTube URL. */
  const ListMarker: string := "list="

  lemma ListMarkerShape()
    ensures LastUnique(ListMarker) && '&' !in ListMarker
  {
    assert ListMarker == ['l', 'i', 's', 't', '='];
  }

  /** `playlist_url.split("list=")[1].split("&")[0]`: the text after the
      first `list=`, up to the next `&`, the next `list=` or the end. */
  function PlaylistId(url: string): (id: string)
    requires Contains(url, ListMarker)
    ensures !Contains(id, "&") && !Contains(id, ListMarker)
    ensures var rest := url[Find(url, ListMarker).value + |ListMarker|..];
      && |id| <= |rest| && id == rest[..|id|]
      && (|id| == |rest| || rest[|id|] == '&' || OccursAt(rest, ListMarker, |id|))
  {
    PieceAfter(url, ListMarker, '&')
  }

  /** `fetch_playlist`: 400 without a URL, 400 for a URL without `list=`,
      otherwise the playlist whose id the URL carries. */
  function FetchPlaylist(url: Option<string>): (r: Response<string>)
    ensures r == Err(400, "Missing URL") <==> !Truthy(url)
    ensures r == Err(400, "Invalid playlist URL") <==> Truthy(url) && !Contains(url.value, ListMarker)
    ensures r.Ok? <==> Truthy(url) && Contains(url.value, ListMarker)
    ensures r.Ok? ==> !Contains(r.value, "&") && !Contains(r.value, ListMarker)
  {
    if !Truthy(url) then Err(400, "Missing URL")
    else if Contains(url.value, ListMarker) then Ok(PlaylistId(url.value))
    else Err(400, "Invalid playlist URL")
  }

  /** A playlist URL built around an id hands back that id: the text
      before `list=` does not contain it, the id holds neither `&` nor
      `list=`, and the parameters after it start with `&`. */
  lemma FetchPlaylistRoundTrip(prefix: string, id: string, rest: string)
    requires !Contains(prefix, ListMarker)
    requires !Contains(id, "&") && !Contains(id, ListMarker)
    requires rest == [] || rest[0] == '&'
    ensures FetchPlaylist(Some(prefix + ListMarker + id + rest)) == Ok(id)
  {
    ListMarkerShape();
    PieceAfterRoundTrip(prefix, ListMarker, id, rest, '&');
  }

  /** `fetch_video_details`: 400 without a video id; otherwise the id is
      passed on to the API unchanged. */
  function FetchVideoDetails(videoId: Option<string>): (r: Response<string>)
    ensures r == Err(400, "Missing video ID") <==> !Truthy(videoId)
    ensures r.Ok? <==> Truthy(videoId)
    ensures r.Ok? ==> r.value == videoId.value
  {
    if !Truthy(videoId) then Err(400, "Missing video ID") else Ok(videoId.value)
  }
}
